=== FILE: README.md ===
# Panel_LTDC frame-buffer raster engine, in Dafny

This project models the raster engine of `Panel_LTDC`, the LovyanGFX panel driver for a
16-bit RGB565 linear frame buffer (Demo/Panel_LTDC.cpp). The frame buffer holds
`panel_width × panel_height` pixels. Each pixel is two bytes, low byte first. The driver
shows a *logical* screen of `_width × _height` cells, and `_internal_rotation` (0–7) maps
logical cells to physical pixels in three steps:

- a vertical reflection when bit r of `0b10010110` is set;
- a horizontal reflection when `r & 2`;
- an exchange of x and y when `r & 1`.

The model is split into modules:

- `Arith` holds integer facts.
- `Geometry` holds the rotation code and the point and rectangle transforms.
- `Windows` holds the active window and the row-major cursor that wraps.
- `Bytes` reads little-endian pixels.
- `Memory` holds `memcpy`, `memset` and `memset_multi`.
- `Raster` fills rectangles.
- `Scans` holds the fixed-point source walks of `pixelcopy_t`.
- `Calls` is a log of the calls into code outside the model: `display()`, `fp_copy` and `fp_skip`.
- `Transfers` holds the `writeBlock` and `writePixels` runs.
- `Images` holds `writeImage`.
- `Reads` holds `readRect`.
- `Panel` holds the driver class `PanelLTDC` and the `pixelcopy_t` fields it uses, class `PixelCopy`.

The frame buffer is an `array?<bv8>` field, null until `SetFrameBuffer` stores one,
and is written in place. The driver's window,
cursor and orientation are class fields that its methods update. Each loop of the source
is a method with invariants, proved against a specification predicate:

- `Painted`: exactly one physical rectangle holds the colour and every other pixel is unchanged.
- `RunPainted`: the first n cells of a cursor run hold the colour and nothing else changed.
- `RawCopied`: each of the last min(n, area) cells of a cursor run holds its own source
  pixel (an earlier cell on the same pixel was overwritten by a later one), and nothing
  outside the run changed.
- `Blitted` and `Gathered`: rectangle copies between the frame buffer and a source or
  destination image.
- `Route`, `RowsCovered` and `Sample`: which pixels the callbacks are handed, and from which
  source point.

## Model

| member | source | states |
|---|---|---|
| Memory.Memcpy | Demo/Panel_LTDC.cpp:43 | memcpy: the n destination bytes become the n source bytes; every other byte is unchanged (the regions do not overlap) |
| Memory.Memset | Demo/Panel_LTDC.cpp:15 | memset: the n bytes from d hold b; every other byte is unchanged |
| Memory.UniformMeansOneByte | Demo/Panel_LTDC.cpp:12-13 | the shortcut guard memset_multi needs holds exactly when all `size` pattern bytes equal byte 0 |
| Memory.SourceShortcutUpTo3 | Demo/Panel_LTDC.cpp:12-13 | for sizes 1 to 3 the guard as written is equivalent to that needed guard |
| Memory.SourceShortcutWrongForSize4 | Demo/Panel_LTDC.cpp:12-13 | for size 4 the guard as written accepts 0x01000000, whose byte 3 differs from byte 0 |
| Memory.LiteralCopies | Demo/Panel_LTDC.cpp:19-24 | the literal copy count is between 1 and 16 and never above length; it is length when length < 16 and at least 9 otherwise |
| Memory.WriteCopies | Demo/Panel_LTDC.cpp:25-40 | l literal copies of the pattern fill l*size bytes from base, so byte i holds pattern byte (i - base) mod size; nothing else changes; the returned pointer is just past them |
| Memory.WriteCopy | Demo/Panel_LTDC.cpp:34-38 | one pass of the byte loop appends one more copy of the pattern after the n already written and changes nothing else |
| Memory.ExtendPattern | Demo/Panel_LTDC.cpp:42-50 | copying n <= len bytes of a patterned prefix of len = m*size bytes to just after it leaves the pattern unbroken over len + n bytes; only those n bytes change |
| Memory.MemsetMulti | Demo/Panel_LTDC.cpp:9-51 | afterwards byte i of the size*length filled bytes is little-endian byte i mod size of c, and no byte outside them changed (using the corrected guard) |
| Geometry.FlipsY | Demo/Panel_LTDC.cpp:263 | bit r of 0b10010110 is set exactly for r in {1, 2, 4, 7} |
| Geometry.FlipsX | Demo/Panel_LTDC.cpp:267 | `r & 2` holds exactly for r in {2, 3, 6, 7} |
| Geometry.Transposes | Demo/Panel_LTDC.cpp:271 | `r & 1` holds exactly for odd r |
| Geometry.InternalRotation | Demo/Panel_LTDC.cpp:85-88 | the internal code lies in 0..7; its quarter-turn part is (r + offset) mod 4 and its mirror bit is the exclusive or of the two mirror bits |
| Geometry.ToPhysical | Demo/Panel_LTDC.cpp:260-277 | the point transform maps every logical cell of the width by height screen into the physical panel |
| Geometry.ToLogical | Demo/Panel_LTDC.cpp:260-277 | every physical pixel is the image of a logical cell, so the transform is onto |
| Geometry.LogicalOfPhysical | Demo/Panel_LTDC.cpp:260-277 | mapping back recovers the logical cell, so the transform is one-to-one |
| Geometry.ToPhysicalRect | Demo/Panel_LTDC.cpp:293-309 | the transformed rectangle lies on the panel, has the same area, and has its sides exchanged exactly on a transpose |
| Geometry.PhysicalRectImage | Demo/Panel_LTDC.cpp:293-309 | a logical cell lies in the logical rectangle iff its physical pixel lies in the transformed rectangle, so the rectangle is exactly the image of the logical one |
| Geometry.PhysicalRectPreimage | Demo/Panel_LTDC.cpp:293-309 | a physical pixel lies in the transformed rectangle iff the logical cell it shows lies in the logical rectangle |
| Geometry.PixelIndex | Demo/Panel_LTDC.cpp:276-277 | index x + y*panel_width of a panel point lies in the buffer |
| Geometry.IndexInjective | Demo/Panel_LTDC.cpp:277 | distinct panel points have distinct buffer indices |
| Geometry.IndexOfPoint | Demo/Panel_LTDC.cpp:277 | the row-major index of a panel point is in range and determines the point |
| Geometry.PointOfIndex | Demo/Panel_LTDC.cpp:277 | every buffer index is the row-major index of exactly one panel point |
| Bytes.PixelIsValue | Demo/Panel_LTDC.cpp:279-280 | the two bytes of a pixel are the low bytes of rawcolor iff the 16-bit pixel equals the low 16 bits of rawcolor |
| Bytes.LittleEndian | Demo/Panel_LTDC.cpp:30 | the byte pair (lo, hi) is the little-endian store of the low 16 bits of c, and only it |
| Windows.Window.Advance | Demo/Panel_LTDC.cpp:155-159 | the cursor n cells on stays in the window, at row-major offset (offset + n) mod area |
| Windows.AdvanceOne | Demo/Panel_LTDC.cpp:155-159 | one cell on is the next column, or the left edge of the next row, or the top-left cell after the last row |
| Windows.AdvanceAdd | Demo/Panel_LTDC.cpp:113-134 | advancing by d and then by n is advancing by d + n |
| Windows.CoveredIffVisited | Demo/Panel_LTDC.cpp:113-134 | a cell is among the first n cells of a run iff the cursor stands on it after some k < n steps |
| Windows.BlockCover | Demo/Panel_LTDC.cpp:115-121 | the cells covered after a block of writeBlock are those covered before plus the block's rectangle |
| Windows.BlockCursor | Demo/Panel_LTDC.cpp:122-130 | after a block the cursor is right of it in the same row, or at the left edge of the row below it, wrapping to the top row |
| Windows.AdvanceDistinct | Demo/Panel_LTDC.cpp:193-210 | within one lap of the window the cursor never visits a cell twice |
| Raster.PatternPaints | Demo/Panel_LTDC.cpp:328 | a 2-byte memset_multi span paints its pixels with rawcolor and leaves other pixels unchanged |
| Raster.CopyPaints | Demo/Panel_LTDC.cpp:331 | copying a painted span paints the destination span and changes nothing else |
| Raster.SpanIsRect | Demo/Panel_LTDC.cpp:276-281 | a painted index span whose indices are exactly those of a rectangle paints that rectangle |
| Raster.FirstRow | Demo/Panel_LTDC.cpp:328 | painting the first row's span paints the first row of the rectangle |
| Raster.PaintRow | Demo/Panel_LTDC.cpp:329-333 | painting row k's span extends a k-row painted rectangle to k+1 rows |
| Raster.FullWidthRows | Demo/Panel_LTDC.cpp:319-327 | for a full-width rectangle one run of w*h pixels paints the rectangle, which justifies the fold `w *= h; h = 1` |
| Raster.FillRect | Demo/Panel_LTDC.cpp:310-345 | every pixel of the physical rectangle holds rawcolor; every other pixel is unchanged |
| Raster.FillRows | Demo/Panel_LTDC.cpp:310-334 | the same for the row-copy path of rectangles wider than one pixel, full-width fold included |
| Raster.CopyRow | Demo/Panel_LTDC.cpp:329-333 | one memcpy of the row loop extends the painted rows by one |
| Raster.FillColumn | Demo/Panel_LTDC.cpp:335-345 | the strided loop for width 1 paints the column and nothing else |
| Scans.NegatesAddY | Demo/Panel_LTDC.cpp:429-432 | `(r + 1) & 2` holds exactly for r in {1, 2, 5, 6} |
| Scans.FlippedSampling | Demo/Panel_LTDC.cpp:469-482 | after the flips, the walk at the reflected row and pixel samples the source point of the unflipped row and pixel |
| Scans.TransposedSample | Demo/Panel_LTDC.cpp:483-489 | exchanging the row step and the pixel step exchanges row and pixel |
| Scans.RotatedWalk | Demo/Panel_LTDC.cpp:465-491 | the rotated walk samples, at the rotated row and column, the source point the plain walk samples at row i and pixel j |
| Scans.RotatedPlace | Demo/Panel_LTDC.cpp:469-486 | logical pixel (j, i) of the rectangle is the physical pixel at that rotated row and column of the transformed rectangle |
| Scans.RotatedSampling | Demo/Panel_LTDC.cpp:460-492 | _rotate_pixelcopy is correct: the physical pixel that shows logical pixel (j, i) is handed the source point the unrotated walk gives (j, i) |
| Scans.ReadSampling | Demo/Panel_LTDC.cpp:413-449 | readRect's walk samples, at row i and pixel j, the physical pixel of logical cell (x + j, y + i), in fixed point |
| Calls.TargetsAppend | Demo/Panel_LTDC.cpp:154 | the pixels targeted by a log followed by one call are those of the log followed by those of the call |
| Calls.CoversAppendAll | Demo/Panel_LTDC.cpp:384-385 | the pixels covered by two logs in sequence are those of the first followed by those of the second |
| Calls.RowsCoveredNext | Demo/Panel_LTDC.cpp:382-390 | the pixels of n+1 rows are those of n rows followed by row n's span x + (y+n)*panel_width, w wide |
| Calls.RowsCoveredIndex | Demo/Panel_LTDC.cpp:382-390 | entry j + i*w of the row spans is the frame-buffer index of pixel (x + j, y + i) |
| Transfers.Route | Demo/Panel_LTDC.cpp:136-255 | entry k of a run's route is the physical pixel of the cursor k cells on |
| Transfers.BlockStep | Demo/Panel_LTDC.cpp:115-121 | filling the physical image of a block extends the painted run by the block's w*h cells |
| Transfers.RowRoute | Demo/Panel_LTDC.cpp:153-154 | at rotation 0 a run of t cells along one row is the span x .. x+t-1 of that row handed to fp_copy |
| Transfers.CopyRuns | Demo/Panel_LTDC.cpp:149-163 | at rotation 0 the row spans handed to fp_copy are, in order, exactly the pixels of the run; the cursor ends length cells on |
| Transfers.ReflectedNext | Demo/Panel_LTDC.cpp:199-209 | the step of the reflected cursor (+ax, wrap to xs, +ay, wrap to ys) is the reflection of the logical step |
| Transfers.ReflectedStep | Demo/Panel_LTDC.cpp:166-181 | the reflected walk from the reflected window corners follows the logical run cell by cell |
| Transfers.CopyEach | Demo/Panel_LTDC.cpp:166-254 | with conversion at a non-zero rotation, the one-pixel fp_copy calls target exactly the run's pixels in order; after the reflections are undone the cursor is length cells on |
| Transfers.CopyLoop | Demo/Panel_LTDC.cpp:214-243 | the two one-pixel fp_copy loops, in reflected coordinates, with the transposed row choice |
| Transfers.SwapIndex | Demo/Panel_LTDC.cpp:185-191 | idx = y*yw + x*xw is the frame-buffer index of the physical pixel of the reflected cursor |
| Transfers.SwapIndexStep | Demo/Panel_LTDC.cpp:201 | a step along the reflected row moves that index by xw*ax |
| Transfers.RawStep | Demo/Panel_LTDC.cpp:193-198 | writing source pixel n to the pixel of cell n extends the raw copy by one cell |
| Transfers.RawLoop | Demo/Panel_LTDC.cpp:193-210 | the no_convert loop, in reflected coordinates, copies source pixel k to the physical pixel of cell k |
| Transfers.RawNext | Demo/Panel_LTDC.cpp:199-208 | the cursor step of the no_convert loop moves to the reflected image of the next window cell and keeps idx its physical pixel index |
| Transfers.CopyRaw | Demo/Panel_LTDC.cpp:166-254 | without conversion, each of the last min(length, area) cells written holds its own source pixel, no pixel outside the run changes, and the cursor ends length cells on |
| Images.CopySpan | Demo/Panel_LTDC.cpp:368 | one memcpy row copies n source pixels to n frame-buffer pixels and changes nothing else |
| Images.BlitRow | Demo/Panel_LTDC.cpp:367-369 | copying row k extends a k-row image copy to k+1 rows |
| Images.RowStart | Demo/Panel_LTDC.cpp:358-366 | the byte offset of row k (destination or source) is twice the pixel index of its first pixel, and the row fits in its image |
| Images.BlitOffsets | Demo/Panel_LTDC.cpp:359-366 | the fast path's destination and source start offsets are twice the pixel indices of the two corners, the row strides are twice the image widths, and a row is 2w bytes |
| Images.BlitLoop | Demo/Panel_LTDC.cpp:367-369 | after the h row copies, the rectangle holds the source block and every other pixel is unchanged |
| Images.BlitOne | Demo/Panel_LTDC.cpp:367-369 | one iteration of the fast-path row loop copies row k |
| Images.BlitRows | Demo/Panel_LTDC.cpp:353-370 | writeImage fast path: fb pixel (x+j, y+i) becomes source pixel (src_x+j, src_y+i); every other pixel is unchanged |
| Images.ImageRow | Demo/Panel_LTDC.cpp:382-386 | the alternating fp_copy/fp_skip calls of one row cover its pixels exactly, in order; every call is tagged with the row, lies within the row's pixels, and each fp_copy gets that row's source start |
| Images.ImageLoop | Demo/Panel_LTDC.cpp:379-391 | the row calls cover the rectangle's rows in order; a call tagged with row k covers only pixels of row k, and an fp_copy of row k is handed source point Sample(walk, k, 0); the source start left behind is that of row h |
| Reads.GatherRow | Demo/Panel_LTDC.cpp:407-408 | one memcpy extends a k-row read to k+1 rows and leaves the rest of dst unchanged |
| Reads.GatherOne | Demo/Panel_LTDC.cpp:407-408 | one iteration of the fast-path read loop reads row k |
| Reads.GatherRows | Demo/Panel_LTDC.cpp:399-410 | readRect fast path: dst pixel j + i*w is fb pixel (x+j, y+i); bytes of dst past 2*w*h are unchanged |
| Reads.FillThenRead | Demo/Panel_LTDC.cpp:399-410 | a rectangle filled with c and then read back by the fast path gives w*h pixels equal to c |
| Reads.ReadLoop | Demo/Panel_LTDC.cpp:445-456 | row k is handed to fp_copy from source point Sample(walk, k, 0); if fp_copy copies whole rows the rows fill destination pixels 0 .. w*h-1 in order |
| Panel.Clamp | Demo/Panel_LTDC.cpp:101-104 | a clamped coordinate lies in 0 .. n-1, is unchanged when already inside, and is n-1 when too large |
| Panel.ClampMonotone | Demo/Panel_LTDC.cpp:101-104 | clamping keeps the order of two coordinates |
| Panel.PanelLTDC.constructor | Demo/Panel_LTDC.cpp:53-55 | a driver starts with no frame buffer, no transaction and an empty call log |
| Panel.PanelLTDC.SetPanelTiming | Demo/Panel_LTDC.hpp:52 | stores the timing |
| Panel.PanelLTDC.SetFrameBuffer | Demo/Panel_LTDC.hpp:53 | stores the frame buffer |
| Panel.PanelLTDC.Init | Demo/Panel_LTDC.cpp:57-72 | with no frame buffer init fails and leaves the panel size alone; otherwise the panel size is the timing's active area and the result is Panel_Device::init's |
| Panel.PanelLTDC.SetColorDepth | Demo/Panel_LTDC.cpp:74-81 | whatever is asked, read and write depth are RGB565 at 16 bits, and RGB565 is returned |
| Panel.PanelLTDC.SetRotation | Demo/Panel_LTDC.cpp:83-96 | stores r & 7 and the internal code; width and height are the panel's, exchanged exactly when the code is odd; for any panel size; with a frame buffer of the panel's size and a 16-bit write depth the driver is then valid |
| Panel.PanelLTDC.SetWindow | Demo/Panel_LTDC.cpp:98-111 | each bound is clamped onto the logical screen; the cursor is (xs, ys); ordered arguments give an ordered window containing the cursor |
| Panel.PanelLTDC.DrawPixelPreclipped | Demo/Panel_LTDC.cpp:257-287 | exactly one pixel changes, the physical pixel of (x, y), and it gets the low 16 bits of rawcolor; display of that pixel is logged iff no transaction is open |
| Panel.PixelWritten | Demo/Panel_LTDC.cpp:276-281 | storing two bytes at pixel index x + y*panel_width paints the one-pixel rectangle there and only it |
| Panel.PanelLTDC.WriteFillRectPreclipped | Demo/Panel_LTDC.cpp:289-346 | the physical image of the logical rectangle holds rawcolor and no other pixel changes |
| Panel.BlockFits | Demo/Panel_LTDC.cpp:115-121 | each block writeBlock chooses is part of a row or whole rows from the left edge, holds between 1 and the remaining cells, and holds all of them when it ends before the right edge |
| Panel.PanelLTDC.WriteBlock | Demo/Panel_LTDC.cpp:113-134 | the physical pixels of the next length window cells from the cursor hold rawcolor, no other pixel changes, and the cursor ends length cells on |
| Panel.PanelLTDC.WritePixels | Demo/Panel_LTDC.cpp:136-255 | for every rotation the cursor ends length cells on, as after writeBlock; raw copies land cell by cell on the run's pixels; otherwise the fp_copy calls target exactly the run's pixels in order |
| Panel.PanelLTDC.RotatePixelcopy | Demo/Panel_LTDC.cpp:460-492 | the rectangle becomes its physical image and the source walk becomes the rotated walk |
| Panel.PanelLTDC.WriteImage | Demo/Panel_LTDC.cpp:348-392 | fast path: the image copy of BlitRows; otherwise the row calls cover the physical rectangle's rows in order, each call lies within its own row and an fp_copy gets that row's start in the rotated walk, and the source position and the two step fields left in param are those of the rotated walk; no other param field changes |
| Panel.ImagePixelSource | Demo/Panel_LTDC.cpp:372-391 | in the general writeImage path, the physical pixel showing logical pixel (j, i) is covered by the row calls, and the rotated walk samples there the unrotated walk's source point for (j, i) |
| Panel.PanelLTDC.ReadRect | Demo/Panel_LTDC.cpp:394-457 | fast path: the read of GatherRows; otherwise the frame buffer becomes the source, the steps are set as the rotation demands, and row k is handed to fp_copy from Sample(walk, k, 0); the fast path leaves param unchanged, and only the position, step, data and width fields of param are written |
| Panel.ReadSetup | Demo/Panel_LTDC.cpp:415-447 | the general path's start point and step fields are those of the reflected, transposed walk ReadScan |

## Left out

- The controller bring-up of `init` is not modelled. This covers `_setup_ltdc_clock`, `_init_ltdc` and `_init_ltdc_layer` (Demo/Panel_LTDC.cpp:494-573), which only program STM32 HAL registers. The sync and porch arithmetic of the timing is left out for the same reason.
- Demo/LGFX_LTDC_STM32F746G_DISCO.hpp is not part of this model: it is board bring-up only.
- Panel_Device is not part of this model.
  - `display()` becomes an entry in the ghost call log `calls`.
  - `getStartCount()` becomes the ghost counter `startCount`.
  - The result of `Panel_Device::init` is a parameter of `Init`.
- The empty and constant overrides (Demo/Panel_LTDC.hpp:29-30, 35-40, 48-49) are left out because they have no behaviour. The ignored `use_dma` flag is left out for the same reason.
- The bodies of `fp_copy` and `fp_skip` are not part of this model: their pixel-format conversion and their writes to the frame buffer or `dst` are not shown. They are total functions of the row's source start, the position and the end, and every call is recorded in `calls`. As a result:
  - the general paths of `writePixels`, `writeImage` and `readRect` leave the frame buffer bytes unchanged in the model;
  - changes that the callbacks make to `src_x32` within a row are not modelled.
- Panel.PanelLTDC.WriteImage: its general path requires fp_copy never to move backwards or past the row end, and fp_skip to move at least one pixel forward. Without these the source loop at lines 384-385 need not end.
- Panel.PanelLTDC.ReadRect: its ensures does not state where fp_copy's returned index goes. Reads.ReadLoop states it only for an fp_copy that always copies the whole row.
- `FP_SCALE` is not defined in the shown files, so `1 << FP_SCALE` is the parameter `unit` of `PixelCopy`.
- The model uses unbounded integers instead of the source's `uint32_t` step fields and 16-bit coordinates. The fields are only added, negated and multiplied, so they agree with the source modulo 2^32.
- Panel.PanelLTDC.WriteBlock: it requires length >= 1. At length 0 the source picks w = 0 (line 117); with the cursor at xs it then divides by w at line 120, and otherwise it fills the 0-by-1 rectangle at the cursor, which paints the cursor's pixel through the column branch, and returns at line 123.
- Panel.PanelLTDC.WriteFillRectPreclipped: it requires w, h >= 1. With w = 0 and h >= 1 the source takes the column branch (lines 335-344) and paints h pixels of an empty rectangle. With h = 0 the `do … while (--h)` of the column branch and the `while (--h)` of lines 329-333 count down from 0 through the whole counter range; for a full-width rectangle the fold of lines 323-326 makes the fill memset_multi of 0 pixels, which stores nothing for a colour with equal bytes and otherwise enters the `do … while (--l)` of lines 29-32 with l = 0.
- Panel.PanelLTDC.WritePixels: it requires length >= 1. At length 0 and rotation 0 the source makes one fp_copy over the empty span x .. x and stops, since `length -= 0` leaves 0 (lines 151-160); at other rotations the `do … while (--length)` loops count down from 0 through the whole counter range.
- Panel.PanelLTDC.WriteImage: it requires w, h >= 1. At h = 0 the fast path's `do … while (++y != h)` (line 369) and the general path's `do … while (--h)` (line 391) run through the whole counter range. At w = 0 the source copies 0 bytes per row, or hands each row an empty span.
- Panel.PanelLTDC.ReadRect: it requires w, h >= 1. At h = 0 the fast path's `do … while (++y != h)` (line 409) and the general path's `do … while (--h)` (line 456) run through the whole counter range. At w = 0 each row copies 0 bytes, or hands fp_copy an empty span.
- Panel.PanelLTDC.WriteBlock and Panel.PanelLTDC.WritePixels require an ordered window (xs <= xe, ys <= ye) with the cursor inside it. `setWindow` does not enforce this.
- Panel.PanelLTDC.WritePixels: without conversion it requires the source not to alias the frame buffer and to hold 2*length bytes. Panel.PanelLTDC.ReadRect: the fast path requires dst not to alias the frame buffer and to hold 2*w*h bytes.
- Panel.PanelLTDC.WriteImage: in the fast path `src_bits` is taken as 16, which is the only depth this driver writes. The source image's height is a ghost field of `PixelCopy`, because `pixelcopy_t` does not record it.
- Scans.ReadSampling is stated for the steps `src_x32_add = unit` and `src_y32_add = 0` of an unscaled read. ReadRect itself keeps whatever steps it is given.
- `Init` does not recompute `_width`/`_height` after changing the panel size, and neither does the source. A later `SetRotation` re-establishes `Valid()`.
- `rgb565_t` is not part of this model. Storing rawcolor into it is modelled as storing its low 16 bits, low byte first.

## Findings

| source | as written | input that shows it | evidently intended | confidence | as-written member | corrected member |
|---|---|---|---|---|---|---|
| Demo/Panel_LTDC.cpp:12-13 | the memset shortcut compares only bytes 0, 1 and 2 of c, whatever the size | size 4, c = 0x01000000: the guard holds, so memset stores 00 00 00 00 per copy instead of 00 00 00 01 | take the shortcut only when every one of the size pattern bytes equals byte 0 (byte 3 too for size 4) | low (no caller in this file uses size 4); not executed | Memory.SourceShortcutWrongForSize4 | Memory.MemsetMulti |

=== FILE: arith.dfy ===
/** Integer facts shared by the index arithmetic of the frame buffer and the window cursor. */
module Arith {

  function Min(a: int, b: int): (m: int)
    ensures m <= a && m <= b && (m == a || m == b)
  {
    if b < a then b else a
  }

  lemma MulAtLeast(k: int, d: int)
    requires k >= 1 && d > 0
    ensures k * d >= d
  {
  }

  /** Quotient and remainder are unique: the one decomposition x == q*d + r with 0 <= r < d. */
  lemma DivModOf(x: int, d: int, q: int, r: int)
    requires d > 0 && x == q * d + r && 0 <= r < d
    ensures x / d == q && x % d == r
  {
    var q', r' := x / d, x % d;
    assert x == q' * d + r';
    assert (q - q') * d == r' - r;
    if q > q' {
      MulAtLeast(q - q', d);
    } else if q < q' {
      MulAtLeast(q' - q, d);
    }
  }

  /** Reducing modulo d after adding a multiple of d changes nothing. */
  lemma ModShift(x: int, k: int, d: int)
    requires d > 0
    ensures (x + k * d) % d == x % d
  {
    DivModOf(x + k * d, d, x / d + k, x % d);
  }

  lemma ModSmall(v: int, d: int)
    requires 0 <= v < d
    ensures v % d == v
  {
    DivModOf(v, d, 0, v);
  }

  /** Reducing the left summand first does not change the sum modulo d. */
  lemma ModAddLeft(x: int, y: int, d: int)
    requires d > 0
    ensures (x % d + y) % d == (x + y) % d
  {
    ModShift(x % d + y, x / d, d);
    assert x % d + y + x / d * d == x + y;
  }

  /**
   * Cells are numbered 0..a-1 and a run of `done` cells starting at cell
   * `os` has been covered (all of them once done >= a). Covering n more
   * cells, from op = (os + done) mod a to op + n - 1 without wrapping, covers
   * exactly the old cells plus that block.
   */
  lemma CoverExtend(a: int, os: int, done: int, n: int, op: int, oq: int)
    requires a >= 1 && 0 <= os < a && 0 <= oq < a && done >= 0 && n >= 1
    requires op == (os + done) % a && op + n <= a
    ensures (done + n >= a || (oq - os) % a < done + n)
        <==> ((done >= a || (oq - os) % a < done) || op <= oq < op + n)
  {
    if done < a {
      var dq := (oq - os) % a;
      if op <= oq < op + n {
        BlockOffset(a, os, done, op, oq);
      }
      if done <= dq && (done + n >= a || dq < done + n) {
        OffsetBlock(a, os, done, n, op, oq);
      }
    }
  }

  /** A cell oq at distance t from the block start op lies done + t cells after os. */
  lemma BlockOffset(a: int, os: int, done: int, op: int, oq: int)
    requires a >= 1 && 0 <= os < a && 0 <= done < a && op == (os + done) % a && op <= oq < a
    ensures done + (oq - op) < a ==> (oq - os) % a == done + (oq - op)
  {
    var t := oq - op;
    ModAddLeft(os + done, t - os, a);
    assert (os + done) % a + (t - os) == oq - os;
    assert os + done + (t - os) == done + t;
    if done + t < a {
      ModSmall(done + t, a);
    }
  }

  /** A cell oq that is done + t cells after os, t < n, lies t cells after the block start op. */
  lemma OffsetBlock(a: int, os: int, done: int, n: int, op: int, oq: int)
    requires a >= 1 && 0 <= os < a && 0 <= oq < a && 0 <= done < a && op == (os + done) % a && op + n <= a
    requires done <= (oq - os) % a < done + n
    ensures op + ((oq - os) % a - done) == oq
  {
    var dq := (oq - os) % a;
    var t := dq - done;
    ModAddLeft(oq - os, os, a);
    assert oq - os + os == oq;
    ModSmall(oq, a);
    assert oq == (os + dq) % a;
    assert os + dq == os + done + t;
    ModAddLeft(os + done, t, a);
    assert 0 <= op + t < a;
    ModSmall(op + t, a);
  }

  /** Adding a positive amount below d always changes the remainder modulo d. */
  lemma ModDistinct(x: int, t: int, d: int)
    requires 0 < t < d
    ensures (x + t) % d != x % d
  {
    var u := x % d;
    ModAddLeft(x, t, d);
    if u + t < d {
      ModSmall(u + t, d);
    } else {
      ModShift(u + t - d, 1, d);
      ModSmall(u + t - d, d);
    }
  }

  /** A value below r*d has quotient below r. */
  lemma DivBelow(o: int, d: int, r: int)
    requires d > 0 && 0 <= o < r * d
    ensures 0 <= o / d < r
  {
    assert o == o / d * d + o % d;
    if o / d >= r {
      MulAtLeast(o / d - r + 1, d);
    }
  }

  /** Multiplying by a non-negative factor keeps the order. */
  lemma MulMono(a: int, b: int, d: int)
    requires d >= 0 && a <= b
    ensures a * d <= b * d
  {
    if a < b {
      MulAtLeast(b - a, d + 1);
      assert (b - a) * (d + 1) == b * d - a * d + (b - a);
    }
  }
}

=== FILE: bytes.dfy ===
/**
 * Bytes of a 32-bit raw colour and of the 16-bit RGB565 pixels that the
 * frame buffer stores, two bytes per pixel, low byte first.
 */
module Bytes {

  /** Byte k (0..3) of a 32-bit value as it lies in memory, low byte first. */
  function ByteOf(c: bv32, k: nat): bv8
    requires k < 4
  {
    if k == 0 then (c & 0xFF) as bv8
    else if k == 1 then ((c >> 8) & 0xFF) as bv8
    else if k == 2 then ((c >> 16) & 0xFF) as bv8
    else (c >> 24) as bv8
  }

  /** Pixel i of a byte buffer holds the low 16 bits of c. */
  predicate PixelIs(s: seq<bv8>, i: int, c: bv32)
    requires 0 <= i && 2 * i + 1 < |s|
  {
    s[2 * i] == ByteOf(c, 0) && s[2 * i + 1] == ByteOf(c, 1)
  }

  /** Pixel i is the same in two byte buffers. */
  predicate PixelSame(s: seq<bv8>, t: seq<bv8>, i: int)
    requires 0 <= i && 2 * i + 1 < |s| && 2 * i + 1 < |t|
  {
    s[2 * i] == t[2 * i] && s[2 * i + 1] == t[2 * i + 1]
  }

  /** Pixel i of s holds source pixel k of t (both two bytes wide). */
  predicate PixelFrom(s: seq<bv8>, i: int, t: seq<bv8>, k: int)
    requires 0 <= i && 2 * i + 1 < |s| && 0 <= k && 2 * k + 1 < |t|
  {
    s[2 * i] == t[2 * k] && s[2 * i + 1] == t[2 * k + 1]
  }

  /** The 16-bit value of pixel i, read little-endian. */
  function Pixel16(s: seq<bv8>, i: int): bv16
    requires 0 <= i && 2 * i + 1 < |s|
  {
    (s[2 * i] as bv16) | ((s[2 * i + 1] as bv16) << 8)
  }

  /** Storing bytes 0 and 1 of c is storing the 16-bit value c & 0xFFFF. */
  lemma PixelIsValue(s: seq<bv8>, i: int, c: bv32)
    requires 0 <= i && 2 * i + 1 < |s|
    ensures PixelIs(s, i, c) <==> Pixel16(s, i) == (c & 0xFFFF) as bv16
  {
    var lo, hi := s[2 * i], s[2 * i + 1];
    assert PixelIs(s, i, c) == (lo == ByteOf(c, 0) && hi == ByteOf(c, 1));
    assert Pixel16(s, i) == (lo as bv16) | ((hi as bv16) << 8);
    LittleEndian(lo, hi, c);
  }

  lemma LittleEndian(lo: bv8, hi: bv8, c: bv32)
    ensures (lo == ByteOf(c, 0) && hi == ByteOf(c, 1))
        <==> ((lo as bv16) | ((hi as bv16) << 8)) == (c & 0xFFFF) as bv16
  {
  }
}

=== FILE: calls.dfy ===
/**
 * Calls that Panel_LTDC makes into code outside this model: the display()
 * hook of Panel_Device and the pixel-format callbacks fp_copy and fp_skip
 * of pixelcopy_t. The model records them in a log instead of running them.
 */
module Calls {
  import opened Geometry

  datatype Call =
    | Display(x: int, y: int, w: int, h: int)
      /** fp_copy into frame-buffer row `row`, columns from .. to - 1 (writePixels) */
    | CopyTo(row: int, from: int, to: int)
      /** fp_copy of writeImage for frame-buffer pixels from .. to - 1, with the row's source start */
    | ImageCopy(line: int, from: int, to: int, srcX32: int, srcY32: int)
      /** fp_skip of writeImage over frame-buffer pixels from .. to - 1 */
    | ImageSkip(line: int, from: int, to: int)
      /** fp_copy of readRect into destination pixels from .. to - 1, with the row's source start */
    | ReadRow(line: int, from: int, to: int, srcX32: int, srcY32: int)

  /** The pixels (a, row) .. (b - 1, row), left to right. */
  function Span(row: int, a: int, b: int): (s: seq<Point>)
    ensures |s| == if a <= b then b - a else 0
    ensures forall t :: 0 <= t < |s| ==> s[t] == Point(a + t, row)
    decreases b - a
  {
    if b <= a then [] else Span(row, a, b - 1) + [Point(b - 1, row)]
  }

  /** The frame-buffer pixels that the writePixels calls in a log are asked to fill, in call order. */
  function Targets(log: seq<Call>): seq<Point>
  {
    if log == [] then []
    else Targets(log[..|log| - 1]) + match log[|log| - 1] {
      case CopyTo(row, from, to) => Span(row, from, to)
      case _ => []
    }
  }

  lemma TargetsAppend(log: seq<Call>, c: Call)
    ensures Targets(log + [c]) == Targets(log) + Targets([c])
  {
    assert (log + [c])[..|log|] == log;
    assert [c][..0] == [];
  }

  /** One more fp_copy call of writePixels targets its span after those of the log. */
  lemma TargetsCopy(log: seq<Call>, row: int, a: int, b: int)
    ensures Targets(log + [CopyTo(row, a, b)]) == Targets(log) + Span(row, a, b)
  {
    assert (log + [CopyTo(row, a, b)])[..|log|] == log;
  }

  /** The frame-buffer or destination indices that the writeImage and readRect calls in a log cover, in call order. */
  function Covers(log: seq<Call>): seq<int>
  {
    if log == [] then []
    else Covers(log[..|log| - 1]) + match log[|log| - 1] {
      case ImageCopy(_, from, to, _, _) => Range(from, to)
      case ImageSkip(_, from, to) => Range(from, to)
      case ReadRow(_, from, to, _, _) => Range(from, to)
      case _ => []
    }
  }

  lemma CoversAppend(log: seq<Call>, c: Call)
    ensures Covers(log + [c]) == Covers(log) + Covers([c])
  {
    assert (log + [c])[..|log|] == log;
    assert [c][..0] == [];
  }

  lemma {:induction false} CoversAppendAll(log: seq<Call>, more: seq<Call>)
    ensures Covers(log + more) == Covers(log) + Covers(more)
    decreases |more|
  {
    if more == [] {
      assert log + more == log;
    } else {
      var last := more[|more| - 1];
      var init := more[..|more| - 1];
      assert log + more == (log + init) + [last];
      assert more == init + [last];
      CoversAppend(log + init, last);
      CoversAppendAll(log, init);
      CoversAppend(init, last);
    }
  }

  /** The integers a .. b - 1 in order. */
  function Range(a: int, b: int): (s: seq<int>)
    ensures |s| == if a <= b then b - a else 0
    ensures forall t :: 0 <= t < |s| ==> s[t] == a + t
    decreases b - a
  {
    if b <= a then [] else Range(a, b - 1) + [b - 1]
  }

  lemma RangeSplit(a: int, m: int, b: int)
    requires a <= m <= b
    ensures Range(a, m) + Range(m, b) == Range(a, b)
  {
  }

  /** The frame-buffer indices of rows y .. y + n - 1 of a w pixels wide rectangle at column x, row after row. */
  function RowsCovered(pw: nat, x: int, y: int, w: nat, n: nat): seq<int>
  {
    if n == 0 then []
    else RowsCovered(pw, x, y, w, n - 1) + Range(Idx(pw, Point(x, y + n - 1)), Idx(pw, Point(x, y + n - 1)) + w)
  }

  lemma RowsCoveredNext(pw: nat, x: int, y: int, w: nat, n: nat)
    ensures RowsCovered(pw, x, y, w, n + 1) == RowsCovered(pw, x, y, w, n) + Range(x + (y + n) * pw, x + (y + n) * pw + w)
  {
    assert Point(x, y + (n + 1) - 1) == Point(x, y + n);
  }

  /** Entry j + i * w of RowsCovered is the index of pixel (x + j, y + i): every pixel once, row-major. */
  lemma {:induction false} RowsCoveredIndex(pw: nat, x: int, y: int, w: nat, n: nat, i: int, j: int)
    requires 0 <= i < n && 0 <= j < w
    ensures |RowsCovered(pw, x, y, w, n)| == n * w
    ensures 0 <= Idx(w, Point(j, i)) < n * w
    ensures RowsCovered(pw, x, y, w, n)[Idx(w, Point(j, i))] == Idx(pw, Point(x + j, y + i))
  {
    RowsCoveredLength(pw, x, y, w, n);
    var rows := RowsCovered(pw, x, y, w, n - 1);
    RowsCoveredLength(pw, x, y, w, n - 1);
    assert (n - 1) * w + w == n * w;
    if i == n - 1 {
      assert Idx(w, Point(j, i)) == |rows| + j;
    } else {
      RowsCoveredIndex(pw, x, y, w, n - 1, i, j);
    }
  }

  lemma {:induction false} RowsCoveredLength(pw: nat, x: int, y: int, w: nat, n: nat)
    ensures |RowsCovered(pw, x, y, w, n)| == n * w
  {
    if n > 0 {
      RowsCoveredLength(pw, x, y, w, n - 1);
      assert (n - 1) * w + w == n * w;
    }
  }
}

=== FILE: geometry.dfy ===
/**
 * Orientation of the panel and the one geometric transform every drawing
 * path of Panel_LTDC applies: a logical (rotated) coordinate is reflected
 * vertically, then horizontally, then transposed, according to the internal
 * rotation code.
 */
module Geometry {
  import opened Arith

  /** Internal rotation code: bits 0-1 count quarter turns, bit 2 is the mirror flag. */
  type Rotation = r: nat | r < 8

  datatype Point = Point(x: int, y: int)

  /** An axis-aligned rectangle with origin (x, y), w columns and h rows. */
  datatype Rect = Rect(x: int, y: int, w: int, h: int)

  predicate InBox(p: Point, width: int, height: int)
  {
    0 <= p.x < width && 0 <= p.y < height
  }

  predicate InRect(p: Point, rc: Rect)
  {
    rc.x <= p.x < rc.x + rc.w && rc.y <= p.y < rc.y + rc.h
  }

  /** A non-empty rectangle lying inside the width by height area. */
  predicate RectInBox(rc: Rect, width: int, height: int)
  {
    0 <= rc.x && 0 <= rc.y && 1 <= rc.w && 1 <= rc.h && rc.x + rc.w <= width && rc.y + rc.h <= height
  }

  /** Step 1: the vertical axis is reflected when bit r of mask 0b10010110 is set. */
  function FlipsY(r: Rotation): (b: bool)
    ensures b <==> r in {1, 2, 4, 7}
  {
    ((1 as bv8) << r) & 0x96 != 0
  }

  /** Step 2: the horizontal axis is reflected when r has bit 1. */
  function FlipsX(r: Rotation): (b: bool)
    ensures b <==> r in {2, 3, 6, 7}
  {
    (r as bv8) & 2 != 0
  }

  /** Step 3: x and y are exchanged when r has bit 0 (a quarter or three-quarter turn). */
  function Transposes(r: Rotation): (b: bool)
    ensures b <==> r % 2 == 1
  {
    (r as bv8) & 1 != 0
  }

  lemma LowBits(b: bv8)
    ensures (b as int) % 4 == (b & 3) as int
  {
  }

  lemma Bit2(b: bv8)
    ensures (b as int) / 4 % 2 == if b & 4 == 0 then 0 else 1
  {
  }

  lemma SmallSum(a: bv8, b: bv8)
    requires a < 4 && b < 4
    ensures ((a + b) & 3) as int == (a as int + b as int) % 4
  {
  }

  lemma CodeBits(r: bv8, offset: bv8, code: bv8)
    requires code == (((r & 7) + offset) & 3) | (((r & 7) & 4) ^ (offset & 4))
    ensures code & 3 == ((r & 3) + (offset & 3)) & 3
    ensures (code & 4 == 0) == ((r & 4 == 0) == (offset & 4 == 0))
    ensures code < 8
  {
  }

  lemma Mod4Sum(a: int, b: int)
    ensures (a % 4 + b % 4) % 4 == (a + b) % 4
  {
  }

  /**
   * setRotation's internal code: the requested rotation (reduced to 3 bits)
   * combined with the device's mounting offset. Quarter turns add modulo 4
   * and the two mirror flags cancel; the code always lies in 0..7.
   */
  function InternalRotation(r: bv8, offset: bv8): (ir: Rotation)
    ensures ir % 4 == (r as int + offset as int) % 4
    ensures ir / 4 == (r as int / 4 % 2 + offset as int / 4) % 2
  {
    var rr := r & 7;
    var code := ((rr + offset) & 3) | ((rr & 4) ^ (offset & 4));
    CodeBits(r, offset, code);
    CodeLow(r, offset, code);
    Bit2(r);
    Bit2(offset);
    Bit2(code);
    CodeHigh(r as int, offset as int, code as int);
    code as int
  }

  /** The quarter-turn bits of the code are the sum of those of r and offset, modulo 4. */
  lemma CodeLow(r: bv8, offset: bv8, code: bv8)
    requires code & 3 == ((r & 3) + (offset & 3)) & 3
    ensures code as int % 4 == (r as int + offset as int) % 4
  {
    LowBits(r);
    LowBits(offset);
    LowBits(code);
    SmallSum(r & 3, offset & 3);
    Mod4Sum(r as int, offset as int);
  }

  /** The mirror bit of the code is the exclusive or of those of r and offset. */
  lemma CodeHigh(ri: nat, oi: nat, ci: nat)
    requires ci < 8 && (ci / 4 % 2 == 0) == ((ri / 4 % 2 == 0) == (oi / 4 % 2 == 0))
    ensures ci / 4 == (ri / 4 % 2 + oi / 4) % 2
  {
    assert ci / 4 == ci / 4 % 2;
    assert (ri / 4 % 2 + oi / 4) % 2 == (ri / 4 % 2 + oi / 4 % 2) % 2;
  }

  /** Logical width seen by callers: the panel's width, or its height after a quarter turn. */
  function Width(r: Rotation, pw: nat, ph: nat): nat
  {
    if Transposes(r) then ph else pw
  }

  function Height(r: Rotation, pw: nat, ph: nat): nat
  {
    if Transposes(r) then pw else ph
  }

  /** Steps 1 and 2 for a point of the width by height logical area. */
  function Reflect(r: Rotation, width: int, height: int, p: Point): Point
  {
    Point(if FlipsX(r) then width - (p.x + 1) else p.x,
          if FlipsY(r) then height - (p.y + 1) else p.y)
  }

  /** Step 3 for a point. */
  function Swap(r: Rotation, p: Point): Point
  {
    if Transposes(r) then Point(p.y, p.x) else p
  }

  /** Physical frame-buffer coordinates of a logical point. */
  function ToPhysical(r: Rotation, pw: nat, ph: nat, p: Point): (q: Point)
    requires InBox(p, Width(r, pw, ph), Height(r, pw, ph))
    ensures InBox(q, pw, ph)
  {
    Swap(r, Reflect(r, Width(r, pw, ph), Height(r, pw, ph), p))
  }

  /** The logical point that a physical frame-buffer coordinate shows. */
  function ToLogical(r: Rotation, pw: nat, ph: nat, q: Point): (p: Point)
    requires InBox(q, pw, ph)
    ensures InBox(p, Width(r, pw, ph), Height(r, pw, ph))
    ensures ToPhysical(r, pw, ph, p) == q
  {
    Reflect(r, Width(r, pw, ph), Height(r, pw, ph), Swap(r, q))
  }

  /** The transform is one-to-one: ToLogical undoes it. */
  lemma LogicalOfPhysical(r: Rotation, pw: nat, ph: nat, p: Point)
    requires InBox(p, Width(r, pw, ph), Height(r, pw, ph))
    ensures ToLogical(r, pw, ph, ToPhysical(r, pw, ph, p)) == p
  {
  }

  /**
   * The rectangle form of the transform, as writeFillRectPreclipped and
   * _rotate_pixelcopy compute it: the far edge is reflected (height - (y + h)),
   * then origin and size are exchanged. PhysicalRectImage shows that the
   * result is exactly the image of the logical rectangle under the point
   * transform.
   */
  function ToPhysicalRect(r: Rotation, pw: nat, ph: nat, rc: Rect): (q: Rect)
    requires RectInBox(rc, Width(r, pw, ph), Height(r, pw, ph))
    ensures RectInBox(q, pw, ph)
    ensures q.w * q.h == rc.w * rc.h
    ensures Transposes(r) ==> q.w == rc.h && q.h == rc.w
    ensures !Transposes(r) ==> q.w == rc.w && q.h == rc.h
  {
    var y := if FlipsY(r) then Height(r, pw, ph) - (rc.y + rc.h) else rc.y;
    var x := if FlipsX(r) then Width(r, pw, ph) - (rc.x + rc.w) else rc.x;
    if Transposes(r) then Rect(y, x, rc.h, rc.w) else Rect(x, y, rc.w, rc.h)
  }

  /** The transformed rectangle is exactly the image of the logical one under the point transform. */
  lemma PhysicalRectImage(r: Rotation, pw: nat, ph: nat, rc: Rect, p: Point)
    requires RectInBox(rc, Width(r, pw, ph), Height(r, pw, ph))
    requires InBox(p, Width(r, pw, ph), Height(r, pw, ph))
    ensures InRect(ToPhysical(r, pw, ph, p), ToPhysicalRect(r, pw, ph, rc)) <==> InRect(p, rc)
  {
  }

  /** A physical pixel lies in the transformed rectangle exactly when the logical point it shows lies in the logical one. */
  lemma PhysicalRectPreimage(r: Rotation, pw: nat, ph: nat, rc: Rect, q: Point)
    requires RectInBox(rc, Width(r, pw, ph), Height(r, pw, ph))
    requires InBox(q, pw, ph)
    ensures InRect(q, ToPhysicalRect(r, pw, ph, rc)) <==> InRect(ToLogical(r, pw, ph, q), rc)
  {
    var p := ToLogical(r, pw, ph, q);
    PhysicalRectImage(r, pw, ph, rc, p);
  }

  /** Row-major pixel index in a frame buffer that is pw pixels wide. */
  function Idx(pw: nat, p: Point): int
  {
    p.x + p.y * pw
  }

  /** The coordinates of a row-major pixel index. */
  function PointOf(pw: nat, i: int): Point
    requires pw > 0
  {
    Point(i % pw, i / pw)
  }

  lemma IndexOfPoint(pw: nat, ph: nat, p: Point)
    requires pw > 0 && InBox(p, pw, ph)
    ensures 0 <= Idx(pw, p) < pw * ph
    ensures PointOf(pw, Idx(pw, p)) == p
  {
    DivModOf(Idx(pw, p), pw, p.y, p.x);
    MulAtLeast(ph - p.y, pw);
    assert (ph - p.y) * pw == ph * pw - p.y * pw;
  }

  lemma PointOfIndex(pw: nat, ph: nat, i: int)
    requires pw > 0 && 0 <= i < pw * ph
    ensures InBox(PointOf(pw, i), pw, ph)
    ensures Idx(pw, PointOf(pw, i)) == i
  {
    assert i == i / pw * pw + i % pw;
  }

  /** Distinct points of the frame buffer have distinct indices. */
  lemma IndexInjective(pw: nat, ph: nat, p: Point, q: Point)
    requires pw > 0 && InBox(p, pw, ph) && InBox(q, pw, ph) && p != q
    ensures Idx(pw, p) != Idx(pw, q)
  {
    IndexOfPoint(pw, ph, p);
    IndexOfPoint(pw, ph, q);
  }

  /** Index of a point inside a pw by ph frame buffer, with its bounds. */
  function PixelIndex(pw: nat, ph: nat, p: Point): (i: int)
    requires pw > 0 && InBox(p, pw, ph)
    ensures 0 <= i < pw * ph && i == Idx(pw, p)
  {
    IndexOfPoint(pw, ph, p);
    p.x + p.y * pw
  }

  /**
   * Inside a frame buffer pw pixels wide, the indices from that of (x, row)
   * up to w further are exactly the pixels of that row in columns x .. x + w - 1.
   */
  lemma RowSpan(pw: nat, ph: nat, p: Point, x: int, row: int, w: int)
    requires pw > 0 && InBox(p, pw, ph) && 0 <= x && w >= 0 && x + w <= pw && 0 <= row
    ensures Idx(pw, Point(x, row)) <= Idx(pw, p) < Idx(pw, Point(x, row)) + w
        <==> p.y == row && x <= p.x < x + w
  {
    if p.y < row {
      MulMono(p.y + 1, row, pw);
      assert (p.y + 1) * pw == p.y * pw + pw;
    } else if p.y > row {
      MulMono(row + 1, p.y, pw);
      assert (row + 1) * pw == row * pw + pw;
    }
  }

  /** Inside a frame buffer pw pixels wide, the indices of n whole rows from row on are those rows. */
  lemma RowsSpan(pw: nat, ph: nat, p: Point, row: int, n: int)
    requires pw > 0 && InBox(p, pw, ph) && 0 <= row && n >= 0
    ensures row * pw <= Idx(pw, p) < (row + n) * pw <==> row <= p.y < row + n
  {
    if p.y < row {
      MulMono(p.y + 1, row, pw);
      assert (p.y + 1) * pw == p.y * pw + pw;
    } else if p.y >= row + n {
      MulMono(row + n, p.y, pw);
    } else {
      MulMono(p.y + 1, row + n, pw);
      assert (p.y + 1) * pw == p.y * pw + pw;
      MulMono(row, p.y, pw);
    }
  }
}

=== FILE: images.dfy ===
/**
 * The rectangle transfers of Panel_LTDC: writeImage and readRect. At
 * rotation 0 without pixel conversion both copy whole rows with memcpy;
 * otherwise they hand each row to the pixel callbacks of pixelcopy_t,
 * whose per-row source start is tracked here.
 */
module Images {
  import opened Arith
  import opened Bytes
  import opened Geometry
  import opened Memory
  import opened Raster
  import opened Calls
  import opened Scans

  /**
   * s is t with every pixel of rectangle rc taken from the sbw by sh source
   * image src, pixel (sx, sy) of the source going to the rectangle's corner,
   * and no other pixel changed (the writeImage fast path).
   */
  ghost predicate Blitted(s: seq<bv8>, t: seq<bv8>, pw: nat, ph: nat, rc: Rect,
                          src: seq<bv8>, sbw: nat, sh: nat, sx: int, sy: int)
    requires Framed(s, pw, ph) && |t| == |s| && Framed(src, sbw, sh)
    requires 0 <= sx && 0 <= sy && sx + rc.w <= sbw && sy + rc.h <= sh
  {
    forall p :: InBox(p, pw, ph) ==>
      if InRect(p, rc)
      then PixelFrom(s, PixelIndex(pw, ph, p), src, PixelIndex(sbw, sh, Point(sx + p.x - rc.x, sy + p.y - rc.y)))
      else PixelSame(s, t, PixelIndex(pw, ph, p))
  }

  /** Row k of the blit: pixels a .. a + n - 1 of u come from source pixels b .. b + n - 1, the rest from s. */
  ghost predicate SpanFrom(u: seq<bv8>, s: seq<bv8>, a: int, n: int, src: seq<bv8>, b: int)
    requires |u| == |s| && 0 <= b && 2 * (b + n) <= |src|
  {
    forall i :: 0 <= i && 2 * i + 1 < |u| ==>
      if a <= i < a + n then PixelFrom(u, i, src, b + (i - a)) else PixelSame(u, s, i)
  }

  /** One pixel inside the span of SpanFrom. */
  lemma SpanAt(u: seq<bv8>, s: seq<bv8>, a: int, n: int, src: seq<bv8>, b: int, i: int)
    requires |u| == |s| && 0 <= b && 2 * (b + n) <= |src| && SpanFrom(u, s, a, n, src, b)
    requires 0 <= i && 2 * i + 1 < |u| && a <= i < a + n
    ensures PixelFrom(u, i, src, b + (i - a))
  {
    // SpanFrom's quantifier is instantiated through the term PixelSame(u, s, i)
    var same := PixelSame(u, s, i);
  }

  /** memcpy of n pixels from source index b to frame-buffer index a. */
  lemma CopySpan(s: seq<bv8>, u: seq<bv8>, src: seq<bv8>, a: int, b: int, n: int)
    requires 0 <= a && 0 <= b && 0 <= n && 2 * (a + n) <= |s| == |u| && 2 * (b + n) <= |src|
    requires forall j {:trigger u[j]} :: 0 <= j < |u| ==>
               u[j] == if 2 * a <= j < 2 * a + 2 * n then src[2 * b + (j - 2 * a)] else s[j]
    ensures SpanFrom(u, s, a, n, src, b)
  {
    forall i | 0 <= i && 2 * i + 1 < |u| && a <= i < a + n
      ensures PixelFrom(u, i, src, b + (i - a))
    {
      var j := 2 * i + 1;
      assert u[2 * i] == src[2 * b + (2 * i - 2 * a)];
      assert u[j] == src[2 * b + (j - 2 * a)];
    }
    forall i | 0 <= i && 2 * i + 1 < |u| && !(a <= i < a + n)
      ensures PixelSame(u, s, i)
    {
      var j := 2 * i + 1;
      assert !(2 * a <= j < 2 * a + 2 * n);
      assert u[2 * i] == s[2 * i];
      assert u[j] == s[j];
    }
  }

  /** The pixel at p of row k of the blit comes from the source pixel beside the corner (sx, sy + k). */
  lemma BlitPixel(u: seq<bv8>, s: seq<bv8>, pw: nat, ph: nat, rc: Rect,
                  src: seq<bv8>, sbw: nat, sh: nat, sx: int, sy: int, k: nat, p: Point)
    requires Framed(u, pw, ph) && |s| == |u| && Framed(src, sbw, sh) && RectInBox(rc, pw, ph)
    requires 0 <= sx && 0 <= sy && sx + rc.w <= sbw && sy + rc.h <= sh && k < rc.h
    requires 2 * (Idx(sbw, Point(sx, sy + k)) + rc.w) <= |src|
    requires SpanFrom(u, s, Idx(pw, Point(rc.x, rc.y + k)), rc.w, src, Idx(sbw, Point(sx, sy + k)))
    requires InBox(p, pw, ph) && p.y == rc.y + k && rc.x <= p.x < rc.x + rc.w
    ensures PixelFrom(u, PixelIndex(pw, ph, p), src, PixelIndex(sbw, sh, Point(sx + p.x - rc.x, sy + p.y - rc.y)))
  {
    var i := PixelIndex(pw, ph, p);
    var a, b := Idx(pw, Point(rc.x, rc.y + k)), Idx(sbw, Point(sx, sy + k));
    var q := Point(sx + p.x - rc.x, sy + p.y - rc.y);
    assert q == Point(sx + (p.x - rc.x), sy + k);
    assert i - a == p.x - rc.x;
    assert PixelIndex(sbw, sh, q) == b + (p.x - rc.x);
    SpanAt(u, s, a, rc.w, src, b, i);
  }

  /** A pixel off row k keeps its value across the copy of row k. */
  lemma KeepPixel(u: seq<bv8>, s: seq<bv8>, t: seq<bv8>, pw: nat, ph: nat, rc: Rect,
                  src: seq<bv8>, sbw: nat, sh: nat, sx: int, sy: int, k: nat, p: Point)
    requires Framed(u, pw, ph) && |s| == |u| == |t| && Framed(src, sbw, sh) && RectInBox(rc, pw, ph)
    requires 0 <= sx && 0 <= sy && sx + rc.w <= sbw && sy + rc.h <= sh && k < rc.h
    requires Blitted(s, t, pw, ph, Rect(rc.x, rc.y, rc.w, k), src, sbw, sh, sx, sy)
    requires 2 * (Idx(sbw, Point(sx, sy + k)) + rc.w) <= |src|
    requires SpanFrom(u, s, Idx(pw, Point(rc.x, rc.y + k)), rc.w, src, Idx(sbw, Point(sx, sy + k)))
    requires InBox(p, pw, ph) && !(p.y == rc.y + k && rc.x <= p.x < rc.x + rc.w)
    ensures if InRect(p, Rect(rc.x, rc.y, rc.w, k + 1))
      then PixelFrom(u, PixelIndex(pw, ph, p), src, PixelIndex(sbw, sh, Point(sx + p.x - rc.x, sy + p.y - rc.y)))
      else PixelSame(u, t, PixelIndex(pw, ph, p))
  {
    var i := PixelIndex(pw, ph, p);
    RowSpan(pw, ph, p, rc.x, rc.y + k, rc.w);
    assert PixelSame(u, s, i);
    if InRect(p, Rect(rc.x, rc.y, rc.w, k)) {
      assert PixelFrom(s, i, src, PixelIndex(sbw, sh, Point(sx + p.x - rc.x, sy + p.y - rc.y)));
    } else {
      assert PixelSame(s, t, i);
    }
  }

  /** Adding row k of the blit below the first k rows. */
  lemma BlitRow(s: seq<bv8>, u: seq<bv8>, t: seq<bv8>, pw: nat, ph: nat, rc: Rect,
                src: seq<bv8>, sbw: nat, sh: nat, sx: int, sy: int, k: nat)
    requires Framed(s, pw, ph) && |u| == |s| == |t| && Framed(src, sbw, sh) && RectInBox(rc, pw, ph)
    requires 0 <= sx && 0 <= sy && sx + rc.w <= sbw && sy + rc.h <= sh && k < rc.h
    requires Blitted(s, t, pw, ph, Rect(rc.x, rc.y, rc.w, k), src, sbw, sh, sx, sy)
    requires 2 * (Idx(sbw, Point(sx, sy + k)) + rc.w) <= |src|
    requires SpanFrom(u, s, Idx(pw, Point(rc.x, rc.y + k)), rc.w, src, Idx(sbw, Point(sx, sy + k)))
    ensures Blitted(u, t, pw, ph, Rect(rc.x, rc.y, rc.w, k + 1), src, sbw, sh, sx, sy)
  {
    forall p | InBox(p, pw, ph)
      ensures if InRect(p, Rect(rc.x, rc.y, rc.w, k + 1))
        then PixelFrom(u, PixelIndex(pw, ph, p), src, PixelIndex(sbw, sh, Point(sx + p.x - rc.x, sy + p.y - rc.y)))
        else PixelSame(u, t, PixelIndex(pw, ph, p))
    {
      if p.y == rc.y + k && rc.x <= p.x < rc.x + rc.w {
        BlitPixel(u, s, pw, ph, rc, src, sbw, sh, sx, sy, k, p);
      } else {
        KeepPixel(u, s, t, pw, ph, rc, src, sbw, sh, sx, sy, k, p);
      }
    }
  }

  /**
   * The writeImage fast path (Panel_LTDC.cpp:353-370), taken at rotation 0
   * for an opaque source without conversion: h rows of w pixels are copied
   * with memcpy from the source image, row after row.
   */
  method BlitRows(fb: array<bv8>, pw: nat, ph: nat, x: nat, y: nat, w: nat, h: nat,
                  src: array<bv8>, srcBitwidth: nat, ghost srcHeight: nat, srcX: nat, srcY: nat)
    requires Framed(fb[..], pw, ph) && RectInBox(Rect(x, y, w, h), pw, ph) && src != fb
    requires Framed(src[..], srcBitwidth, srcHeight) && srcX + w <= srcBitwidth && srcY + h <= srcHeight
    modifies fb
    ensures Blitted(fb[..], old(fb[..]), pw, ph, Rect(x, y, w, h), src[..], srcBitwidth, srcHeight, srcX, srcY)
  {
    var dst, bw, s, sw, len := BlitOffsets(pw, x, y, srcBitwidth, srcX, srcY, w);
    BlitLoop(fb, pw, ph, Rect(x, y, w, h), src, srcBitwidth, srcHeight, srcX, srcY, dst, bw, s, sw, len);
  }

  /** The row loop of the fast path, given the byte offsets and widths BlitOffsets sets up. */
  method BlitLoop(fb: array<bv8>, pw: nat, ph: nat, rc: Rect, src: array<bv8>, sbw: nat, ghost sh: nat,
                  sx: nat, sy: nat, dst: int, bw: int, s: int, sw: int, len: int)
    requires Framed(fb[..], pw, ph) && RectInBox(rc, pw, ph) && src != fb
    requires Framed(src[..], sbw, sh) && sx + rc.w <= sbw && sy + rc.h <= sh
    requires dst == 2 * Idx(pw, Point(rc.x, rc.y)) && bw == 2 * pw
    requires s == 2 * Idx(sbw, Point(sx, sy)) && sw == 2 * sbw && len == 2 * rc.w
    modifies fb
    ensures Blitted(fb[..], old(fb[..]), pw, ph, rc, src[..], sbw, sh, sx, sy)
  {
    ghost var t := fb[..];
    var row := 0;
    while row != rc.h
      invariant 0 <= row <= rc.h
      invariant Blitted(fb[..], t, pw, ph, Rect(rc.x, rc.y, rc.w, row), src[..], sbw, sh, sx, sy)
      decreases rc.h - row
    {
      BlitOne(fb, pw, ph, rc, src, sbw, sh, sx, sy, row, dst, bw, s, sw, len, t);
      row := row + 1;
    }
    assert rc == Rect(rc.x, rc.y, rc.w, row);
  }

  /**
   * The pointer set-up of the fast path (Panel_LTDC.cpp:359-366) with
   * src_bits = 16: the byte offsets of the rectangle's corner in the frame
   * buffer and in the source, the byte widths of their rows, and the byte
   * length of one row of the rectangle.
   */
  method BlitOffsets(pw: nat, x: nat, y: nat, sbw: nat, sx: nat, sy: nat, w: nat)
    returns (dst: int, bw: int, s: int, sw: int, len: int)
    ensures dst == 2 * Idx(pw, Point(x, y)) && bw == 2 * pw
    ensures s == 2 * Idx(sbw, Point(sx, sy)) && sw == 2 * sbw && len == 2 * w
  {
    var bytes := 2;  // src_bits >> 3: an unconverted source has the panel's 16-bit pixels
    bw := pw * bytes;
    dst := bw * y;
    sw := sbw * bytes;
    s := sy * sw;
    dst := dst + x * bytes;
    s := s + sx * bytes;
    len := w * bytes;
    assert dst == 2 * (x + y * pw) && s == 2 * (sx + sy * sbw);
  }

  /** One memcpy of the fast path: row k of the rectangle from row sy + k of the source. */
  method BlitOne(fb: array<bv8>, pw: nat, ph: nat, rc: Rect, src: array<bv8>, sbw: nat, ghost sh: nat,
                 sx: nat, sy: nat, k: nat, dst: int, bw: int, s: int, sw: int, len: int, ghost t: seq<bv8>)
    requires Framed(fb[..], pw, ph) && RectInBox(rc, pw, ph) && src != fb && |t| == fb.Length
    requires Framed(src[..], sbw, sh) && sx + rc.w <= sbw && sy + rc.h <= sh && k < rc.h
    requires dst == 2 * Idx(pw, Point(rc.x, rc.y)) && bw == 2 * pw
    requires s == 2 * Idx(sbw, Point(sx, sy)) && sw == 2 * sbw && len == 2 * rc.w
    requires Blitted(fb[..], t, pw, ph, Rect(rc.x, rc.y, rc.w, k), src[..], sbw, sh, sx, sy)
    modifies fb
    ensures Blitted(fb[..], t, pw, ph, Rect(rc.x, rc.y, rc.w, k + 1), src[..], sbw, sh, sx, sy)
  {
    ghost var before := fb[..];
    ghost var a := RowStart(pw, ph, rc.x, rc.y, rc.w, rc.h, k, dst, bw);
    ghost var b := RowStart(sbw, sh, sx, sy, rc.w, rc.h, k, s, sw);
    CopyPixels(fb, dst + k * bw, src, s + k * sw, len, a, b, rc.w);
    BlitRow(before, fb[..], t, pw, ph, rc, src[..], sbw, sh, sx, sy, k);
  }

  /**
   * The byte offset base + k * bw of the fast path, with base the byte offset
   * of pixel (x, y) and bw the byte width of a row, is twice the pixel index a
   * of (x, y + k), and the w pixels from a fit in the image.
   */
  lemma RowStart(pw: nat, ph: nat, x: nat, y: nat, w: nat, h: nat, k: nat, base: int, bw: int) returns (a: nat)
    requires pw > 0 && x + w <= pw && y + h <= ph && k < h && 1 <= w
    requires base == 2 * Idx(pw, Point(x, y)) && bw == 2 * pw
    ensures a == Idx(pw, Point(x, y + k)) && base + k * bw == 2 * a && a + w <= pw * ph
  {
    a := PixelIndex(pw, ph, Point(x, y + k));
    assert (y + k) * pw == y * pw + k * pw;
    assert k * bw == 2 * (k * pw);
    assert PixelIndex(pw, ph, Point(x + w - 1, y + k)) < pw * ph;
  }

  /** memcpy of len = 2 * n bytes from byte 2 * b of src to byte 2 * a of fb copies n pixels. */
  method CopyPixels(fb: array<bv8>, d: nat, src: array<bv8>, e: nat, len: nat, ghost a: nat, ghost b: nat, ghost n: nat)
    requires d == 2 * a && e == 2 * b && len == 2 * n
    requires 2 * (a + n) <= fb.Length && 2 * (b + n) <= src.Length && src != fb
    modifies fb
    ensures SpanFrom(fb[..], old(fb[..]), a, n, src[..], b)
  {
    ghost var before := fb[..];
    Memcpy(fb, d, src, e, len);
    CopySpan(before, fb[..], src[..], a, b, n);
  }

  /**
   * Callbacks of pixelcopy_t as the row loops see them: given the source
   * start (srcX32, srcY32) of the row, a position pos and the row's end,
   * fp_copy returns where it stopped, never before pos nor past end.
   */
  ghost predicate CopyProgress(copy: (int, int, int, int) -> int)
  {
    forall a, b, pos, end :: pos <= end ==> pos <= copy(a, b, pos, end) <= end
  }

  /** fp_skip moves at least one pixel forward and never past the row's end. */
  ghost predicate SkipProgress(skip: (int, int, int, int) -> int)
  {
    forall a, b, pos, end :: pos < end ==> pos < skip(a, b, pos, end) <= end
  }

  /**
   * c is an fp_copy or fp_skip call of row `line` over frame-buffer pixels
   * inside start .. start + w - 1, the row's pixels, and an fp_copy is
   * handed the row's source start (sx32, sy32).
   */
  ghost predicate RowPiece(c: Call, line: int, start: int, w: int, sx32: int, sy32: int)
  {
    (c.ImageCopy? || c.ImageSkip?) && c.line == line && start <= c.from <= c.to <= start + w
    && (c.ImageCopy? ==> c.srcX32 == sx32 && c.srcY32 == sy32)
  }

  /**
   * Every call in the log is a call of one of rows 0 .. h - 1 of the
   * rectangle at (x, y) of width w in a frame buffer of pw pixels per row:
   * it covers pixels of that row only, and an fp_copy is handed that row's
   * source start in s.
   */
  ghost predicate FromRowStarts(log: seq<Call>, s: Scan, pw: int, x: int, y: int, w: int, h: int)
  {
    forall c :: c in log ==>
      (c.ImageCopy? || c.ImageSkip?) && 0 <= c.line < h
      && RowPiece(c, c.line, x + (y + c.line) * pw, w, Sample(s, c.line, 0).x, Sample(s, c.line, 0).y)
  }

  /**
   * The general row loop of writeImage (Panel_LTDC.cpp:379-391): for each
   * of the h rows it sets the source start, then alternates fp_copy and
   * fp_skip from the row's first pixel until one of them reaches the
   * row's end. Row k starts from source point Sample(s, k, 0).
   */
  method ImageLoop(pw: nat, x: int, y: int, w: nat, h: nat, s: Scan,
                   copy: (int, int, int, int) -> int, skip: (int, int, int, int) -> int)
    returns (sx32: int, sy32: int, ghost log: seq<Call>)
    requires h >= 1 && CopyProgress(copy) && SkipProgress(skip)
    ensures Point(sx32, sy32) == Sample(s, h, 0)
    ensures Covers(log) == RowsCovered(pw, x, y, w, h)
    ensures FromRowStarts(log, s, pw, x, y, w, h)
  {
    sx32, sy32 := s.x32, s.y32;
    var row := y * pw;
    var line := 0;
    log := [];
    while line != h
      invariant 0 <= line <= h && row == (y + line) * pw
      invariant Point(sx32, sy32) == Sample(s, line, 0)
      invariant Covers(log) == RowsCovered(pw, x, y, w, line)
      invariant FromRowStarts(log, s, pw, x, y, w, line)
      decreases h - line
    {
      log := ImageLine(pw, x, y, w, line, row, sx32, sy32, s, copy, skip, log);
      sx32, sy32 := sx32 + s.nextX, sy32 + s.nextY;
      row := row + pw;
      line := line + 1;
    }
  }

  /** The fp_copy / fp_skip calls of row `line` (Panel_LTDC.cpp:383-386), appended to the log of the rows before. */
  method ImageLine(pw: nat, x: int, y: int, w: nat, line: nat, row: int, sx32: int, sy32: int, s: Scan,
                   copy: (int, int, int, int) -> int, skip: (int, int, int, int) -> int, ghost log: seq<Call>)
    returns (ghost log': seq<Call>)
    requires CopyProgress(copy) && SkipProgress(skip) && row == (y + line) * pw
    requires Point(sx32, sy32) == Sample(s, line, 0)
    requires Covers(log) == RowsCovered(pw, x, y, w, line) && FromRowStarts(log, s, pw, x, y, w, line)
    ensures Covers(log') == RowsCovered(pw, x, y, w, line + 1) && FromRowStarts(log', s, pw, x, y, w, line + 1)
    ensures Sample(s, line + 1, 0) == Point(sx32 + s.nextX, sy32 + s.nextY)
    ensures row + pw == (y + line + 1) * pw
  {
    ghost var rowLog := ImageRow(x + row, w, line, sx32, sy32, copy, skip);
    NextRow(log, rowLog, pw, x, y, w, line, s);
    log' := log + rowLog;
  }

  /** The calls of row `line` extend the loop's log to one more row. */
  lemma NextRow(log: seq<Call>, more: seq<Call>, pw: nat, x: int, y: int, w: nat, line: nat, s: Scan)
    requires Covers(log) == RowsCovered(pw, x, y, w, line) && FromRowStarts(log, s, pw, x, y, w, line)
    requires Covers(more) == Range(x + (y + line) * pw, x + (y + line) * pw + w)
    requires forall c :: c in more ==>
      RowPiece(c, line, x + (y + line) * pw, w, Sample(s, line, 0).x, Sample(s, line, 0).y)
    ensures Covers(log + more) == RowsCovered(pw, x, y, w, line + 1) && FromRowStarts(log + more, s, pw, x, y, w, line + 1)
    ensures Sample(s, line + 1, 0) == Point(Sample(s, line, 0).x + s.nextX, Sample(s, line, 0).y + s.nextY)
    ensures (y + line + 1) * pw == (y + line) * pw + pw
  {
    CoversAppendAll(log, more);
    RowsCoveredNext(pw, x, y, w, line);
    assert s.nextX * (line + 1) == s.nextX * line + s.nextX && s.nextY * (line + 1) == s.nextY * line + s.nextY;
    forall c | c in log + more
      ensures (c.ImageCopy? || c.ImageSkip?) && 0 <= c.line < line + 1
        && RowPiece(c, c.line, x + (y + c.line) * pw, w, Sample(s, c.line, 0).x, Sample(s, c.line, 0).y)
    {
      if c in log {
      } else {
        assert c in more;
      }
    }
  }

  /** A call over pixels pos .. next - 1 extends a log of calls over start .. pos - 1 to one over start .. next - 1. */
  lemma PieceAppend(log: seq<Call>, c: Call, line: int, start: int, pos: int, next: int, sx32: int, sy32: int)
    requires start <= pos <= next
    requires forall d :: d in log ==> RowPiece(d, line, start, pos - start, sx32, sy32)
    requires c == ImageCopy(line, pos, next, sx32, sy32) || c == ImageSkip(line, pos, next)
    ensures forall d :: d in log + [c] ==> RowPiece(d, line, start, next - start, sx32, sy32)
  {
    forall d | d in log + [c]
      ensures RowPiece(d, line, start, next - start, sx32, sy32)
    {
      if d in log {
        assert RowPiece(d, line, start, pos - start, sx32, sy32);
      }
    }
  }

  /** One row of ImageLoop: the fp_copy / fp_skip calls from pixel start to pixel start + w. */
  method ImageRow(start: int, w: nat, line: int, sx32: int, sy32: int,
                  copy: (int, int, int, int) -> int, skip: (int, int, int, int) -> int)
    returns (ghost log: seq<Call>)
    requires CopyProgress(copy) && SkipProgress(skip)
    ensures Covers(log) == Range(start, start + w)
    ensures forall c :: c in log ==> RowPiece(c, line, start, w, sx32, sy32)
  {
    var pos := start;
    var end := pos + w;
    log := [];
    while true
      invariant start <= pos <= end
      invariant Covers(log) == Range(start, pos)
      invariant forall c :: c in log ==> RowPiece(c, line, start, pos - start, sx32, sy32)
      decreases end - pos
    {
      var next := copy(sx32, sy32, pos, end);
      CoversAppend(log, ImageCopy(line, pos, next, sx32, sy32));
      RangeSplit(start, pos, next);
      PieceAppend(log, ImageCopy(line, pos, next, sx32, sy32), line, start, pos, next, sx32, sy32);
      log := log + [ImageCopy(line, pos, next, sx32, sy32)];
      pos := next;
      if end == pos {
        return;
      }
      next := skip(sx32, sy32, pos, end);
      CoversAppend(log, ImageSkip(line, pos, next));
      RangeSplit(start, pos, next);
      PieceAppend(log, ImageSkip(line, pos, next), line, start, pos, next, sx32, sy32);
      log := log + [ImageSkip(line, pos, next)];
      pos := next;
      if end == pos {
        return;
      }
    }
  }
}

=== FILE: memory.dfy ===
/**
 * memset_multi from Panel_LTDC.cpp: fill a byte buffer with `length` copies
 * of a 1- to 4-byte pattern, writing up to 16 copies literally and then
 * doubling the filled prefix with memcpy.
 */
module Memory {
  import opened Arith
  import opened Bytes

  /** Bytes base .. base + n - 1 of s repeat the size-byte pattern of c, starting at pattern byte 0. */
  ghost predicate Patterned(s: seq<bv8>, base: int, n: int, c: bv32, size: int)
    requires 1 <= size <= 4 && 0 <= base && base + n <= |s|
  {
    forall i :: base <= i < base + n ==> s[i] == ByteOf(c, (i - base) % size)
  }

  /** s and t agree everywhere except possibly on bytes base .. base + n - 1. */
  ghost predicate SameOutside(s: seq<bv8>, t: seq<bv8>, base: int, n: int)
  {
    |s| == |t| && forall i :: 0 <= i < |s| && !(base <= i < base + n) ==> s[i] == t[i]
  }

  /** The C library's memcpy: n bytes from src[s..] to dst[d..]; the two regions must not overlap. */
  method Memcpy(dst: array<bv8>, d: nat, src: array<bv8>, s: nat, n: nat)
    requires d + n <= dst.Length && s + n <= src.Length
    requires dst == src ==> d + n <= s || s + n <= d
    modifies dst
    ensures forall i :: 0 <= i < dst.Length ==>
              dst[i] == if d <= i < d + n then old(src[s + (i - d)]) else old(dst[i])
  {
    forall i | 0 <= i < n {
      dst[d + i] := src[s + i];
    }
  }

  /** The C library's memset: n copies of byte b from buf[d..]. */
  method Memset(buf: array<bv8>, d: nat, b: bv8, n: nat)
    requires d + n <= buf.Length
    modifies buf
    ensures forall i :: 0 <= i < buf.Length ==> buf[i] == if d <= i < d + n then b else old(buf[i])
  {
    forall i | 0 <= i < n {
      buf[d + i] := b;
    }
  }

  /**
   * The shortcut guard of memset_multi as written (Panel_LTDC.cpp:12-13):
   * a single memset is used when size is 1 or bytes 0, 1 and (unless size
   * is 2) 2 of c are equal. Byte 3 is never compared.
   */
  predicate SourceShortcut(c: bv32, size: nat)
  {
    size == 1 || ((c & 0xFF) == ((c >> 8) & 0xFF) && (size == 2 || ((c & 0xFF) == ((c >> 16) & 0xFF))))
  }

  /** The shortcut guard memset_multi needs: every byte of the size-byte pattern is byte 0. */
  predicate Uniform(c: bv32, size: nat)
    requires 1 <= size <= 4
  {
    size == 1 || (ByteOf(c, 1) == ByteOf(c, 0)
      && (size == 2 || (ByteOf(c, 2) == ByteOf(c, 0)
      && (size == 3 || ByteOf(c, 3) == ByteOf(c, 0)))))
  }

  /** The corrected guard holds exactly when the pattern is one byte repeated. */
  lemma UniformMeansOneByte(c: bv32, size: nat)
    requires 1 <= size <= 4
    ensures Uniform(c, size) <==> forall k :: 0 <= k < size ==> ByteOf(c, k) == ByteOf(c, 0)
  {
    if !Uniform(c, size) {
      if ByteOf(c, 1) != ByteOf(c, 0) {
        assert size >= 2;
      } else if ByteOf(c, 2) != ByteOf(c, 0) {
        assert size >= 3 && ByteOf(c, 2) != ByteOf(c, 0);
      } else {
        assert size == 4 && ByteOf(c, 3) != ByteOf(c, 0);
      }
    }
  }

  /** For the pattern sizes 1 to 3 the guard as written is the corrected guard. */
  lemma SourceShortcutUpTo3(c: bv32, size: nat)
    requires 1 <= size <= 3
    ensures SourceShortcut(c, size) <==> Uniform(c, size)
  {
    assert (c & 0xFF) == ((c >> 8) & 0xFF) <==> ByteOf(c, 1) == ByteOf(c, 0);
    assert (c & 0xFF) == ((c >> 16) & 0xFF) <==> ByteOf(c, 2) == ByteOf(c, 0);
  }

  /**
   * For size 4 the guard as written lets a non-uniform pattern through:
   * 0x01000000 has bytes 0, 0, 0, 1, so memset would store four zero bytes
   * per copy instead of 00 00 00 01.
   */
  lemma SourceShortcutWrongForSize4()
    ensures SourceShortcut(0x0100_0000, 4) && !Uniform(0x0100_0000, 4)
    ensures ByteOf(0x0100_0000, 3) != ByteOf(0x0100_0000, 0)
  {
  }

  lemma PatternStep(i: int, base: int, k: int, j: int, size: int)
    requires 1 <= size && 0 <= j < size && i == base + k * size + j && k >= 0
    ensures (i - base) % size == j
  {
    DivModOf(i - base, size, k, j);
  }

  /**
   * How many copies memset_multi writes literally (Panel_LTDC.cpp:19-24):
   * all of them below 16, otherwise length halved until it is below 16,
   * plus one.
   */
  method LiteralCopies(length: nat) returns (l: nat)
    requires length >= 1
    ensures 1 <= l <= length && l <= 16
    ensures length < 16 ==> l == length
    ensures length >= 16 ==> 9 <= l
  {
    l := length;
    if l >= 16 {
      l := l / 2;
      while l >= 16
        invariant 8 <= l <= length / 2
      {
        l := l / 2;
      }
      l := l + 1;
    }
  }

  /** The literal phase: l copies of the pattern from base, with 16-bit stores when size is 2. */
  method WriteCopies(buf: array<bv8>, base: nat, c: bv32, size: nat, l: nat) returns (dst: nat)
    requires 1 <= size <= 4 && base + l * size <= buf.Length
    modifies buf
    ensures dst == base + l * size
    ensures Patterned(buf[..], base, l * size, c, size)
    ensures SameOutside(buf[..], old(buf[..]), base, l * size)
  {
    dst := base;
    var n := 0;
    if size == 2 {
      while n < l
        invariant 0 <= n <= l && dst == base + 2 * n
        invariant Patterned(buf[..], base, 2 * n, c, 2)
        invariant SameOutside(buf[..], old(buf[..]), base, 2 * n)
      {
        buf[dst] := ByteOf(c, 0);
        buf[dst + 1] := ByteOf(c, 1);
        dst := dst + 2;
        n := n + 1;
      }
    } else {
      while n < l
        invariant 0 <= n <= l && dst == base + n * size
        invariant Patterned(buf[..], base, n * size, c, size)
        invariant SameOutside(buf[..], old(buf[..]), base, n * size)
      {
        MulAtLeast(l - n, size);
        assert (l - n) * size == l * size - n * size;
        dst := WriteCopy(buf, base, c, size, n, dst, old(buf[..]));
        assert (n + 1) * size == n * size + size;
        n := n + 1;
      }
    }
  }

  /** The byte loop `*dst++ = ((uint8_t*)&c)[i]` for i < size: copy n + 1 of the pattern. */
  method WriteCopy(buf: array<bv8>, base: nat, c: bv32, size: nat, ghost n: nat, dst: nat, ghost t: seq<bv8>)
    returns (next: nat)
    requires 1 <= size <= 4 && dst == base + n * size && dst + size <= buf.Length
    requires Patterned(buf[..], base, n * size, c, size) && SameOutside(buf[..], t, base, n * size)
    modifies buf
    ensures next == dst + size
    ensures Patterned(buf[..], base, n * size + size, c, size) && SameOutside(buf[..], t, base, n * size + size)
  {
    next := dst;
    var i := 0;
    while i < size
      invariant 0 <= i <= size && next == dst + i
      invariant Patterned(buf[..], base, n * size + i, c, size)
      invariant SameOutside(buf[..], t, base, n * size + i)
    {
      buf[next] := ByteOf(c, i);
      PatternStep(next, base, n, i, size);
      next := next + 1;
      i := i + 1;
    }
  }

  /** One memcpy of the doubling phase: the first n bytes are repeated right after the filled prefix. */
  method ExtendPattern(buf: array<bv8>, base: nat, c: bv32, size: nat, len: nat, m: nat, n: nat)
    requires 1 <= size <= 4 && len == m * size && n <= len && base + len + n <= buf.Length
    requires Patterned(buf[..], base, len, c, size)
    modifies buf
    ensures Patterned(buf[..], base, len + n, c, size)
    ensures SameOutside(buf[..], old(buf[..]), base + len, n)
  {
    ghost var before := buf[..];
    Memcpy(buf, base + len, buf, base, n);
    forall i | base + len <= i < base + len + n
      ensures buf[i] == ByteOf(c, (i - base) % size)
    {
      assert buf[i] == before[base + (i - (base + len))];
      ModShift(i - (base + len), m, size);
    }
  }

  /**
   * memset_multi(buf + base, c, size, length). Afterwards byte i of the
   * size * length filled bytes is pattern byte i mod size of c, and no byte
   * outside them changed.
   */
  method MemsetMulti(buf: array<bv8>, base: nat, c: bv32, size: nat, length: nat)
    requires 1 <= size <= 4 && length >= 1 && base + size * length <= buf.Length
    modifies buf
    ensures Patterned(buf[..], base, size * length, c, size)
    ensures SameOutside(buf[..], old(buf[..]), base, size * length)
  {
    var total := size * length;
    if Uniform(c, size) {
      Memset(buf, base, ByteOf(c, 0), total);
      forall i | base <= i < base + total ensures buf[i] == ByteOf(c, (i - base) % size) {
        UniformMeansOneByte(c, size);
      }
      return;
    }
    var l := LiteralCopies(length);
    var len := l * size;
    var rest := total - len;
    assert rest >= 0 by {
      assert total - len == (length - l) * size;
      if length > l { MulAtLeast(length - l, size); }
    }
    var dst := WriteCopies(buf, base, c, size, l);
    if rest == 0 {
      return;
    }
    // double the filled prefix until the rest fits in one more copy
    var m := l;
    while rest > len
      invariant len == m * size && m >= 1
      invariant dst == base + len && len + rest == total && rest >= 0
      invariant Patterned(buf[..], base, len, c, size)
      invariant SameOutside(buf[..], old(buf[..]), base, len)
    {
      ExtendPattern(buf, base, c, size, len, m, len);
      dst := dst + len;
      rest := rest - len;
      len := len * 2;
      m := m * 2;
    }
    if rest > 0 {
      ExtendPattern(buf, base, c, size, len, m, rest);
    }
  }
}

=== FILE: panel.dfy ===
/**
 * The Panel_LTDC driver object: its configuration, orientation, window and
 * cursor, and the frame buffer it draws into. Each method is the driver
 * operation of the same name; the raster work is done by the methods of
 * modules Raster, Transfers, Images and Reads, whose contracts these
 * methods pass on in terms of the driver's fields.
 */
module Panel {
  import opened Arith
  import opened Bytes
  import opened Geometry
  import opened Windows
  import opened Raster
  import opened Scans
  import opened Calls
  import opened Transfers
  import opened Images
  import opened Reads

  /** The colour depths setColorDepth is asked for; the driver always answers 16-bit RGB565. */
  datatype ColorDepth = Rgb565 | OtherDepth(code: nat)

  /** One axis of panel_timing_t. */
  datatype TimingInfo = TimingInfo(sync: nat, backPorch: nat, active: nat, frontPorch: nat)

  datatype PanelTiming = PanelTiming(h: TimingInfo, v: TimingInfo)

  /** An unsigned coordinate clamped onto 0 .. n - 1 (the outer max with 0 never acts on an unsigned value). */
  function Clamp(v: nat, n: nat): (c: nat)
    requires n > 0
    ensures c < n
    ensures v < n ==> c == v
    ensures v >= n ==> c == n - 1
  {
    Min(n - 1, v)
  }

  /** Clamping keeps the order of two coordinates, so an ordered window stays ordered. */
  lemma ClampMonotone(a: nat, b: nat, n: nat)
    requires n > 0 && a <= b
    ensures Clamp(a, n) <= Clamp(b, n)
  {
  }

  /**
   * The parts of LovyanGFX's pixelcopy_t that Panel_LTDC reads or writes:
   * the fixed-point source position and steps, the no_convert and
   * transparency flags, the raw source image and the fp_copy / fp_skip
   * callbacks. `unit` is 1 << FP_SCALE.
   */
  class PixelCopy {
    var srcX32: int
    var srcY32: int
    var srcX32Add: int
    var srcY32Add: int
    var noConvert: bool
    var nonTransp: bool
    var srcData: array<bv8>
    var srcBitwidth: nat
    /** Rows in srcData; pixelcopy_t does not record it. */
    ghost var srcHeight: nat
    var srcX: nat
    var srcY: nat
    const unit: int
    const fpCopy: (int, int, int, int) -> int
    const fpSkip: (int, int, int, int) -> int

    constructor(data: array<bv8>, bitwidth: nat, ghost height: nat, unit: int,
                copy: (int, int, int, int) -> int, skip: (int, int, int, int) -> int)
      ensures srcData == data && srcBitwidth == bitwidth && srcHeight == height && this.unit == unit
      ensures fpCopy == copy && fpSkip == skip
      ensures srcX32 == 0 && srcY32 == 0 && srcX32Add == unit && srcY32Add == 0
      ensures srcX == 0 && srcY == 0 && noConvert && nonTransp
    {
      srcData, srcBitwidth, srcHeight := data, bitwidth, height;
      this.unit := unit;
      fpCopy, fpSkip := copy, skip;
      srcX32, srcY32, srcX32Add, srcY32Add := 0, 0, unit, 0;
      srcX, srcY := 0, 0;
      noConvert, nonTransp := true, true;
    }

    /** The row walk these fields describe, with the given steps from one row to the next. */
    function Walk(nextX: int, nextY: int): Scan
      reads this
    {
      Scan(srcX32, srcY32, srcX32Add, srcY32Add, nextX, nextY)
    }
  }

  class PanelLTDC {
    var panelWidth: nat
    var panelHeight: nat
    var offsetRotation: bv8
    var timing: PanelTiming
    var fb: array?<bv8>
    var rotation: bv8
    var internalRotation: Rotation
    var width: nat
    var height: nat
    var writeBits: nat
    var readBits: nat
    var writeDepth: ColorDepth
    var readDepth: ColorDepth
    var xs: int
    var ys: int
    var xe: int
    var ye: int
    var xpos: int
    var ypos: int
    /** getStartCount() of Panel_Device: open transactions. */
    ghost var startCount: nat
    /** The display() requests and the pixel callbacks made so far. */
    ghost var calls: seq<Call>

    /**
     * The frame buffer holds panelWidth by panelHeight 16-bit pixels, the
     * write depth is those 16 bits (the 2 bytes per pixel the transfers use
     * for _write_bits >> 3), and the logical size matches the orientation.
     */
    predicate Valid()
      reads this
    {
      fb != null && panelWidth > 0 && panelHeight > 0 && fb.Length == 2 * (panelWidth * panelHeight)
      && writeBits == 16
      && width == Width(internalRotation, panelWidth, panelHeight)
      && height == Height(internalRotation, panelWidth, panelHeight)
    }

    function Win(): Window
      reads this
    {
      Window(xs, ys, xe, ye)
    }

    function Cursor(): Point
      reads this
    {
      Point(xpos, ypos)
    }

    /** An ordered window on the logical screen, with the cursor inside it. */
    predicate Ready()
      reads this
    {
      Fits(internalRotation, panelWidth, panelHeight, Win()) && Win().Contains(Cursor())
    }

    constructor(cfgWidth: nat, cfgHeight: nat, offset: bv8)
      ensures panelWidth == cfgWidth && panelHeight == cfgHeight && offsetRotation == offset
      ensures fb == null && startCount == 0 && calls == []
      ensures writeBits == 16 && readBits == 16
      ensures internalRotation == InternalRotation(0, offset)
      ensures width == Width(internalRotation, panelWidth, panelHeight)
      ensures height == Height(internalRotation, panelWidth, panelHeight)
    {
      panelWidth, panelHeight, offsetRotation := cfgWidth, cfgHeight, offset;
      timing := PanelTiming(TimingInfo(0, 0, cfgWidth, 0), TimingInfo(0, 0, cfgHeight, 0));
      fb := null;
      rotation := 0;
      var ir := InternalRotation(0, offset);
      internalRotation := ir;
      width, height := Width(ir, cfgWidth, cfgHeight), Height(ir, cfgWidth, cfgHeight);
      writeBits, readBits := 16, 16;
      writeDepth, readDepth := Rgb565, Rgb565;
      xs, ys, xe, ye := 0, 0, 0, 0;
      xpos, ypos := 0, 0;
      startCount := 0;
      calls := [];
    }

    method SetPanelTiming(t: PanelTiming)
      modifies this`timing
      ensures timing == t
    {
      timing := t;
    }

    method SetFrameBuffer(buffer: array<bv8>)
      modifies this`fb
      ensures fb == buffer
    {
      fb := buffer;
    }

    /**
     * init: without a frame buffer it fails and changes nothing; otherwise
     * the panel size is taken from the active area of the timing, and the
     * result is that of Panel_Device::init, given here as deviceInit.
     */
    method Init(useReset: bool, deviceInit: bool) returns (ok: bool)
      modifies this`panelWidth, this`panelHeight
      ensures fb == null ==> !ok && panelWidth == old(panelWidth) && panelHeight == old(panelHeight)
      ensures fb != null ==> ok == deviceInit && panelWidth == timing.h.active && panelHeight == timing.v.active
    {
      if fb == null {
        return false;
      }
      panelWidth := timing.h.active;
      panelHeight := timing.v.active;
      ok := deviceInit;
    }

    /** setColorDepth ignores the request: the frame buffer is RGB565, 16 bits per pixel for writing and reading. */
    method SetColorDepth(depth: ColorDepth) returns (d: ColorDepth)
      modifies this`writeBits, this`readBits, this`writeDepth, this`readDepth
      ensures d == Rgb565 && writeDepth == Rgb565 && readDepth == Rgb565
      ensures writeBits == 16 && readBits == 16
    {
      writeBits := 16;
      readBits := 16;
      writeDepth := Rgb565;
      readDepth := Rgb565;
      d := Rgb565;
    }

    /**
     * setRotation: the rotation is kept to 3 bits and combined with the
     * mounting offset; the logical size is the panel's, exchanged when the
     * internal code is a quarter turn.
     */
    method SetRotation(r: bv8)
      modifies this`rotation, this`internalRotation, this`width, this`height
      ensures rotation == r & 7 && internalRotation == InternalRotation(r, offsetRotation)
      ensures Transposes(internalRotation) ==> width == panelHeight && height == panelWidth
      ensures !Transposes(internalRotation) ==> width == panelWidth && height == panelHeight
      ensures (fb != null && panelWidth > 0 && panelHeight > 0 && fb.Length == 2 * (panelWidth * panelHeight)
               && writeBits == 16) ==> Valid()
    {
      var rr := r & 7;
      rotation := rr;
      internalRotation := InternalRotation(r, offsetRotation);
      width := panelWidth;
      height := panelHeight;
      if Transposes(internalRotation) {
        width, height := height, width;
      }
    }

    /**
     * setWindow clamps each bound onto the logical screen and puts the
     * cursor at the window's top-left cell. It does not order the bounds:
     * ordered arguments give a window ready for writeBlock and writePixels.
     */
    method SetWindow(x0: nat, y0: nat, x1: nat, y1: nat)
      requires Valid()
      modifies this`xs, this`ys, this`xe, this`ye, this`xpos, this`ypos
      ensures xs == Clamp(x0, width) && xe == Clamp(x1, width)
      ensures ys == Clamp(y0, height) && ye == Clamp(y1, height)
      ensures Cursor() == Point(xs, ys)
      ensures x0 <= x1 && y0 <= y1 ==> Ready()
    {
      var sx := Clamp(x0, width);
      var ex := Clamp(x1, width);
      var sy := Clamp(y0, height);
      var ey := Clamp(y1, height);
      xpos := sx;
      xs := sx;
      xe := ex;
      ypos := sy;
      ys := sy;
      ye := ey;
      if x0 <= x1 && y0 <= y1 {
        ClampMonotone(x0, x1, width);
        ClampMonotone(y0, y1, height);
      }
    }

    /**
     * drawPixelPreclipped: the logical point is mapped to its physical
     * pixel, which alone gets the low 16 bits of rawcolor; outside a
     * transaction display() is asked to show that pixel.
     */
    method DrawPixelPreclipped(x: nat, y: nat, rawcolor: bv32)
      requires Valid() && InBox(Point(x, y), width, height)
      modifies fb, this`calls
      ensures var q := ToPhysical(internalRotation, panelWidth, panelHeight, Point(x, y));
        Painted(fb[..], old(fb[..]), panelWidth, panelHeight, Rect(q.x, q.y, 1, 1), rawcolor)
        && Pixel16(fb[..], PixelIndex(panelWidth, panelHeight, q)) == (rawcolor & 0xFFFF) as bv16
        && calls == old(calls) + if startCount == 0 then [Display(q.x, q.y, 1, 1)] else []
    {
      var r := internalRotation;
      var px, py := x, y;
      if r != 0 {
        if FlipsY(r) {
          py := height - (py + 1);
        }
        if FlipsX(r) {
          px := width - (px + 1);
        }
        if Transposes(r) {
          px, py := py, px;
        }
      }
      ghost var q := ToPhysical(r, panelWidth, panelHeight, Point(x, y));
      assert Point(px, py) == q;
      var bw := panelWidth;
      var index := px + py * bw;
      assert index == PixelIndex(panelWidth, panelHeight, q);
      fb[2 * index] := ByteOf(rawcolor, 0);
      fb[2 * index + 1] := ByteOf(rawcolor, 1);
      PixelWritten(fb[..], old(fb[..]), panelWidth, panelHeight, q, rawcolor);
      if startCount == 0 {
        calls := calls + [Display(px, py, 1, 1)];
      }
    }

    /**
     * writeFillRectPreclipped: the logical rectangle is mapped to the
     * physical one, whose pixels all get rawcolor; no other pixel changes.
     */
    method WriteFillRectPreclipped(x: nat, y: nat, w: nat, h: nat, rawcolor: bv32)
      requires Valid() && RectInBox(Rect(x, y, w, h), width, height)
      modifies fb
      ensures Painted(fb[..], old(fb[..]), panelWidth, panelHeight,
                      ToPhysicalRect(internalRotation, panelWidth, panelHeight, Rect(x, y, w, h)), rawcolor)
    {
      var r := internalRotation;
      var px, py, pw, ph := x, y, w, h;
      if r != 0 {
        if FlipsY(r) {
          py := height - (py + ph);
        }
        if FlipsX(r) {
          px := width - (px + pw);
        }
        if Transposes(r) {
          px, py := py, px;
          pw, ph := ph, pw;
        }
      }
      assert Rect(px, py, pw, ph) == ToPhysicalRect(r, panelWidth, panelHeight, Rect(x, y, w, h));
      FillRect(fb, panelWidth, panelHeight, Rect(px, py, pw, ph), rawcolor);
    }

    /**
     * writeBlock: the next `length` cells of the window from the cursor get
     * rawcolor, filled as blocks of part of a row or whole rows; the cursor
     * ends `length` cells further on. No pixel outside those cells changes.
     */
    method WriteBlock(rawcolor: bv32, length: nat)
      requires Valid() && Ready() && length >= 1
      modifies fb, this`xpos, this`ypos
      ensures Cursor() == Win().Advance(old(Cursor()), length)
      ensures RunPainted(fb[..], old(fb[..]), internalRotation, panelWidth, panelHeight,
                         Win(), old(Cursor()), length, rawcolor)
    {
      ghost var start := Cursor();
      ghost var win := Win();
      ghost var done := 0;
      var rest := length;
      RunPaintedZero(fb[..], internalRotation, panelWidth, panelHeight, win, start, rawcolor);
      AdvanceZero(win, start);
      while true
        invariant Valid() && Win() == win && Fits(internalRotation, panelWidth, panelHeight, win)
        invariant 0 <= done < length && rest == length - done
        invariant Cursor() == win.Advance(start, done)
        invariant RunPainted(fb[..], old(fb[..]), internalRotation, panelWidth, panelHeight, win, start, done, rawcolor)
        decreases rest
      {
        var h := 1;
        var w := Min(rest, xe + 1 - xpos);
        if rest >= 2 * w && xpos == xs {
          h := Min(rest / w, ye + 1 - ypos);
        }
        BlockFits(win, Cursor(), rest, w, h);
        ghost var before := fb[..];
        WriteFillRectPreclipped(xpos, ypos, w, h, rawcolor);
        BlockStep(before, fb[..], old(fb[..]), internalRotation, panelWidth, panelHeight, win, start, done, w, h, rawcolor);
        BlockCursor(win, start, done, w, h);
        xpos := xpos + w;
        if xpos <= xe {
          return;
        }
        xpos := xs;
        ypos := ypos + h;
        if ye < ypos {
          ypos := ys;
        }
        rest := rest - w * h;
        done := done + w * h;
        if rest == 0 {
          return;
        }
      }
    }

    /**
     * writePixels: the next `length` cells of the window from the cursor
     * are written from the source. At rotation 0, and otherwise when the
     * source needs conversion, the cells go to fp_copy (row spans at
     * rotation 0, one call per cell otherwise); without conversion at a
     * non-zero rotation the raw source pixels are copied in. For every
     * rotation the cursor ends `length` cells further on.
     */
    method WritePixels(param: PixelCopy, length: nat)
      requires Valid() && Ready() && length >= 1
      requires internalRotation != 0 && param.noConvert ==> param.srcData != fb && 2 * length <= param.srcData.Length
      modifies fb, this`xpos, this`ypos, this`calls
      ensures Cursor() == Win().Advance(old(Cursor()), length)
      ensures internalRotation != 0 && param.noConvert ==>
        calls == old(calls)
        && RawCopied(fb[..], old(fb[..]), param.srcData[..], internalRotation, panelWidth, panelHeight,
                     Win(), old(Cursor()), length)
      ensures !(internalRotation != 0 && param.noConvert) ==>
        fb[..] == old(fb[..]) && |calls| >= |old(calls)| && calls[..|old(calls)|] == old(calls)
        && Targets(calls[|old(calls)|..]) == Route(internalRotation, panelWidth, panelHeight, Win(), old(Cursor()), length)
    {
      var r := internalRotation;
      ghost var log: seq<Call>;
      var x, y;
      if r == 0 {
        x, y, log := CopyRuns(panelWidth, panelHeight, Win(), xpos, ypos, length);
      } else if param.noConvert {
        x, y := CopyRaw(fb, param.srcData, r, panelWidth, panelHeight, Win(), xpos, ypos, length);
        log := [];
      } else {
        x, y, log := CopyEach(r, panelWidth, panelHeight, Win(), xpos, ypos, length);
      }
      calls := calls + log;
      assert calls[|old(calls)|..] == log;
      xpos := x;
      ypos := y;
    }

    /**
     * writeImage: rectangle (x, y, w, h) is drawn from the source. At
     * rotation 0 with an opaque unconverted source it is copied row by row
     * from the source image. Otherwise the rectangle is mapped to the
     * physical one, the source walk is turned with it, and each physical
     * row is handed to fp_copy / fp_skip from that row's source start.
     */
    method WriteImage(x: nat, y: nat, w: nat, h: nat, param: PixelCopy)
      requires Valid() && RectInBox(Rect(x, y, w, h), width, height)
      requires !(internalRotation == 0 && param.nonTransp && param.noConvert) ==>
        CopyProgress(param.fpCopy) && SkipProgress(param.fpSkip)
      requires internalRotation == 0 && param.nonTransp && param.noConvert ==>
        param.srcData != fb && Framed(param.srcData[..], param.srcBitwidth, param.srcHeight)
        && param.srcX + w <= param.srcBitwidth && param.srcY + h <= param.srcHeight
      modifies fb, this`calls, param`srcX32, param`srcY32, param`srcX32Add, param`srcY32Add
      ensures var fast := old(internalRotation == 0 && param.nonTransp && param.noConvert);
        fast ==> (calls == old(calls) && unchanged(param)
                  && Blitted(fb[..], old(fb[..]), panelWidth, panelHeight, Rect(x, y, w, h),
                             param.srcData[..], param.srcBitwidth, param.srcHeight, param.srcX, param.srcY))
      ensures var fast := old(internalRotation == 0 && param.nonTransp && param.noConvert);
        var q := ToPhysicalRect(internalRotation, panelWidth, panelHeight, Rect(x, y, w, h));
        var walk := RotatedScan(internalRotation, old(param.Walk(0, param.unit)), w, h);
        !fast ==> (fb[..] == old(fb[..]) && |calls| >= |old(calls)| && calls[..|old(calls)|] == old(calls)
                   && Covers(calls[|old(calls)|..]) == RowsCovered(panelWidth, q.x, q.y, q.w, q.h)
                   && FromRowStarts(calls[|old(calls)|..], walk, panelWidth, q.x, q.y, q.w, q.h)
                   && Point(param.srcX32, param.srcY32) == Sample(walk, q.h, 0)
                   && param.srcX32Add == walk.addX && param.srcY32Add == walk.addY)
    {
      var r := internalRotation;
      if r == 0 && param.nonTransp && param.noConvert {
        BlitRows(fb, panelWidth, panelHeight, x, y, w, h, param.srcData, param.srcBitwidth, param.srcHeight, param.srcX, param.srcY);
        return;
      }
      var nextx := 0;
      var nexty := param.unit;
      var px, py, pw, ph := x, y, w, h;
      if r != 0 {
        px, py, pw, ph, nextx, nexty := RotatePixelcopy(x, y, w, h, param, nextx, nexty);
      }
      var s := param.Walk(nextx, nexty);
      var sx32, sy32, log := ImageLoop(panelWidth, px, py, pw, ph, s, param.fpCopy, param.fpSkip);
      param.srcX32 := sx32;
      param.srcY32 := sy32;
      calls := calls + log;
      assert calls[|old(calls)|..] == log;
    }

    /**
     * _rotate_pixelcopy: the rectangle is mapped to the physical one and
     * the source walk is turned with it, so that walking the physical
     * rectangle row by row reads the source as the logical one would.
     */
    method RotatePixelcopy(x: nat, y: nat, w: nat, h: nat, param: PixelCopy, nextx: int, nexty: int)
      returns (x': nat, y': nat, w': nat, h': nat, nextx': int, nexty': int)
      requires Valid() && RectInBox(Rect(x, y, w, h), width, height)
      modifies param`srcX32, param`srcY32, param`srcX32Add, param`srcY32Add
      ensures Rect(x', y', w', h') == ToPhysicalRect(internalRotation, panelWidth, panelHeight, Rect(x, y, w, h))
      ensures param.Walk(nextx', nexty') == RotatedScan(internalRotation, old(param.Walk(nextx, nexty)), w, h)
    {
      var addx := param.srcX32Add;
      var addy := param.srcY32Add;
      var r := internalRotation;
      x', y', w', h', nextx', nexty' := x, y, w, h, nextx, nexty;
      if FlipsY(r) {
        param.srcY32 := param.srcY32 + nexty' * (h' - 1);
        nexty' := -nexty';
        y' := height - (y' + h');
      }
      if FlipsX(r) {
        param.srcX32 := param.srcX32 + addx * (w' - 1);
        param.srcY32 := param.srcY32 + addy * (w' - 1);
        addx := -addx;
        addy := -addy;
        x' := width - (x' + w');
      }
      if Transposes(r) {
        x', y' := y', x';
        w', h' := h', w';
        nextx', addx := addx, nextx';
        nexty', addy := addy, nexty';
      }
      param.srcX32Add := addx;
      param.srcY32Add := addy;
    }

    /**
     * readRect: rectangle (x, y, w, h) is read into dst. At rotation 0
     * without conversion its rows are packed into dst with memcpy.
     * Otherwise the frame buffer becomes the source of the pixel copy, the
     * walk is set up from the physical start point in fixed point, and row
     * k is handed to fp_copy from source point Sample(walk, k, 0).
     */
    method ReadRect(x: nat, y: nat, w: nat, h: nat, dst: array<bv8>, param: PixelCopy)
      requires Valid() && RectInBox(Rect(x, y, w, h), width, height)
      requires internalRotation == 0 && param.noConvert ==> dst != fb && 2 * (w * h) <= dst.Length
      modifies dst, this`calls, param`srcX32, param`srcY32, param`srcX32Add, param`srcY32Add, param`srcData, param`srcBitwidth
      ensures var fast := old(internalRotation == 0 && param.noConvert);
        fast ==> calls == old(calls) && unchanged(param) && Gathered(dst[..], old(dst[..]), fb[..], panelWidth, panelHeight, Rect(x, y, w, h))
      ensures var fast := old(internalRotation == 0 && param.noConvert);
        var walk := ReadScan(internalRotation, width, height, x, y, old(param.srcX32Add), old(param.srcY32Add), param.unit);
        !fast ==> (param.srcData == fb && param.srcBitwidth == panelWidth
                   && param.srcX32Add == walk.addX && param.srcY32Add == walk.addY
                   && Point(param.srcX32, param.srcY32) == Sample(walk, h - 1, 0)
                   && |old(calls)| <= |calls| && calls[..|old(calls)|] == old(calls)
                   && RowCalls(calls[|old(calls)|..], walk, w, h))
    {
      var r := internalRotation;
      if r == 0 && param.noConvert {
        GatherRows(fb, panelWidth, panelHeight, x, y, w, h, dst);
        return;
      }
      param.srcBitwidth := panelWidth;
      param.srcData := fb;
      var walk := ReadSetup(r, width, height, x, y, param.srcX32Add, param.srcY32Add, param.unit);
      if r != 0 {
        param.srcX32Add := walk.addX;
        param.srcY32Add := walk.addY;
      }
      param.srcX32 := walk.x32;
      param.srcY32 := walk.y32;
      var index, lastX32, lastY32, log := ReadLoop(walk, w, h, param.fpCopy);
      param.srcX32 := lastX32;
      param.srcY32 := lastY32;
      calls := calls + log;
    }
  }

  /**
   * The set-up of readRect's general path (Panel_LTDC.cpp:415-447): the start
   * point and the step fields of the walk over the frame buffer, reflected and
   * transposed as the rotation asks.
   */
  method ReadSetup(r: Rotation, width: int, height: int, x: int, y: int, addX: int, addY: int, unit: int)
    returns (walk: Scan)
    ensures walk == ReadScan(r, width, height, x, y, addX, addY, unit)
  {
    var nextx := 0;
    var nexty := unit;
    var px, py := x, y;
    var addx, addy := addX, addY;
    if r != 0 {
      if FlipsY(r) {
        nexty := -nexty;
        py := height - (py + 1);
      }
      if FlipsX(r) {
        addx := -addx;
        px := width - (px + 1);
      }
      if NegatesAddY(r) {
        addy := -addy;
      }
      if Transposes(r) {
        px, py := py, px;
        addx, addy := addy, addx;
        nextx, nexty := nexty, nextx;
      }
    }
    walk := Scan(px * unit, py * unit, addx, addy, nextx, nexty);
  }

  /** Writing the two bytes of pixel q paints the one-pixel rectangle at q. */
  lemma PixelWritten(s: seq<bv8>, t: seq<bv8>, pw: nat, ph: nat, q: Point, c: bv32)
    requires Framed(s, pw, ph) && |t| == |s| && InBox(q, pw, ph)
    requires var i := PixelIndex(pw, ph, q);
      s[2 * i] == ByteOf(c, 0) && s[2 * i + 1] == ByteOf(c, 1)
      && forall b :: 0 <= b < |s| && b != 2 * i && b != 2 * i + 1 ==> s[b] == t[b]
    ensures Painted(s, t, pw, ph, Rect(q.x, q.y, 1, 1), c)
    ensures Pixel16(s, PixelIndex(pw, ph, q)) == (c & 0xFFFF) as bv16
  {
    var i := PixelIndex(pw, ph, q);
    forall p | InBox(p, pw, ph)
      ensures if InRect(p, Rect(q.x, q.y, 1, 1)) then PixelIs(s, PixelIndex(pw, ph, p), c)
              else PixelSame(s, t, PixelIndex(pw, ph, p))
    {
      var j := PixelIndex(pw, ph, p);
      if p != q {
        IndexInjective(pw, ph, p, q);
      }
    }
    PixelIsValue(s, i, c);
  }

  /**
   * What writeImage's general path hands to the callbacks serves the
   * logical rectangle: logical pixel (j, i) of rc is the physical pixel at
   * some row and column of the physical rectangle q, that pixel's frame
   * buffer index is where the row calls cover it, and the rotated walk
   * samples there the source point the unrotated walk gives (j, i).
   */
  lemma ImagePixelSource(r: Rotation, pw: nat, ph: nat, rc: Rect, s: Scan, i: int, j: int)
    requires pw > 0 && RectInBox(rc, Width(r, pw, ph), Height(r, pw, ph))
    requires s.nextX == 0 && 0 <= i < rc.h && 0 <= j < rc.w
    ensures var q := ToPhysicalRect(r, pw, ph, rc);
      var row, col := RotatedRow(r, rc.w, rc.h, i, j), RotatedColumn(r, rc.w, rc.h, i, j);
      0 <= row < q.h && 0 <= col < q.w
      && 0 <= Idx(q.w, Point(col, row)) < |RowsCovered(pw, q.x, q.y, q.w, q.h)|
      && RowsCovered(pw, q.x, q.y, q.w, q.h)[Idx(q.w, Point(col, row))]
           == PixelIndex(pw, ph, ToPhysical(r, pw, ph, Point(rc.x + j, rc.y + i)))
      && Sample(RotatedScan(r, s, rc.w, rc.h), row, col) == Sample(s, i, j)
  {
    var q := ToPhysicalRect(r, pw, ph, rc);
    var row, col := RotatedRow(r, rc.w, rc.h, i, j), RotatedColumn(r, rc.w, rc.h, i, j);
    RotatedSampling(r, pw, ph, rc, s, i, j);
    RowsCoveredIndex(pw, q.x, q.y, q.w, q.h, row, col);
  }

  /**
   * A block of writeBlock (Panel_LTDC.cpp:115-121): w cells of the current
   * row, or, from the left edge and with at least two rows' worth left,
   * whole rows down to the bottom of the window. The block never holds
   * more than the `rest` cells still to write, and it holds all of them
   * when it ends before the right edge.
   */
  lemma BlockFits(win: Window, p: Point, rest: int, w: int, h: int)
    requires win.Ok() && win.Contains(p) && rest >= 1
    requires w == Min(rest, win.xe + 1 - p.x)
    requires h == if rest >= 2 * w && p.x == win.xs then Min(rest / w, win.ye + 1 - p.y) else 1
    ensures BlockShape(win, p, w, h)
    ensures 1 <= w * h <= rest
    ensures p.x + w <= win.xe ==> w * h == rest
  {
    if rest >= 2 * w && p.x == win.xs {
      assert w == win.Cols();
      assert rest / w >= 2;
      MulMono(h, rest / w, w);
      assert rest / w * w <= rest;
      MulAtLeast(h, w);
    }
  }
}

=== FILE: raster.dfy ===
/**
 * The frame buffer as Panel_LTDC writes it: panel_width by panel_height
 * RGB565 pixels, two bytes each, row after row. This module holds the
 * rectangle fill of writeFillRectPreclipped once the rectangle is in
 * physical coordinates, and the predicates that say which pixels changed.
 */
module Raster {
  import opened Arith
  import opened Bytes
  import opened Geometry
  import opened Memory

  /** A pw by ph frame buffer of two-byte pixels. */
  predicate Framed(s: seq<bv8>, pw: nat, ph: nat)
  {
    pw > 0 && |s| == 2 * (pw * ph)
  }

  /** s is t with exactly the pixels of rectangle q (physical coordinates) set to c. */
  ghost predicate Painted(s: seq<bv8>, t: seq<bv8>, pw: nat, ph: nat, q: Rect, c: bv32)
    requires Framed(s, pw, ph) && |t| == |s|
  {
    forall p :: InBox(p, pw, ph) ==>
      if InRect(p, q) then PixelIs(s, PixelIndex(pw, ph, p), c)
      else PixelSame(s, t, PixelIndex(pw, ph, p))
  }

  /** s is t with exactly the pixels a .. a + n - 1 (in index order) set to c. */
  ghost predicate SpanPainted(s: seq<bv8>, t: seq<bv8>, a: int, n: int, c: bv32)
    requires |s| == |t|
  {
    forall i :: 0 <= i && 2 * i + 1 < |s| ==>
      if a <= i < a + n then PixelIs(s, i, c) else PixelSame(s, t, i)
  }

  /** memset_multi with a two-byte pattern paints whole pixels. */
  lemma PatternPaints(s: seq<bv8>, t: seq<bv8>, a: int, n: int, c: bv32)
    requires 0 <= a && 0 <= n && 2 * (a + n) <= |s| == |t|
    requires Patterned(s, 2 * a, 2 * n, c, 2) && SameOutside(s, t, 2 * a, 2 * n)
    ensures SpanPainted(s, t, a, n, c)
  {
    forall i | 0 <= i && 2 * i + 1 < |s| && a <= i < a + n
      ensures PixelIs(s, i, c)
    {
      assert (2 * i - 2 * a) % 2 == 0 && (2 * i + 1 - 2 * a) % 2 == 1 by {
        DivModOf(2 * i - 2 * a, 2, i - a, 0);
        DivModOf(2 * i + 1 - 2 * a, 2, i - a, 1);
      }
    }
  }

  /** A span painted in index order paints the rectangle whose pixels have exactly those indices. */
  lemma SpanIsRect(s: seq<bv8>, t: seq<bv8>, pw: nat, ph: nat, a: int, n: int, q: Rect, c: bv32)
    requires Framed(s, pw, ph) && |t| == |s|
    requires SpanPainted(s, t, a, n, c)
    requires forall p :: InBox(p, pw, ph) ==> (a <= Idx(pw, p) < a + n <==> InRect(p, q))
    ensures Painted(s, t, pw, ph, q, c)
  {
    forall p | InBox(p, pw, ph)
      ensures if InRect(p, q) then PixelIs(s, PixelIndex(pw, ph, p), c)
              else PixelSame(s, t, PixelIndex(pw, ph, p))
    {
      var i := PixelIndex(pw, ph, p);
      assert 2 * i + 1 < |s|;
    }
  }

  /** Adding one more painted row below k painted rows of q. */
  lemma PaintRow(s: seq<bv8>, u: seq<bv8>, t: seq<bv8>, pw: nat, ph: nat, q: Rect, k: nat, c: bv32)
    requires Framed(s, pw, ph) && |u| == |s| == |t| && RectInBox(q, pw, ph) && 1 <= k < q.h
    requires Painted(s, t, pw, ph, Rect(q.x, q.y, q.w, k), c)
    requires SpanPainted(u, s, Idx(pw, Point(q.x, q.y + k)), q.w, c)
    ensures Painted(u, t, pw, ph, Rect(q.x, q.y, q.w, k + 1), c)
  {
    forall p | InBox(p, pw, ph)
      ensures if InRect(p, Rect(q.x, q.y, q.w, k + 1)) then PixelIs(u, PixelIndex(pw, ph, p), c)
              else PixelSame(u, t, PixelIndex(pw, ph, p))
    {
      var i := PixelIndex(pw, ph, p);
      assert 2 * i + 1 < |s|;
      RowSpan(pw, ph, p, q.x, q.y + k, q.w);
      if p.y == q.y + k && q.x <= p.x < q.x + q.w {
        assert PixelIs(u, i, c);
      } else {
        assert PixelSame(u, s, i);
        if InRect(p, Rect(q.x, q.y, q.w, k)) {
          assert PixelIs(s, i, c);
        } else {
          assert PixelSame(s, t, i);
        }
      }
    }
  }

  /** The first row of q painted through a span. */
  lemma FirstRow(s: seq<bv8>, t: seq<bv8>, pw: nat, ph: nat, q: Rect, c: bv32)
    requires Framed(s, pw, ph) && |t| == |s| && RectInBox(q, pw, ph)
    requires SpanPainted(s, t, Idx(pw, Point(q.x, q.y)), q.w, c)
    ensures Painted(s, t, pw, ph, Rect(q.x, q.y, q.w, 1), c)
  {
    forall p | InBox(p, pw, ph)
      ensures (Idx(pw, Point(q.x, q.y)) <= Idx(pw, p) < Idx(pw, Point(q.x, q.y)) + q.w
               <==> InRect(p, Rect(q.x, q.y, q.w, 1)))
    {
      RowSpan(pw, ph, p, q.x, q.y, q.w);
    }
    SpanIsRect(s, t, pw, ph, Idx(pw, Point(q.x, q.y)), q.w, Rect(q.x, q.y, q.w, 1), c);
  }

  /** A full-width rectangle is one run of pixels in index order. */
  lemma FullWidthRows(s: seq<bv8>, t: seq<bv8>, pw: nat, ph: nat, q: Rect, c: bv32)
    requires Framed(s, pw, ph) && |t| == |s| && RectInBox(q, pw, ph) && q.w == pw
    requires SpanPainted(s, t, Idx(pw, Point(q.x, q.y)), q.w * q.h, c)
    ensures Painted(s, t, pw, ph, q, c)
  {
    assert q.x == 0;
    assert q.y * pw + q.w * q.h == (q.y + q.h) * pw;
    forall p | InBox(p, pw, ph)
      ensures (Idx(pw, Point(q.x, q.y)) <= Idx(pw, p) < Idx(pw, Point(q.x, q.y)) + q.w * q.h
               <==> InRect(p, q))
    {
      RowsSpan(pw, ph, p, q.y, q.h);
    }
    SpanIsRect(s, t, pw, ph, Idx(pw, Point(q.x, q.y)), q.w * q.h, q, c);
  }

  /** Copying the bytes of n painted pixels from index a to index b paints pixels b .. b + n - 1. */
  lemma CopyPaints(s: seq<bv8>, u: seq<bv8>, a: int, b: int, n: int, c: bv32)
    requires 0 <= a && 0 <= b && 0 <= n && 2 * (a + n) <= |s| && 2 * (b + n) <= |s| && |u| == |s|
    requires forall i :: a <= i < a + n ==> PixelIs(s, i, c)
    requires forall j {:trigger u[j]} :: 0 <= j < |u| ==>
               u[j] == if 2 * b <= j < 2 * b + 2 * n then s[2 * a + (j - 2 * b)] else s[j]
    ensures SpanPainted(u, s, b, n, c)
  {
    forall i | 0 <= i && 2 * i + 1 < |u|
      ensures if b <= i < b + n then PixelIs(u, i, c) else PixelSame(u, s, i)
    {
      if b <= i < b + n {
        assert PixelIs(s, a + (i - b), c);
        assert u[2 * i] == s[2 * a + (2 * i - 2 * b)];
        assert u[2 * i + 1] == s[2 * a + (2 * i + 1 - 2 * b)];
      } else {
        var j := 2 * i + 1;
        assert !(2 * b <= j < 2 * b + 2 * n);
        assert u[2 * i] == s[2 * i];
        assert u[j] == s[j];
      }
    }
  }

  /**
   * writeFillRectPreclipped from the point where the rectangle is physical
   * (Panel_LTDC.cpp:310-345). Rectangles wider than one pixel get their
   * first row from memset_multi and the others by copying that row; a
   * full-width rectangle is filled as one run. A one-pixel-wide rectangle
   * is written pixel by pixel down the column.
   */
  method FillRect(fb: array<bv8>, pw: nat, ph: nat, q: Rect, c: bv32)
    requires Framed(fb[..], pw, ph) && RectInBox(q, pw, ph)
    modifies fb
    ensures Painted(fb[..], old(fb[..]), pw, ph, q, c)
  {
    if q.w > 1 {
      FillRows(fb, pw, ph, q, c);
    } else {
      FillColumn(fb, pw, ph, q, c);
    }
  }

  /** The branch of writeFillRectPreclipped for rectangles wider than one pixel (Panel_LTDC.cpp:310-334). */
  method FillRows(fb: array<bv8>, pw: nat, ph: nat, q: Rect, c: bv32)
    requires Framed(fb[..], pw, ph) && RectInBox(q, pw, ph) && q.w > 1
    modifies fb
    ensures Painted(fb[..], old(fb[..]), pw, ph, q, c)
  {
    var bw := pw;
    var src := 2 * (q.x + q.y * bw);
    var dst := src;
    var addDst := bw * 2;
    var len := q.w * 2;
    var w, h := q.w, q.h;
    if w != bw {
      dst := dst + addDst;
    } else {
      w := w * h;
      h := 1;
    }
    FirstRunFits(pw, ph, q);
    PaintRun(fb, src, c, w, Idx(pw, Point(q.x, q.y)));
    if q.w == bw {
      // h is 1 now, so the copy loop below would not run
      FullWidthRows(fb[..], old(fb[..]), pw, ph, q, c);
      return;
    }
    NextRowOffset(pw, q.x, q.y, src);
    FirstRow(fb[..], old(fb[..]), pw, ph, q, c);
    CopyRows(fb, pw, ph, q, c, dst, src, addDst, len, h, old(fb[..]));
  }

  /** The loop `while (--h) { memcpy(dst, src, len); dst += add_dst; }` (Panel_LTDC.cpp:329-333). */
  method CopyRows(fb: array<bv8>, pw: nat, ph: nat, q: Rect, c: bv32, firstDst: int, src: int, addDst: int, len: int,
                  rows: int, ghost t: seq<bv8>)
    requires Framed(fb[..], pw, ph) && |t| == fb.Length && RectInBox(q, pw, ph) && rows == q.h
    requires firstDst == 2 * Idx(pw, Point(q.x, q.y + 1)) && src == 2 * Idx(pw, Point(q.x, q.y))
    requires addDst == 2 * pw && len == 2 * q.w
    requires Painted(fb[..], t, pw, ph, Rect(q.x, q.y, q.w, 1), c)
    modifies fb
    ensures Painted(fb[..], t, pw, ph, q, c)
  {
    var dst, h := firstDst, rows;
    ghost var k := 1;
    while h > 1
      invariant 1 <= h && k + h == q.h + 1 && 1 <= k <= q.h
      invariant dst == 2 * Idx(pw, Point(q.x, q.y + k))
      invariant Painted(fb[..], t, pw, ph, Rect(q.x, q.y, q.w, k), c)
    {
      CopyRow(fb, pw, ph, q, k, c, dst, src, len, t);
      NextRowOffset(pw, q.x, q.y + k, dst);
      dst := dst + addDst;
      h := h - 1;
      k := k + 1;
    }
  }

  /** Adding the row's byte width 2 * pw to the byte offset of (x, y) gives that of (x, y + 1). */
  lemma NextRowOffset(pw: nat, x: int, y: int, d: int)
    requires d == 2 * Idx(pw, Point(x, y))
    ensures d + 2 * pw == 2 * Idx(pw, Point(x, y + 1))
  {
    assert (y + 1) * pw == y * pw + pw;
  }

  /** memset_multi(src, rawcolor, 2, w) paints the w pixels from pixel a, src being its byte offset. */
  method PaintRun(fb: array<bv8>, src: nat, c: bv32, w: nat, ghost a: nat)
    requires src == 2 * a && w >= 1 && 2 * (a + w) <= fb.Length
    modifies fb
    ensures SpanPainted(fb[..], old(fb[..]), a, w, c)
  {
    MemsetMulti(fb, src, c, 2, w);
    PatternPaints(fb[..], old(fb[..]), a, w, c);
  }

  /** The run that memset_multi fills: the first row, or the whole rectangle when it is full width. */
  lemma FirstRunFits(pw: nat, ph: nat, q: Rect)
    requires pw > 0 && RectInBox(q, pw, ph)
    ensures Idx(pw, Point(q.x, q.y)) + q.w <= pw * ph
    ensures q.w == pw ==> Idx(pw, Point(q.x, q.y)) + q.w * q.h <= pw * ph
  {
    assert PixelIndex(pw, ph, Point(q.x + q.w - 1, q.y)) < pw * ph;
    if q.w == pw {
      MulMono(q.y + q.h, ph, pw);
      assert (q.y + q.h) * pw == q.y * pw + q.h * pw;
      assert q.w * q.h == q.h * pw && ph * pw == pw * ph;
    }
  }

  /** One memcpy of the row-copy loop (Panel_LTDC.cpp:329-333): row k of q becomes a copy of row 0. */
  method CopyRow(fb: array<bv8>, pw: nat, ph: nat, q: Rect, ghost k: nat, c: bv32, dst: int, src: int, len: int, ghost t: seq<bv8>)
    requires Framed(fb[..], pw, ph) && |t| == fb.Length && RectInBox(q, pw, ph) && 1 <= k < q.h
    requires dst == 2 * Idx(pw, Point(q.x, q.y + k)) && src == 2 * Idx(pw, Point(q.x, q.y)) && len == 2 * q.w
    requires Painted(fb[..], t, pw, ph, Rect(q.x, q.y, q.w, k), c)
    modifies fb
    ensures Painted(fb[..], t, pw, ph, Rect(q.x, q.y, q.w, k + 1), c)
  {
    ghost var before := fb[..];
    ghost var a, b := RowSource(before, t, pw, ph, q, k, c);
    Memcpy(fb, dst, fb, src, len);
    CopyPaints(before, fb[..], a, b, q.w, c);
    PaintRow(before, fb[..], t, pw, ph, q, k, c);
  }

  /**
   * The source and destination of that memcpy: row 0 of q starts at pixel a
   * and is painted, row k starts at pixel b, after the end of row 0, and fits.
   */
  lemma RowSource(s: seq<bv8>, t: seq<bv8>, pw: nat, ph: nat, q: Rect, k: nat, c: bv32) returns (a: nat, b: nat)
    requires Framed(s, pw, ph) && |t| == |s| && RectInBox(q, pw, ph) && 1 <= k < q.h
    requires Painted(s, t, pw, ph, Rect(q.x, q.y, q.w, k), c)
    ensures a == Idx(pw, Point(q.x, q.y)) && b == Idx(pw, Point(q.x, q.y + k))
    ensures a + q.w <= b && 2 * (b + q.w) <= |s|
    ensures forall i :: a <= i < a + q.w ==> PixelIs(s, i, c)
  {
    a, b := Idx(pw, Point(q.x, q.y)), Idx(pw, Point(q.x, q.y + k));
    assert b + q.w <= pw * ph by {
      assert PixelIndex(pw, ph, Point(q.x + q.w - 1, q.y + k)) < pw * ph;
    }
    assert a + q.w <= b by {
      MulAtLeast(k, pw);
      assert (q.y + k) * pw == q.y * pw + k * pw;
    }
    forall i | a <= i < a + q.w
      ensures PixelIs(s, i, c)
    {
      assert PixelIndex(pw, ph, Point(q.x + (i - a), q.y)) == i;
    }
  }

  /** The branch of writeFillRectPreclipped for one-pixel-wide rectangles (Panel_LTDC.cpp:335-345). */
  method FillColumn(fb: array<bv8>, pw: nat, ph: nat, q: Rect, c: bv32)
    requires Framed(fb[..], pw, ph) && RectInBox(q, pw, ph) && q.w == 1
    modifies fb
    ensures Painted(fb[..], old(fb[..]), pw, ph, q, c)
  {
    var index := q.x + q.y * pw;
    var h := q.h;
    var k := 0;
    while true
      invariant 1 <= h && k + h == q.h && 0 <= k < q.h
      invariant index == Idx(pw, Point(q.x, q.y + k))
      invariant k == 0 ==> fb[..] == old(fb[..])
      invariant k > 0 ==> Painted(fb[..], old(fb[..]), pw, ph, Rect(q.x, q.y, 1, k), c)
      decreases h
    {
      ghost var before := fb[..];
      assert PixelIndex(pw, ph, Point(q.x, q.y + k)) == index;
      fb[2 * index] := ByteOf(c, 0);
      fb[2 * index + 1] := ByteOf(c, 1);
      assert SpanPainted(fb[..], before, index, 1, c);
      if k == 0 {
        FirstRow(fb[..], old(fb[..]), pw, ph, q, c);
      } else {
        PaintRow(before, fb[..], old(fb[..]), pw, ph, q, k, c);
      }
      index := index + pw;
      h := h - 1;
      k := k + 1;
      if h == 0 {
        return;
      }
    }
  }
}

=== FILE: reads.dfy ===
/**
 * readRect of Panel_LTDC: at rotation 0 without pixel conversion the
 * rectangle is gathered row by row with memcpy into a packed destination
 * buffer; otherwise each row is handed to fp_copy with the row's source
 * start in the frame buffer, in fixed point.
 */
module Reads {
  import opened Arith
  import opened Bytes
  import opened Geometry
  import opened Memory
  import opened Raster
  import opened Calls
  import opened Scans

  /** The rectangle lies inside the pw by ph frame buffer and has at least one column (it may have no rows). */
  predicate RowsFit(rc: Rect, pw: nat, ph: nat)
  {
    0 <= rc.x && 0 <= rc.y && 1 <= rc.w && 0 <= rc.h && rc.x + rc.w <= pw && rc.y + rc.h <= ph
  }

  /**
   * d is t with its first rc.w * rc.h pixels set to the pixels of rectangle
   * rc of frame buffer s, packed row after row: destination pixel j + i * w
   * holds frame-buffer pixel (rc.x + j, rc.y + i). No later byte of d changes.
   */
  ghost predicate Gathered(d: seq<bv8>, t: seq<bv8>, s: seq<bv8>, pw: nat, ph: nat, rc: Rect)
    requires Framed(s, pw, ph) && RowsFit(rc, pw, ph) && |d| == |t|
  {
    2 * (rc.w * rc.h) <= |d|
    && (forall i, j :: 0 <= i < rc.h && 0 <= j < rc.w ==>
       PixelFrom(d, PixelIndex(rc.w, rc.h, Point(j, i)), s, PixelIndex(pw, ph, Point(rc.x + j, rc.y + i))))
    && (forall b :: 2 * (rc.w * rc.h) <= b < |d| ==> d[b] == t[b])
  }

  /**
   * Copying row k of the rectangle, len = 2 * w bytes from byte e of s, to
   * destination bytes d = 2 * k * w onwards extends the gathered rows by one.
   */
  lemma GatherRow(before: seq<bv8>, u: seq<bv8>, t: seq<bv8>, s: seq<bv8>, pw: nat, ph: nat, rc: Rect, k: nat,
                  d: int, e: int, len: int)
    requires Framed(s, pw, ph) && RowsFit(rc, pw, ph) && k < rc.h
    requires |before| == |u| == |t| && 2 * (rc.w * rc.h) <= |u|
    requires d == 2 * (k * rc.w) && e == 2 * Idx(pw, Point(rc.x, rc.y + k)) && len == 2 * rc.w
    requires Gathered(before, t, s, pw, ph, Rect(rc.x, rc.y, rc.w, k))
    requires 0 <= e && e + len <= |s|
    requires forall b {:trigger u[b]} :: 0 <= b < |u| ==> u[b] == if d <= b < d + len then s[e + (b - d)] else before[b]
    ensures Gathered(u, t, s, pw, ph, Rect(rc.x, rc.y, rc.w, k + 1))
  {
    RowExtent(rc.w, rc.h, k, d, len);
    CopySplit(before, u, s, d, e, len);
    TailKept(before, u, t, d, len);
    RowPixels(before, u, t, s, pw, ph, rc, k, d, e, len);
  }

  /** Destination row k spans bytes d .. d + len - 1, which end where row k + 1 starts, within the w * h pixels. */
  lemma RowExtent(w: nat, h: nat, k: nat, d: int, len: int)
    requires k < h && d == 2 * (k * w) && len == 2 * w
    ensures d == 2 * (w * k) && d + len == 2 * (w * (k + 1)) && w * (k + 1) <= w * h
  {
    assert w * (k + 1) == k * w + w;
    MulMono(k + 1, h, w);
  }

  /** The memcpy postcondition split into the copied span and the bytes it leaves alone. */
  lemma CopySplit(before: seq<bv8>, u: seq<bv8>, s: seq<bv8>, d: int, e: int, len: int)
    requires |before| == |u| && 0 <= e && e + len <= |s| && 0 <= d && d + len <= |u|
    requires forall b {:trigger u[b]} :: 0 <= b < |u| ==> u[b] == if d <= b < d + len then s[e + (b - d)] else before[b]
    ensures forall b :: d <= b < d + len ==> u[b] == s[e + (b - d)]
    ensures forall b :: 0 <= b < |u| && !(d <= b < d + len) ==> u[b] == before[b]
  {
  }

  lemma RowPixels(before: seq<bv8>, u: seq<bv8>, t: seq<bv8>, s: seq<bv8>, pw: nat, ph: nat, rc: Rect, k: nat,
                  d: int, e: int, len: int)
    requires Framed(s, pw, ph) && RowsFit(rc, pw, ph) && k < rc.h
    requires |before| == |u| == |t| && 2 * (rc.w * (k + 1)) <= |u|
    requires d == 2 * (k * rc.w) && e == 2 * Idx(pw, Point(rc.x, rc.y + k)) && len == 2 * rc.w
    requires Gathered(before, t, s, pw, ph, Rect(rc.x, rc.y, rc.w, k))
    requires 0 <= e && e + len <= |s| && d + len <= |u|
    requires forall b :: d <= b < d + len ==> u[b] == s[e + (b - d)]
    requires forall b :: 0 <= b < |u| && !(d <= b < d + len) ==> u[b] == before[b]
    ensures forall i, j :: 0 <= i < k + 1 && 0 <= j < rc.w ==>
      PixelFrom(u, PixelIndex(rc.w, k + 1, Point(j, i)), s, PixelIndex(pw, ph, Point(rc.x + j, rc.y + i)))
  {
    forall i, j | 0 <= i < k + 1 && 0 <= j < rc.w
      ensures PixelFrom(u, PixelIndex(rc.w, k + 1, Point(j, i)), s, PixelIndex(pw, ph, Point(rc.x + j, rc.y + i)))
    {
      RowPixel(before, u, t, s, pw, ph, rc, k, d, e, len, i, j);
    }
  }

  lemma RowPixel(before: seq<bv8>, u: seq<bv8>, t: seq<bv8>, s: seq<bv8>, pw: nat, ph: nat, rc: Rect, k: nat,
                 d: int, e: int, len: int, i: int, j: int)
    requires Framed(s, pw, ph) && RowsFit(rc, pw, ph) && k < rc.h && 0 <= i < k + 1 && 0 <= j < rc.w
    requires |before| == |u| == |t| && 2 * (rc.w * (k + 1)) <= |u|
    requires d == 2 * (k * rc.w) && e == 2 * Idx(pw, Point(rc.x, rc.y + k)) && len == 2 * rc.w
    requires Gathered(before, t, s, pw, ph, Rect(rc.x, rc.y, rc.w, k))
    requires 0 <= e && e + len <= |s| && d + len <= |u|
    requires forall b :: d <= b < d + len ==> u[b] == s[e + (b - d)]
    requires forall b :: 0 <= b < |u| && !(d <= b < d + len) ==> u[b] == before[b]
    ensures PixelFrom(u, PixelIndex(rc.w, k + 1, Point(j, i)), s, PixelIndex(pw, ph, Point(rc.x + j, rc.y + i)))
  {
    if i == k {
      NewRowPixel(u, s, pw, ph, rc, k, d, e, len, j);
    } else {
      OldRowPixel(before, u, t, s, pw, ph, rc, k, d, e, len, i, j);
    }
  }

  /** Bytes past a copied span keep the values they had before it, which are those of t. */
  lemma TailKept(before: seq<bv8>, u: seq<bv8>, t: seq<bv8>, d: int, len: int)
    requires |before| == |u| == |t| && 0 <= d && 0 <= len
    requires forall b :: d <= b < |before| ==> before[b] == t[b]
    requires forall b :: 0 <= b < |u| && !(d <= b < d + len) ==> u[b] == before[b]
    ensures forall b :: d + len <= b < |u| ==> u[b] == t[b]
  {
  }

  lemma NewRowPixel(u: seq<bv8>, s: seq<bv8>, pw: nat, ph: nat, rc: Rect, k: nat, d: int, e: int, len: int, j: int)
    requires Framed(s, pw, ph) && RowsFit(rc, pw, ph) && k < rc.h && 0 <= j < rc.w
    requires 2 * (rc.w * (k + 1)) <= |u|
    requires d == 2 * (k * rc.w) && e == 2 * Idx(pw, Point(rc.x, rc.y + k)) && len == 2 * rc.w
    requires 0 <= d && d + len <= |u| && 0 <= e && e + len <= |s|
    requires forall b :: d <= b < d + len ==> u[b] == s[e + (b - d)]
    ensures PixelFrom(u, PixelIndex(rc.w, k + 1, Point(j, k)), s, PixelIndex(pw, ph, Point(rc.x + j, rc.y + k)))
  {
    var dst := PixelIndex(rc.w, k + 1, Point(j, k));
    var src := PixelIndex(pw, ph, Point(rc.x + j, rc.y + k));
    assert dst == j + k * rc.w;
    assert 2 * src == e + 2 * j;
    assert u[d + 2 * j] == s[e + 2 * j];
    assert u[d + 2 * j + 1] == s[e + 2 * j + 1];
  }

  lemma OldRowPixel(before: seq<bv8>, u: seq<bv8>, t: seq<bv8>, s: seq<bv8>, pw: nat, ph: nat, rc: Rect, k: nat,
                    d: int, e: int, len: int, i: int, j: int)
    requires Framed(s, pw, ph) && RowsFit(rc, pw, ph) && k < rc.h && 0 <= i < k && 0 <= j < rc.w
    requires |before| == |u| == |t| && 2 * (rc.w * (k + 1)) <= |u|
    requires d == 2 * (k * rc.w)
    requires Gathered(before, t, s, pw, ph, Rect(rc.x, rc.y, rc.w, k))
    requires forall b :: 0 <= b < |u| && !(d <= b < d + len) ==> u[b] == before[b]
    ensures PixelFrom(u, PixelIndex(rc.w, k + 1, Point(j, i)), s, PixelIndex(pw, ph, Point(rc.x + j, rc.y + i)))
  {
    var dst := PixelIndex(rc.w, k, Point(j, i));
    assert dst == PixelIndex(rc.w, k + 1, Point(j, i));
    assert PixelFrom(before, dst, s, PixelIndex(pw, ph, Point(rc.x + j, rc.y + i)));
    assert dst < rc.w * k;
    assert u[2 * dst] == before[2 * dst];
    assert u[2 * dst + 1] == before[2 * dst + 1];
  }

  /**
   * The readRect fast path (Panel_LTDC.cpp:399-410), taken at rotation 0
   * without conversion: h rows of w pixels are copied with memcpy from the
   * frame buffer to dst, packed one row after the other.
   */
  method GatherRows(fb: array<bv8>, pw: nat, ph: nat, x: nat, y: nat, w: nat, h: nat, dst: array<bv8>)
    requires Framed(fb[..], pw, ph) && RectInBox(Rect(x, y, w, h), pw, ph)
    requires dst != fb && 2 * (w * h) <= dst.Length
    modifies dst
    ensures Gathered(dst[..], old(dst[..]), fb[..], pw, ph, Rect(x, y, w, h))
  {
    var top := y;
    var end := h + y;  // h += y
    var bytes := 2;    // _write_bits >> 3 for the 16-bit frame buffer
    var bw := pw;
    var d := 0;
    var len := w * bytes;
    ghost var t := dst[..];
    while true
      invariant y <= top < end && end == y + h
      invariant d == 2 * ((top - y) * w) && len == 2 * w
      invariant Gathered(dst[..], t, fb[..], pw, ph, Rect(x, y, w, top - y))
      decreases end - top
    {
      assert (y + (top - y)) * pw == top * pw;
      GatherOne(fb, pw, ph, Rect(x, y, w, h), dst, top - y, d, (x + top * bw) * bytes, len, t);
      assert (top + 1 - y) * w == (top - y) * w + w;
      d := d + len;
      top := top + 1;
      if top == end {
        return;
      }
    }
  }

  /** One memcpy of the fast path: row k of the rectangle to destination bytes d .. d + len - 1. */
  method GatherOne(fb: array<bv8>, pw: nat, ph: nat, rc: Rect, dst: array<bv8>, k: nat,
                   d: int, e: int, len: nat, ghost t: seq<bv8>)
    requires Framed(fb[..], pw, ph) && RectInBox(rc, pw, ph) && k < rc.h
    requires dst != fb && 2 * (rc.w * rc.h) <= dst.Length && |t| == dst.Length
    requires d == 2 * (k * rc.w) && e == 2 * (rc.x + (rc.y + k) * pw) && len == 2 * rc.w
    requires Gathered(dst[..], t, fb[..], pw, ph, Rect(rc.x, rc.y, rc.w, k))
    modifies dst
    ensures Gathered(dst[..], t, fb[..], pw, ph, Rect(rc.x, rc.y, rc.w, k + 1))
  {
    ghost var before := dst[..];
    GatherBounds(pw, ph, rc, k);
    Memcpy(dst, d, fb, e, len);
    GatherRow(before, dst[..], t, fb[..], pw, ph, rc, k, d, e, len);
  }

  lemma GatherBounds(pw: nat, ph: nat, rc: Rect, k: nat)
    requires pw > 0 && RectInBox(rc, pw, ph) && k < rc.h
    ensures 2 * (k * rc.w) + 2 * rc.w <= 2 * (rc.w * rc.h)
    ensures 2 * (rc.x + (rc.y + k) * pw) + 2 * rc.w <= 2 * (pw * ph)
  {
    MulMono(k + 1, rc.h, rc.w);
    assert PixelIndex(pw, ph, Point(rc.x + rc.w - 1, rc.y + k)) < pw * ph;
  }

  /**
   * Filling a rectangle and then gathering it reads back w * h copies of
   * the fill colour: writeFillRectPreclipped followed by the readRect fast
   * path at rotation 0, where the physical rectangle is the logical one.
   */
  lemma FillThenRead(s: seq<bv8>, t: seq<bv8>, d: seq<bv8>, t2: seq<bv8>, pw: nat, ph: nat, rc: Rect, c: bv32, k: int)
    requires Framed(s, pw, ph) && |t| == |s| && RectInBox(rc, pw, ph)
    requires |d| == |t2| && 2 * (rc.w * rc.h) <= |d|
    requires Painted(s, t, pw, ph, rc, c) && Gathered(d, t2, s, pw, ph, rc)
    requires 0 <= k < rc.w * rc.h
    ensures PixelIs(d, k, c)
  {
    PointOfIndex(rc.w, rc.h, k);
    var q := PointOf(rc.w, k);
    assert PixelIndex(rc.w, rc.h, Point(q.x, q.y)) == k;
    var p := Point(rc.x + q.x, rc.y + q.y);
    assert InBox(p, pw, ph) && InRect(p, rc);
    assert PixelIs(s, PixelIndex(pw, ph, p), c);
    assert PixelFrom(d, k, s, PixelIndex(pw, ph, p));
  }

  /** The calls of the first n rows of the loop: row k goes to fp_copy for w pixels from source point Sample(s, k, 0). */
  ghost predicate RowCalls(log: seq<Call>, s: Scan, w: int, n: int)
  {
    |log| == n
    && forall k :: 0 <= k < n ==>
         log[k].ReadRow? && log[k].line == k && log[k].to == log[k].from + w
         && Point(log[k].srcX32, log[k].srcY32) == Sample(s, k, 0)
  }

  lemma RowCallsAppend(log: seq<Call>, s: Scan, w: int, n: int, c: Call)
    requires RowCalls(log, s, w, n)
    requires c.ReadRow? && c.line == n && c.to == c.from + w && Point(c.srcX32, c.srcY32) == Sample(s, n, 0)
    ensures RowCalls(log + [c], s, w, n + 1)
  {
  }

  /**
   * The general readRect row loop (Panel_LTDC.cpp:445-456): row k of the
   * destination is handed to fp_copy after the source start has been set
   * to Sample(s, k, 0); the index fp_copy returns is where the next row
   * goes. When fp_copy copies whole rows, the rows cover destination pixels
   * 0 .. w * h - 1 in order. The source start left behind is the last row's.
   */
  method ReadLoop(s: Scan, w: nat, h: nat, copy: (int, int, int, int) -> int)
    returns (index: int, lastX32: int, lastY32: int, ghost log: seq<Call>)
    requires h >= 1
    ensures Point(lastX32, lastY32) == Sample(s, h - 1, 0)
    ensures RowCalls(log, s, w, h)
    ensures (forall a, b, pos, end :: copy(a, b, pos, end) == end) ==> index == w * h && Covers(log) == Range(0, w * h)
  {
    index := 0;
    var x32, y32 := s.x32, s.y32;
    var line := 0;
    log := [];
    while true
      invariant 0 <= line < h
      invariant Point(x32, y32) == Sample(s, line, 0)
      invariant RowCalls(log, s, w, line)
      invariant (forall a, b, pos, end :: copy(a, b, pos, end) == end) ==> index == w * line && Covers(log) == Range(0, w * line)
      decreases h - line
    {
      var srcX32, srcY32 := x32, y32;
      x32 := x32 + s.nextX;
      y32 := y32 + s.nextY;
      lastX32, lastY32 := srcX32, srcY32;
      var next := copy(srcX32, srcY32, index, index + w);
      ReadStep(log, s, w, line, index, srcX32, srcY32);
      RowCallsAppend(log, s, w, line, ReadRow(line, index, index + w, srcX32, srcY32));
      log := log + [ReadRow(line, index, index + w, srcX32, srcY32)];
      index := next;
      line := line + 1;
      if line == h {
        return;
      }
    }
  }

  lemma ReadStep(log: seq<Call>, s: Scan, w: nat, line: nat, index: int, srcX32: int, srcY32: int)
    requires Point(srcX32, srcY32) == Sample(s, line, 0)
    ensures Sample(s, line + 1, 0) == Point(srcX32 + s.nextX, srcY32 + s.nextY)
    ensures w * (line + 1) == w * line + w
    ensures index == w * line && Covers(log) == Range(0, w * line) ==>
      Covers(log + [ReadRow(line, index, index + w, srcX32, srcY32)]) == Range(0, w * (line + 1))
  {
    assert s.nextX * (line + 1) == s.nextX * line + s.nextX && s.nextY * (line + 1) == s.nextY * line + s.nextY;
    CoversAppend(log, ReadRow(line, index, index + w, srcX32, srcY32));
    RangeSplit(0, w * line, w * line + w);
  }
}

=== FILE: scan.dfy ===
/**
 * The fixed-point source walk that pixelcopy_t performs for writeImage and
 * readRect. Row i of a transfer starts at (x32, y32) advanced i times by
 * (nextX, nextY); within a row each pixel advances by (addX, addY). The
 * coordinates carry FP_SCALE fraction bits, so one pixel is `unit` apart.
 */
module Scans {
  import opened Geometry

  datatype Scan = Scan(x32: int, y32: int, addX: int, addY: int, nextX: int, nextY: int)

  /** Source coordinates of pixel j of row i. */
  function Sample(s: Scan, i: int, j: int): Point
  {
    Point(s.x32 + s.nextX * i + s.addX * j, s.y32 + s.nextY * i + s.addY * j)
  }

  /** The rotations for which readRect negates src_y32_add: (r + 1) & 2, that is 1, 2, 5 and 6. */
  function NegatesAddY(r: Rotation): (b: bool)
    ensures b <==> r in {1, 2, 5, 6}
  {
    ((r + 1) as bv8) & 2 != 0
  }

  /** Walking n - 1 - k steps back from step n - 1 reaches step k. */
  lemma Reverse(a: int, n: int, k: int)
    ensures a * (n - 1) + (-a) * (n - 1 - k) == a * k
  {
    assert (-a) * (n - 1 - k) == -(a * (n - 1)) + a * k;
  }

  /** One coordinate of a walk that may run backwards from its far end. */
  function Walk(flip: bool, base: int, step: int, n: int, k: int): int
  {
    if flip then base + step * (n - 1) + (-step) * (n - 1 - k) else base + step * k
  }

  lemma WalkForward(flip: bool, base: int, step: int, n: int, k: int)
    ensures Walk(flip, base, step, n, k) == base + step * k
  {
    if flip { Reverse(step, n, k); }
  }

  /** The walk after the flips of _rotate_pixelcopy, before the transpose. */
  function Flipped(r: Rotation, s: Scan, w: int, h: int): Scan
  {
    var s1 := if FlipsY(r) then s.(y32 := s.y32 + s.nextY * (h - 1), nextY := -s.nextY) else s;
    if FlipsX(r)
    then s1.(x32 := s1.x32 + s1.addX * (w - 1), y32 := s1.y32 + s1.addY * (w - 1),
             addX := -s1.addX, addY := -s1.addY)
    else s1
  }

  /** The flipped walk visits the same source points, row i and pixel j read from the far ends. */
  lemma FlippedSampling(r: Rotation, s: Scan, w: int, h: int, i: int, j: int)
    requires s.nextX == 0
    ensures var ri := if FlipsY(r) then h - 1 - i else i;
      var rj := if FlipsX(r) then w - 1 - j else j;
      Sample(Flipped(r, s, w, h), ri, rj) == Sample(s, i, j)
  {
    var ri := if FlipsY(r) then h - 1 - i else i;
    var rj := if FlipsX(r) then w - 1 - j else j;
    var f := Flipped(r, s, w, h);
    assert f.nextX == 0;
    assert f.x32 + f.addX * rj == Walk(FlipsX(r), s.x32, s.addX, w, j);
    WalkForward(FlipsX(r), s.x32, s.addX, w, j);
    assert f.y32 + f.nextY * ri + f.addY * rj
      == Walk(FlipsY(r), 0, s.nextY, h, i) + Walk(FlipsX(r), s.y32, s.addY, w, j);
    WalkForward(FlipsY(r), 0, s.nextY, h, i);
    WalkForward(FlipsX(r), s.y32, s.addY, w, j);
  }

  /**
   * The walk after _rotate_pixelcopy (Panel_LTDC.cpp:465-491) for a w by h
   * logical rectangle: a vertical flip starts at the last row and walks rows
   * backwards, a horizontal flip starts at the last column and walks pixels
   * backwards, a transpose exchanges the row step and the pixel step.
   */
  function RotatedScan(r: Rotation, s: Scan, w: int, h: int): Scan
  {
    var f := Flipped(r, s, w, h);
    if Transposes(r) then f.(addX := f.nextX, nextX := f.addX, addY := f.nextY, nextY := f.addY)
    else f
  }

  /** Row of the rotated walk that serves pixel j of row i of the logical rectangle. */
  function RotatedRow(r: Rotation, w: int, h: int, i: int, j: int): int
  {
    if Transposes(r) then (if FlipsX(r) then w - 1 - j else j) else (if FlipsY(r) then h - 1 - i else i)
  }

  /** Pixel within that row. */
  function RotatedColumn(r: Rotation, w: int, h: int, i: int, j: int): int
  {
    if Transposes(r) then (if FlipsY(r) then h - 1 - i else i) else (if FlipsX(r) then w - 1 - j else j)
  }

  /** The rotated walk reaches, at the rotated row and pixel, the source point of row i, pixel j. */
  lemma RotatedWalk(r: Rotation, s: Scan, w: int, h: int, i: int, j: int)
    requires s.nextX == 0
    ensures Sample(RotatedScan(r, s, w, h), RotatedRow(r, w, h, i, j), RotatedColumn(r, w, h, i, j))
         == Sample(s, i, j)
  {
    var ri := if FlipsY(r) then h - 1 - i else i;
    var rj := if FlipsX(r) then w - 1 - j else j;
    var f := Flipped(r, s, w, h);
    FlippedSampling(r, s, w, h, i, j);
    if Transposes(r) {
      TransposedSample(f, ri, rj);
    }
  }

  /** Where the rotated rectangle puts logical pixel (j, i) of the rectangle, relative to its corner. */
  lemma RotatedPlace(r: Rotation, pw: nat, ph: nat, rc: Rect, i: int, j: int)
    requires RectInBox(rc, Width(r, pw, ph), Height(r, pw, ph))
    requires 0 <= i < rc.h && 0 <= j < rc.w
    ensures var q := ToPhysicalRect(r, pw, ph, rc);
      ToPhysical(r, pw, ph, Point(rc.x + j, rc.y + i))
        == Point(q.x + RotatedColumn(r, rc.w, rc.h, i, j), q.y + RotatedRow(r, rc.w, rc.h, i, j))
  {
    var q := ToPhysicalRect(r, pw, ph, rc);
    var p := ToPhysical(r, pw, ph, Point(rc.x + j, rc.y + i));
    var w, h := Width(r, pw, ph), Height(r, pw, ph);
    var x, y := rc.x + j, rc.y + i;
    var ri := if FlipsY(r) then rc.h - 1 - i else i;
    var rj := if FlipsX(r) then rc.w - 1 - j else j;
    var fx := if FlipsX(r) then w - (x + 1) else x;
    var fy := if FlipsY(r) then h - (y + 1) else y;
    var qx := if FlipsX(r) then w - (rc.x + rc.w) else rc.x;
    var qy := if FlipsY(r) then h - (rc.y + rc.h) else rc.y;
    assert fx - qx == rj && fy - qy == ri;
    if Transposes(r) {
      assert p == Point(fy, fx) && q == Rect(qy, qx, rc.h, rc.w);
    } else {
      assert p == Point(fx, fy) && q == Rect(qx, qy, rc.w, rc.h);
    }
  }

  /**
   * _rotate_pixelcopy is correct: in the physical rectangle that the
   * logical one maps to, the physical pixel that shows logical pixel (j, i)
   * of the rectangle samples the same source point as the unrotated walk
   * does for (j, i): that pixel sits at row RotatedRow and column
   * RotatedColumn of the physical rectangle, and the rotated walk samples
   * there what the plain walk samples at row i, pixel j. writeImage starts
   * with nextx = 0 (Panel_LTDC.cpp:373).
   */
  lemma RotatedSampling(r: Rotation, pw: nat, ph: nat, rc: Rect, s: Scan, i: int, j: int)
    requires RectInBox(rc, Width(r, pw, ph), Height(r, pw, ph))
    requires s.nextX == 0 && 0 <= i < rc.h && 0 <= j < rc.w
    ensures var q := ToPhysicalRect(r, pw, ph, rc);
      ToPhysical(r, pw, ph, Point(rc.x + j, rc.y + i))
        == Point(q.x + RotatedColumn(r, rc.w, rc.h, i, j), q.y + RotatedRow(r, rc.w, rc.h, i, j))
    ensures Sample(RotatedScan(r, s, rc.w, rc.h), RotatedRow(r, rc.w, rc.h, i, j), RotatedColumn(r, rc.w, rc.h, i, j))
         == Sample(s, i, j)
  {
    RotatedPlace(r, pw, ph, rc, i, j);
    RotatedWalk(r, s, rc.w, rc.h, i, j);
  }

  /** Exchanging the row step and the pixel step exchanges row and pixel. */
  lemma TransposedSample(f: Scan, a: int, b: int)
    ensures Sample(f.(addX := f.nextX, nextX := f.addX, addY := f.nextY, nextY := f.addY), b, a)
         == Sample(f, a, b)
  {
  }

  /**
   * The walk readRect sets up (Panel_LTDC.cpp:413-449) for logical start
   * (x, y) on a width by height screen: the start point is mapped to
   * physical coordinates, nexty is negated on a vertical flip, src_x32_add
   * on a horizontal flip, src_y32_add for rotations 1, 2, 5 and 6, and the
   * steps are exchanged on a transpose.
   */
  function ReadScan(r: Rotation, width: int, height: int, x: int, y: int, addX: int, addY: int, unit: int): Scan
  {
    var y1 := if FlipsY(r) then height - (y + 1) else y;
    var nextY := if FlipsY(r) then -unit else unit;
    var x1 := if FlipsX(r) then width - (x + 1) else x;
    var addX1 := if FlipsX(r) then -addX else addX;
    var addY1 := if NegatesAddY(r) then -addY else addY;
    if Transposes(r) then Scan(y1 * unit, x1 * unit, addY1, addX1, nextY, 0)
    else Scan(x1 * unit, y1 * unit, addX1, addY1, 0, nextY)
  }

  /**
   * With the default pixel step of one unit along x, the walk readRect sets
   * up visits, for pixel j of row i, exactly the physical frame-buffer
   * pixel that shows logical pixel (x + j, y + i), scaled to fixed point.
   */
  lemma ReadSampling(r: Rotation, pw: nat, ph: nat, x: int, y: int, unit: int, i: int, j: int)
    requires InBox(Point(x + j, y + i), Width(r, pw, ph), Height(r, pw, ph))
    ensures var p := ToPhysical(r, pw, ph, Point(x + j, y + i));
      Sample(ReadScan(r, Width(r, pw, ph), Height(r, pw, ph), x, y, unit, 0, unit), i, j)
        == Point(p.x * unit, p.y * unit)
  {
    var W, H := Width(r, pw, ph), Height(r, pw, ph);
    var x1 := if FlipsX(r) then W - (x + 1) else x;
    var y1 := if FlipsY(r) then H - (y + 1) else y;
    var sx := if FlipsX(r) then -unit else unit;
    var sy := if FlipsY(r) then -unit else unit;
    var px := if FlipsX(r) then x1 - j else x1 + j;
    var py := if FlipsY(r) then y1 - i else y1 + i;
    Scale(x1, j, unit, FlipsX(r));
    Scale(y1, i, unit, FlipsY(r));
    var t := ReadScan(r, W, H, x, y, unit, 0, unit);
    var p := ToPhysical(r, pw, ph, Point(x + j, y + i));
    if Transposes(r) {
      assert t == Scan(y1 * unit, x1 * unit, 0, sx, sy, 0);
      assert p == Point(py, px);
    } else {
      assert t == Scan(x1 * unit, y1 * unit, sx, 0, 0, sy);
      assert p == Point(px, py);
    }
  }

  lemma Scale(a: int, k: int, unit: int, back: bool)
    ensures (if back then a - k else a + k) * unit == a * unit + (if back then -unit else unit) * k
  {
  }
}

=== FILE: transfers.dfy ===
/**
 * The cursor transfers of Panel_LTDC: writeBlock fills the next n cells of
 * the window with one colour, writePixels sends the next n cells to the
 * pixel callbacks or copies n raw pixels into them. Cells are visited in
 * row-major order from the cursor (module Windows); each logical cell
 * lands on the physical pixel that the rotation maps it to.
 */
module Transfers {
  import opened Arith
  import opened Bytes
  import opened Geometry
  import opened Windows
  import opened Raster
  import opened Calls

  /** The window is well formed and lies on the logical screen. */
  predicate Fits(r: Rotation, pw: nat, ph: nat, win: Window)
  {
    win.Ok() && win.xe < Width(r, pw, ph) && win.ye < Height(r, pw, ph)
  }

  /** The physical pixel of cell k of a run that starts at `start`. */
  function Dest(r: Rotation, pw: nat, ph: nat, win: Window, start: Point, k: int): (q: Point)
    requires Fits(r, pw, ph, win) && win.Contains(start) && k >= 0
    ensures InBox(q, pw, ph)
  {
    ToPhysical(r, pw, ph, win.Advance(start, k))
  }

  /** The physical pixels of the first n cells of a run, in order. */
  function Route(r: Rotation, pw: nat, ph: nat, win: Window, start: Point, n: nat): (s: seq<Point>)
    requires Fits(r, pw, ph, win) && win.Contains(start)
    ensures |s| == n
    ensures forall k :: 0 <= k < n ==> s[k] == Dest(r, pw, ph, win, start, k)
  {
    if n == 0 then [] else Route(r, pw, ph, win, start, n - 1) + [Dest(r, pw, ph, win, start, n - 1)]
  }

  /** Physical pixel q shows a window cell among the first n of the run. */
  predicate Reached(r: Rotation, pw: nat, ph: nat, win: Window, start: Point, n: int, q: Point)
    requires Fits(r, pw, ph, win) && win.Contains(start) && InBox(q, pw, ph)
  {
    var p := ToLogical(r, pw, ph, q);
    win.Contains(p) && win.Covered(start, n, p)
  }

  /** s is t with the pixels of the first n cells of the run set to c and no other pixel changed. */
  ghost predicate RunPainted(s: seq<bv8>, t: seq<bv8>, r: Rotation, pw: nat, ph: nat,
                             win: Window, start: Point, n: int, c: bv32)
    requires Framed(s, pw, ph) && |t| == |s| && Fits(r, pw, ph, win) && win.Contains(start)
  {
    forall q :: InBox(q, pw, ph) ==>
      if Reached(r, pw, ph, win, start, n, q) then PixelIs(s, PixelIndex(pw, ph, q), c)
      else PixelSame(s, t, PixelIndex(pw, ph, q))
  }

  /** Before a run starts nothing is reached. */
  lemma RunPaintedZero(s: seq<bv8>, r: Rotation, pw: nat, ph: nat, win: Window, start: Point, c: bv32)
    requires Framed(s, pw, ph) && Fits(r, pw, ph, win) && win.Contains(start)
    ensures RunPainted(s, s, r, pw, ph, win, start, 0, c)
  {
  }

  /** The block shapes writeBlock uses: part of one row, or whole rows from the left edge. */
  predicate BlockShape(win: Window, p: Point, bw: int, bh: int)
  {
    bw >= 1 && bh >= 1 &&
    ((bh == 1 && p.x + bw - 1 <= win.xe) || (p.x == win.xs && bw == win.Cols() && p.y + bh - 1 <= win.ye))
  }

  /**
   * One writeBlock iteration: painting the physical image of the block at
   * the cursor extends the painted run by the block's cells.
   */
  lemma BlockStep(s: seq<bv8>, u: seq<bv8>, t: seq<bv8>, r: Rotation, pw: nat, ph: nat,
                  win: Window, start: Point, done: nat, bw: int, bh: int, c: bv32)
    requires Framed(s, pw, ph) && |u| == |s| == |t| && Fits(r, pw, ph, win) && win.Contains(start)
    requires BlockShape(win, win.Advance(start, done), bw, bh)
    requires RunPainted(s, t, r, pw, ph, win, start, done, c)
    requires var p := win.Advance(start, done);
      Painted(u, s, pw, ph, ToPhysicalRect(r, pw, ph, Rect(p.x, p.y, bw, bh)), c)
    ensures RunPainted(u, t, r, pw, ph, win, start, done + bw * bh, c)
  {
    var p := win.Advance(start, done);
    var block := Rect(p.x, p.y, bw, bh);
    BlockCover(win, start, done, bw, bh);
    forall q | InBox(q, pw, ph)
      ensures if Reached(r, pw, ph, win, start, done + bw * bh, q) then PixelIs(u, PixelIndex(pw, ph, q), c)
              else PixelSame(u, t, PixelIndex(pw, ph, q))
    {
      var l := ToLogical(r, pw, ph, q);
      PhysicalRectPreimage(r, pw, ph, block, q);
      var i := PixelIndex(pw, ph, q);
      if InRect(l, block) {
        assert win.Contains(l);
        assert PixelIs(u, i, c);
      } else {
        assert PixelSame(u, s, i);
        if Reached(r, pw, ph, win, start, done, q) {
          assert PixelIs(s, i, c);
        } else {
          assert PixelSame(s, t, i);
        }
      }
    }
  }

  /**
   * A run of t cells along one row is, at rotation 0, the span of pixels
   * that fp_copy is given (Panel_LTDC.cpp:153-154).
   */
  lemma {:induction false} RowRoute(pw: nat, ph: nat, win: Window, start: Point, done: nat, t: nat)
    requires Fits(0, pw, ph, win) && win.Contains(start)
    requires var p := win.Advance(start, done); p.x + t - 1 <= win.xe
    ensures var p := win.Advance(start, done);
      Route(0, pw, ph, win, start, done + t) == Route(0, pw, ph, win, start, done) + Span(p.y, p.x, p.x + t)
  {
    var p := win.Advance(start, done);
    if t > 0 {
      RowRoute(pw, ph, win, start, done, t - 1);
      var last := Dest(0, pw, ph, win, start, done + t - 1);
      RowDest(pw, ph, win, start, done, t - 1);
      assert Route(0, pw, ph, win, start, done + t) == Route(0, pw, ph, win, start, done + t - 1) + [last];
      assert Span(p.y, p.x, p.x + t) == Span(p.y, p.x, p.x + t - 1) + [last];
    }
  }

  /** At rotation 0, cell done + k of a run that stays in the cursor's row is k pixels right of the cursor. */
  lemma RowDest(pw: nat, ph: nat, win: Window, start: Point, done: nat, k: nat)
    requires Fits(0, pw, ph, win) && win.Contains(start)
    requires var p := win.Advance(start, done); p.x + k <= win.xe
    ensures var p := win.Advance(start, done); Dest(0, pw, ph, win, start, done + k) == Point(p.x + k, p.y)
  {
    var p := win.Advance(start, done);
    AdvanceAdd(win, start, done, k);
    AdvanceInRow(win, p, k);
    assert win.Advance(start, done + k) == Point(p.x + k, p.y);
  }

  /** The fp_copy call for t cells of the cursor's row (Panel_LTDC.cpp:153-154) extends the route by those cells. */
  lemma RunCall(log: seq<Call>, pw: nat, ph: nat, win: Window, start: Point, done: nat, x: int, y: int, t: nat)
    requires Fits(0, pw, ph, win) && win.Contains(start)
    requires Point(x, y) == win.Advance(start, done) && x + t - 1 <= win.xe
    requires Targets(log) == Route(0, pw, ph, win, start, done)
    ensures Targets(log + [CopyTo(y, x, x + t)]) == Route(0, pw, ph, win, start, done + t)
  {
    TargetsCopy(log, y, x, x + t);
    RowRoute(pw, ph, win, start, done, t);
  }

  /**
   * writePixels at rotation 0 (Panel_LTDC.cpp:149-164): the cursor run is
   * cut at the right edge of the window into row spans, each handed to
   * fp_copy. The spans are, in order, exactly the pixels of the run, and
   * the cursor ends `length` cells further on.
   */
  method CopyRuns(pw: nat, ph: nat, win: Window, x0: int, y0: int, length: nat)
    returns (x: int, y: int, ghost log: seq<Call>)
    requires Fits(0, pw, ph, win) && win.Contains(Point(x0, y0)) && length >= 1
    ensures Point(x, y) == win.Advance(Point(x0, y0), length)
    ensures Targets(log) == Route(0, pw, ph, win, Point(x0, y0), length)
  {
    ghost var start := Point(x0, y0);
    x, y := x0, y0;
    var rest := length;
    ghost var done := 0;
    log := [];
    AdvanceZero(win, start);
    while rest != 0
      invariant 0 <= done <= length && rest == length - done
      invariant Point(x, y) == win.Advance(start, done)
      invariant Targets(log) == Route(0, pw, ph, win, start, done)
      decreases rest
    {
      var linelength := Min(win.xe - x + 1, rest);
      RunCall(log, pw, ph, win, start, done, x, y, linelength);
      log := log + [CopyTo(y, x, x + linelength)];
      BlockCursor(win, start, done, linelength, 1);
      x := x + linelength;
      if x > win.xe {
        x := win.xs;
        y := if y != win.ye then y + 1 else win.ys;
      }
      rest := rest - linelength;
      done := done + linelength;
    }
  }

  /**
   * writePixels walks the window in reflected coordinates (Panel_LTDC.cpp:166-181):
   * a reflected axis is stepped by -1 and its bounds are reflected too. One
   * step of that walk is the reflection of one cursor step.
   */
  lemma ReflectedNext(r: Rotation, w: int, h: int, win: Window, c: Point)
    requires win.Ok() && win.Contains(c)
    ensures var f := Reflect(r, w, h, c);
      var s := Reflect(r, w, h, Point(win.xs, win.ys));
      var e := Reflect(r, w, h, Point(win.xe, win.ye));
      var ax := if FlipsX(r) then -1 else 1;
      var ay := if FlipsY(r) then -1 else 1;
      Reflect(r, w, h, win.Next(c))
        == if f.x != e.x then Point(f.x + ax, f.y) else Point(s.x, if f.y != e.y then f.y + ay else s.y)
  {
  }

  /** The reflected walk after k + 1 cells, from the walk after k cells. */
  lemma ReflectedStep(r: Rotation, pw: nat, ph: nat, win: Window, start: Point, k: nat)
    requires Fits(r, pw, ph, win) && win.Contains(start)
    ensures var w, h := Width(r, pw, ph), Height(r, pw, ph);
      var f := Reflect(r, w, h, win.Advance(start, k));
      var s := Reflect(r, w, h, Point(win.xs, win.ys));
      var e := Reflect(r, w, h, Point(win.xe, win.ye));
      var ax := if FlipsX(r) then -1 else 1;
      var ay := if FlipsY(r) then -1 else 1;
      Reflect(r, w, h, win.Advance(start, k + 1))
        == if f.x != e.x then Point(f.x + ax, f.y) else Point(s.x, if f.y != e.y then f.y + ay else s.y)
  {
    AdvanceNext(win, start, k);
    ReflectedNext(r, Width(r, pw, ph), Height(r, pw, ph), win, win.Advance(start, k));
  }

  /**
   * The cursor step of the writePixels loops (Panel_LTDC.cpp:199-209),
   * taken in reflected coordinates from the reflected cell of cell k, gives
   * the reflected cell of cell k + 1.
   */
  lemma ReflectedCursor(r: Rotation, pw: nat, ph: nat, win: Window, start: Point, k: nat,
                        x: int, y: int, xs: int, xe: int, ys: int, ye: int, ax: int, ay: int)
    requires Fits(r, pw, ph, win) && win.Contains(start)
    requires Point(x, y) == Reflect(r, Width(r, pw, ph), Height(r, pw, ph), win.Advance(start, k))
    requires Point(xs, ys) == Reflect(r, Width(r, pw, ph), Height(r, pw, ph), Point(win.xs, win.ys))
    requires Point(xe, ye) == Reflect(r, Width(r, pw, ph), Height(r, pw, ph), Point(win.xe, win.ye))
    requires ax == (if FlipsX(r) then -1 else 1) && ay == (if FlipsY(r) then -1 else 1)
    ensures Reflect(r, Width(r, pw, ph), Height(r, pw, ph), win.Advance(start, k + 1))
      == if x != xe then Point(x + ax, y) else Point(xs, if y != ye then y + ay else ys)
  {
    ReflectedStep(r, pw, ph, win, start, k);
  }

  /** The reflected walk of writePixels is set up for a run from `start` (Panel_LTDC.cpp:166-181). */
  predicate WalkFrom(r: Rotation, pw: nat, ph: nat, win: Window, start: Point,
                     x: int, y: int, xs: int, xe: int, ys: int, ye: int, ax: int, ay: int)
    requires Fits(r, pw, ph, win) && win.Contains(start)
  {
    var w, h := Width(r, pw, ph), Height(r, pw, ph);
    Point(x, y) == Reflect(r, w, h, start)
    && Point(xs, ys) == Reflect(r, w, h, Point(win.xs, win.ys))
    && Point(xe, ye) == Reflect(r, w, h, Point(win.xe, win.ye))
    && ax == (if FlipsX(r) then -1 else 1) && ay == (if FlipsY(r) then -1 else 1)
  }

  /**
   * writePixels through fp_copy at a non-zero rotation (Panel_LTDC.cpp:166-181,
   * 212-243, 245-254): one call per cell, on the physical row and column of
   * the cell. The calls target, in order, exactly the pixels of the run, and
   * after the reflections are undone the cursor is `length` cells further on.
   */
  method CopyEach(r: Rotation, pw: nat, ph: nat, win: Window, x0: int, y0: int, length: nat)
    returns (x: int, y: int, ghost log: seq<Call>)
    requires Fits(r, pw, ph, win) && win.Contains(Point(x0, y0)) && length >= 1
    ensures Point(x, y) == win.Advance(Point(x0, y0), length)
    ensures Targets(log) == Route(r, pw, ph, win, Point(x0, y0), length)
  {
    var width, height := Width(r, pw, ph), Height(r, pw, ph);
    var xs, xe, ys, ye := win.xs, win.xe, win.ys, win.ye;
    x, y := x0, y0;
    var ax, ay := 1, 1;
    if FlipsY(r) {
      y := height - (y + 1);
      ys := height - (ys + 1);
      ye := height - (ye + 1);
      ay := -1;
    }
    if FlipsX(r) {
      x := width - (x + 1);
      xs := width - (xs + 1);
      xe := width - (xe + 1);
      ax := -1;
    }
    x, y, log := CopyLoop(r, pw, ph, win, Point(x0, y0), x, y, xs, xe, ys, ye, ax, ay, length);
    ghost var c := win.Advance(Point(x0, y0), length);
    if FlipsY(r) {
      y := height - (y + 1);
    }
    if FlipsX(r) {
      x := width - (x + 1);
    }
    assert x == c.x && y == c.y;
  }

  /** The one-pixel fp_copy call of cell n (Panel_LTDC.cpp:217, 232) targets that cell's physical pixel. */
  lemma CellCall(log: seq<Call>, r: Rotation, pw: nat, ph: nat, win: Window, start: Point, n: nat, x: int, y: int)
    requires Fits(r, pw, ph, win) && win.Contains(start)
    requires Point(x, y) == Reflect(r, Width(r, pw, ph), Height(r, pw, ph), win.Advance(start, n))
    requires Targets(log) == Route(r, pw, ph, win, start, n)
    ensures var call := if Transposes(r) then CopyTo(x, y, y + 1) else CopyTo(y, x, x + 1);
      Targets(log + [call]) == Route(r, pw, ph, win, start, n + 1)
  {
    var q := Dest(r, pw, ph, win, start, n);
    if Transposes(r) {
      TargetsCopy(log, x, y, y + 1);
      assert Span(x, y, y + 1) == [q];
    } else {
      TargetsCopy(log, y, x, x + 1);
      assert Span(y, x, x + 1) == [q];
    }
  }

  /** The do-while loops of Panel_LTDC.cpp:214-243, in reflected coordinates. */
  method CopyLoop(r: Rotation, pw: nat, ph: nat, win: Window, ghost start: Point,
                  x0: int, y0: int, xs: int, xe: int, ys: int, ye: int, ax: int, ay: int, length: nat)
    returns (x: int, y: int, ghost log: seq<Call>)
    requires Fits(r, pw, ph, win) && win.Contains(start) && length >= 1
    requires WalkFrom(r, pw, ph, win, start, x0, y0, xs, xe, ys, ye, ax, ay)
    ensures Point(x, y) == Reflect(r, Width(r, pw, ph), Height(r, pw, ph), win.Advance(start, length))
    ensures Targets(log) == Route(r, pw, ph, win, start, length)
  {
    x, y := x0, y0;
    var rest := length;
    ghost var done := 0;
    log := [];
    AdvanceZero(win, start);
    while rest != 0
      invariant 0 <= done <= length && rest == length - done
      invariant Point(x, y) == Reflect(r, Width(r, pw, ph), Height(r, pw, ph), win.Advance(start, done))
      invariant Targets(log) == Route(r, pw, ph, win, start, done)
      decreases rest
    {
      var call := if Transposes(r) then CopyTo(x, y, y + 1) else CopyTo(y, x, x + 1);
      CellCall(log, r, pw, ph, win, start, done, x, y);
      log := log + [call];
      ReflectedCursor(r, pw, ph, win, start, done, x, y, xs, xe, ys, ye, ax, ay);
      if x != xe {
        x := x + ax;
      } else {
        x := xs;
        y := if y != ye then y + ay else ys;
      }
      rest := rest - 1;
      done := done + 1;
    }
  }

  /**
   * The outcome of the no-conversion branch of writePixels after n cells:
   * each of the last Area() cells (earlier ones were overwritten by later
   * ones on the same pixel) holds its source pixel, and no pixel outside
   * the run changed.
   */
  ghost predicate RawCopied(s: seq<bv8>, t: seq<bv8>, src: seq<bv8>, r: Rotation, pw: nat, ph: nat,
                            win: Window, start: Point, n: nat)
    requires Framed(s, pw, ph) && |t| == |s| && 2 * n <= |src| && Fits(r, pw, ph, win) && win.Contains(start)
  {
    (forall k :: 0 <= k < n && n <= k + win.Area() ==>
       PixelFrom(s, PixelIndex(pw, ph, Dest(r, pw, ph, win, start, k)), src, k))
    && (forall q :: InBox(q, pw, ph) && !Reached(r, pw, ph, win, start, n, q) ==>
          PixelSame(s, t, PixelIndex(pw, ph, q)))
  }

  /** Writing source pixel n to the physical pixel of cell n extends RawCopied to n + 1 cells. */
  lemma RawStep(s: seq<bv8>, u: seq<bv8>, t: seq<bv8>, src: seq<bv8>, r: Rotation, pw: nat, ph: nat,
                win: Window, start: Point, n: nat)
    requires Framed(s, pw, ph) && |u| == |t| == |s| && 2 * (n + 1) <= |src|
    requires Fits(r, pw, ph, win) && win.Contains(start)
    requires RawCopied(s, t, src, r, pw, ph, win, start, n)
    requires var d := PixelIndex(pw, ph, Dest(r, pw, ph, win, start, n));
      PixelFrom(u, d, src, n) && forall i :: 0 <= i < pw * ph && i != d ==> PixelSame(u, s, i)
    ensures RawCopied(u, t, src, r, pw, ph, win, start, n + 1)
  {
    var p := win.Advance(start, n);
    var dq := Dest(r, pw, ph, win, start, n);
    var d := PixelIndex(pw, ph, dq);
    LogicalOfPhysical(r, pw, ph, p);
    forall k | 0 <= k < n + 1 && n + 1 <= k + win.Area()
      ensures PixelFrom(u, PixelIndex(pw, ph, Dest(r, pw, ph, win, start, k)), src, k)
    {
      if k < n {
        AdvanceDistinct(win, start, k, n);
        LogicalOfPhysical(r, pw, ph, win.Advance(start, k));
        var e := PixelIndex(pw, ph, Dest(r, pw, ph, win, start, k));
        IndexInjective(pw, ph, Dest(r, pw, ph, win, start, k), dq);
        assert PixelSame(u, s, e);
      }
    }
    BlockCover(win, start, n, 1, 1);
    forall q | InBox(q, pw, ph) && !Reached(r, pw, ph, win, start, n + 1, q)
      ensures PixelSame(u, t, PixelIndex(pw, ph, q))
    {
      var l := ToLogical(r, pw, ph, q);
      assert l != p;
      assert q != dq;
      IndexInjective(pw, ph, q, dq);
      var i := PixelIndex(pw, ph, q);
      assert !Reached(r, pw, ph, win, start, n, q);
      assert PixelSame(s, t, i) && PixelSame(u, s, i);
    }
  }

  /** The index writePixels keeps beside the reflected cursor (Panel_LTDC.cpp:185-191). */
  lemma SwapIndex(r: Rotation, pw: nat, x: int, y: int)
    ensures var xw, yw := (if Transposes(r) then pw else 1), (if Transposes(r) then 1 else pw);
      Idx(pw, Swap(r, Point(x, y))) == y * yw + x * xw
  {
  }

  /** A step along the reflected row moves the index by xw * ax (Panel_LTDC.cpp:201). */
  lemma SwapIndexStep(r: Rotation, pw: nat, x: int, y: int, ax: int)
    ensures var xw := if Transposes(r) then pw else 1;
      Idx(pw, Swap(r, Point(x + ax, y))) == Idx(pw, Swap(r, Point(x, y))) + xw * ax
  {
    if Transposes(r) {
      assert (x + ax) * pw == x * pw + pw * ax;
    }
  }

  /**
   * writePixels without conversion at a non-zero rotation (Panel_LTDC.cpp:166-211,
   * 245-254): the source bytes are copied, two per cell, straight into the
   * physical pixel of each cell, and the cursor ends `length` cells further on.
   */
  method CopyRaw(fb: array<bv8>, src: array<bv8>, r: Rotation, pw: nat, ph: nat, win: Window,
                 x0: int, y0: int, length: nat)
    returns (x: int, y: int)
    requires Framed(fb[..], pw, ph) && src != fb && 2 * length <= src.Length
    requires Fits(r, pw, ph, win) && win.Contains(Point(x0, y0)) && length >= 1
    modifies fb
    ensures Point(x, y) == win.Advance(Point(x0, y0), length)
    ensures RawCopied(fb[..], old(fb[..]), src[..], r, pw, ph, win, Point(x0, y0), length)
  {
    var width, height := Width(r, pw, ph), Height(r, pw, ph);
    var xs, xe, ys, ye := win.xs, win.xe, win.ys, win.ye;
    x, y := x0, y0;
    var ax, ay := 1, 1;
    if FlipsY(r) {
      y := height - (y + 1);
      ys := height - (ys + 1);
      ye := height - (ye + 1);
      ay := -1;
    }
    if FlipsX(r) {
      x := width - (x + 1);
      xs := width - (xs + 1);
      xe := width - (xe + 1);
      ax := -1;
    }
    x, y := RawLoop(fb, src, r, pw, ph, win, Point(x0, y0), x, y, xs, xe, ys, ye, ax, ay, length);
    ghost var c := win.Advance(Point(x0, y0), length);
    if FlipsY(r) {
      y := height - (y + 1);
    }
    if FlipsX(r) {
      x := width - (x + 1);
    }
    assert x == c.x && y == c.y;
  }

  /** The do-while loop of Panel_LTDC.cpp:193-210, in reflected coordinates. */
  method RawLoop(fb: array<bv8>, src: array<bv8>, r: Rotation, pw: nat, ph: nat, win: Window, ghost start: Point,
                 x0: int, y0: int, xs: int, xe: int, ys: int, ye: int, ax: int, ay: int, length: nat)
    returns (x: int, y: int)
    requires Framed(fb[..], pw, ph) && src != fb && 2 * length <= src.Length
    requires Fits(r, pw, ph, win) && win.Contains(start) && length >= 1
    requires WalkFrom(r, pw, ph, win, start, x0, y0, xs, xe, ys, ye, ax, ay)
    modifies fb
    ensures Point(x, y) == Reflect(r, Width(r, pw, ph), Height(r, pw, ph), win.Advance(start, length))
    ensures RawCopied(fb[..], old(fb[..]), src[..], r, pw, ph, win, start, length)
  {
    var xw, yw := 1, pw;
    if Transposes(r) {
      xw, yw := yw, xw;
    }
    SwapIndex(r, pw, x0, y0);
    var idx := y0 * yw + x0 * xw;
    x, y := x0, y0;
    var data := 0;
    var rest := length;
    ghost var done := 0;
    AdvanceZero(win, start);
    while rest != 0
      invariant 0 <= done <= length && rest == length - done && data == 2 * done
      invariant Point(x, y) == Reflect(r, Width(r, pw, ph), Height(r, pw, ph), win.Advance(start, done))
      invariant idx == Idx(pw, Swap(r, Point(x, y)))
      invariant RawCopied(fb[..], old(fb[..]), src[..], r, pw, ph, win, start, done)
      decreases rest
    {
      StoreRaw(fb, src, r, pw, ph, win, start, done, idx, data, old(fb[..]));
      data := data + 2;
      x, y, idx := RawNext(r, pw, ph, win, start, done, x, y, idx, xw, yw, xs, xe, ys, ye, ax, ay);
      rest := rest - 1;
      done := done + 1;
    }
  }

  /** The cursor step of the no-conversion loop (Panel_LTDC.cpp:199-208), keeping idx the physical index of (x, y). */
  method RawNext(r: Rotation, pw: nat, ph: nat, win: Window, ghost start: Point, ghost k: nat,
                 x: int, y: int, idx: int, xw: int, yw: int, xs: int, xe: int, ys: int, ye: int, ax: int, ay: int)
    returns (x': int, y': int, idx': int)
    requires Fits(r, pw, ph, win) && win.Contains(start)
    requires Point(x, y) == Reflect(r, Width(r, pw, ph), Height(r, pw, ph), win.Advance(start, k))
    requires Point(xs, ys) == Reflect(r, Width(r, pw, ph), Height(r, pw, ph), Point(win.xs, win.ys))
    requires Point(xe, ye) == Reflect(r, Width(r, pw, ph), Height(r, pw, ph), Point(win.xe, win.ye))
    requires ax == (if FlipsX(r) then -1 else 1) && ay == (if FlipsY(r) then -1 else 1)
    requires xw == (if Transposes(r) then pw else 1) && yw == (if Transposes(r) then 1 else pw)
    requires idx == Idx(pw, Swap(r, Point(x, y)))
    ensures Point(x', y') == Reflect(r, Width(r, pw, ph), Height(r, pw, ph), win.Advance(start, k + 1))
    ensures idx' == Idx(pw, Swap(r, Point(x', y')))
  {
    ReflectedCursor(r, pw, ph, win, start, k, x, y, xs, xe, ys, ye, ax, ay);
    if x != xe {
      SwapIndexStep(r, pw, x, y, ax);
      idx' := idx + xw * ax;
      x', y' := x + ax, y;
    } else {
      x' := xs;
      y' := if y != ye then y + ay else ys;
      SwapIndex(r, pw, x', y');
      idx' := y' * yw + x' * xw;
    }
  }

  /** One cell of the no-conversion loop (Panel_LTDC.cpp:194-198): the two source bytes of cell n go to its physical pixel. */
  method StoreRaw(fb: array<bv8>, src: array<bv8>, r: Rotation, pw: nat, ph: nat, win: Window, ghost start: Point,
                  ghost n: nat, idx: int, data: int, ghost t: seq<bv8>)
    requires Framed(fb[..], pw, ph) && src != fb && 2 * (n + 1) <= src.Length && |t| == fb.Length
    requires Fits(r, pw, ph, win) && win.Contains(start) && data == 2 * n
    requires idx == Idx(pw, Swap(r, Reflect(r, Width(r, pw, ph), Height(r, pw, ph), win.Advance(start, n))))
    requires RawCopied(fb[..], t, src[..], r, pw, ph, win, start, n)
    modifies fb
    ensures RawCopied(fb[..], t, src[..], r, pw, ph, win, start, n + 1)
  {
    var bytes := 2;
    ghost var before := fb[..];
    assert idx == PixelIndex(pw, ph, Dest(r, pw, ph, win, start, n));
    var dst := idx * bytes;
    fb[dst] := src[data];
    fb[dst + 1] := src[data + 1];
    RawStep(before, fb[..], t, src[..], r, pw, ph, win, start, n);
  }
}

=== FILE: window.dfy ===
/**
 * The active window of Panel_LTDC and the cursor that writeBlock and
 * writePixels walk through it: row-major order, wrapping from the right edge
 * to the start of the next row and from the bottom row back to the top.
 */
module Windows {
  import opened Arith
  import opened Geometry

  /** Inclusive window bounds, in logical coordinates. */
  datatype Window = Window(xs: int, ys: int, xe: int, ye: int) {

    predicate Ok()
    {
      0 <= xs <= xe && 0 <= ys <= ye
    }

    function Cols(): int
    {
      xe - xs + 1
    }

    function Rows(): int
    {
      ye - ys + 1
    }

    function Area(): (a: int)
      requires Ok()
      ensures a >= 1
    {
      MulAtLeast(Rows(), Cols());
      Cols() * Rows()
    }

    predicate Contains(p: Point)
    {
      xs <= p.x <= xe && ys <= p.y <= ye
    }

    /** Position of a window cell in row-major order. */
    function Offset(p: Point): (o: int)
      requires Ok() && Contains(p)
      ensures 0 <= o < Area()
    {
      MulAtLeast(Rows() - (p.y - ys), Cols());
      assert (Rows() - (p.y - ys)) * Cols() == Area() - (p.y - ys) * Cols();
      (p.y - ys) * Cols() + (p.x - xs)
    }

    /** The window cell at a row-major position; the inverse of Offset. */
    function CellAt(o: int): (p: Point)
      requires Ok() && 0 <= o < Area()
      ensures Contains(p) && Offset(p) == o
    {
      DivBelow(o, Cols(), Rows());
      assert o == o / Cols() * Cols() + o % Cols();
      Point(xs + o % Cols(), ys + o / Cols())
    }

    /** One cursor step as the write loops take it. */
    function Next(p: Point): Point
    {
      if p.x != xe then Point(p.x + 1, p.y)
      else Point(xs, if p.y != ye then p.y + 1 else ys)
    }

    /** The cell n steps after p in row-major order, wrapping modulo the window area. */
    function Advance(p: Point, n: int): (q: Point)
      requires Ok() && Contains(p) && n >= 0
      ensures Contains(q)
      ensures Offset(q) == (Offset(p) + n) % Area()
    {
      CellAt((Offset(p) + n) % Area())
    }

    /**
     * Whether cell p is among the n cells that a run starting at `start`
     * visits: all of them once n reaches the area, otherwise those whose
     * row-major distance from `start` (modulo the area) is below n.
     */
    predicate Covered(start: Point, n: int, p: Point)
      requires Ok() && Contains(start) && Contains(p)
    {
      n >= Area() || (Offset(p) - Offset(start)) % Area() < n
    }
  }

  lemma CellOfOffset(w: Window, p: Point)
    requires w.Ok() && w.Contains(p)
    ensures w.CellAt(w.Offset(p)) == p
  {
    var o := w.Offset(p);
    DivModOf(o, w.Cols(), p.y - w.ys, p.x - w.xs);
  }

  lemma AdvanceZero(w: Window, p: Point)
    requires w.Ok() && w.Contains(p)
    ensures w.Advance(p, 0) == p
  {
    ModSmall(w.Offset(p), w.Area());
    CellOfOffset(w, p);
  }

  /** Advancing d cells and then n more is advancing d + n cells. */
  lemma AdvanceAdd(w: Window, s: Point, d: int, n: int)
    requires w.Ok() && w.Contains(s) && d >= 0 && n >= 0
    ensures w.Advance(w.Advance(s, d), n) == w.Advance(s, d + n)
  {
    ModAddLeft(w.Offset(s) + d, n, w.Area());
  }

  /** A run that stays in one row moves the cursor along that row. */
  lemma AdvanceInRow(w: Window, p: Point, t: int)
    requires w.Ok() && w.Contains(p) && t >= 0 && p.x + t <= w.xe
    ensures w.Advance(p, t) == Point(p.x + t, p.y)
  {
    var q := Point(p.x + t, p.y);
    assert w.Offset(q) == w.Offset(p) + t;
    ModSmall(w.Offset(q), w.Area());
    CellOfOffset(w, q);
  }

  /** Advancing by one cell is the loops' cursor step. */
  lemma {:induction false} AdvanceOne(w: Window, p: Point)
    requires w.Ok() && w.Contains(p)
    ensures w.Advance(p, 1) == w.Next(p)
  {
    if p.x != w.xe {
      AdvanceInRow(w, p, 1);
    } else if p.y != w.ye {
      AdvanceNextRow(w, p);
    } else {
      AdvanceLastCell(w, p);
    }
  }

  /** From the right edge of a row that is not the last, one step leads to the left edge of the next row. */
  lemma AdvanceNextRow(w: Window, p: Point)
    requires w.Ok() && w.Contains(p) && p.x == w.xe && p.y != w.ye
    ensures w.Advance(p, 1) == Point(w.xs, p.y + 1)
  {
    var q := Point(w.xs, p.y + 1);
    assert w.Offset(p) + 1 == (p.y - w.ys + 1) * w.Cols();
    assert w.Offset(q) == w.Offset(p) + 1;
    ModSmall(w.Offset(q), w.Area());
    CellOfOffset(w, q);
  }

  /** From the last cell of the window, one step leads back to its first cell. */
  lemma AdvanceLastCell(w: Window, p: Point)
    requires w.Ok() && w.Contains(p) && p.x == w.xe && p.y == w.ye
    ensures w.Advance(p, 1) == Point(w.xs, w.ys)
  {
    assert w.Offset(p) + 1 == (p.y - w.ys + 1) * w.Cols() == w.Area();
    DivModOf(w.Offset(p) + 1, w.Area(), 1, 0);
    var q := Point(w.xs, w.ys);
    assert w.Offset(q) == 0;
    CellOfOffset(w, q);
  }

  /** The k-th step of the run is the loops' step applied to the previous cell. */
  lemma AdvanceNext(w: Window, s: Point, k: int)
    requires w.Ok() && w.Contains(s) && k >= 0
    ensures w.Advance(s, k + 1) == w.Next(w.Advance(s, k))
  {
    AdvanceAdd(w, s, k, 1);
    AdvanceOne(w, w.Advance(s, k));
  }

  /** Covered means visited: p is covered by n cells from s exactly when some k < n advances s to p. */
  lemma CoveredIffVisited(w: Window, s: Point, n: int, p: Point)
    requires w.Ok() && w.Contains(s) && w.Contains(p) && n >= 0
    ensures w.Covered(s, n, p) <==> exists k :: 0 <= k < n && w.Advance(s, k) == p
  {
    var a, os, op := w.Area(), w.Offset(s), w.Offset(p);
    var d := (op - os) % a;
    if w.Covered(s, n, p) {
      assert (os + d) % a == op by {
        ModAddLeft(op - os, os, a);
        ModSmall(op, a);
      }
      CellOfOffset(w, p);
      assert w.Advance(s, d) == p;
    }
    if k :| 0 <= k < n && w.Advance(s, k) == p {
      if n < a {
        assert op == (os + k) % a;
        ModAddLeft(os + k, -os, a);
        ModSmall(k, a);
      }
    }
  }

  /** Cells whose offsets lie between full rows a and b are the cells of rows ys + a to ys + b - 1. */
  lemma OffsetRows(w: Window, q: Point, a: int, b: int)
    requires w.Ok() && w.Contains(q)
    ensures a * w.Cols() <= w.Offset(q) < b * w.Cols() <==> w.ys + a <= q.y < w.ys + b
  {
    var c, o, r := w.Cols(), w.Offset(q), q.y - w.ys;
    if r < a {
      MulAtLeast(a - r, c);
      assert (a - r) * c == a * c - r * c;
    } else {
      MulAtLeast(r - a + 1, c);
      assert (r - a + 1) * c == r * c - a * c + c;
    }
    if r < b {
      MulAtLeast(b - r, c);
      assert (b - r) * c == b * c - r * c;
    } else {
      MulAtLeast(r - b + 1, c);
      assert (r - b + 1) * c == r * c - b * c + c;
    }
  }

  /** Within one row, a cell lies in the run p.x .. p.x + bw - 1 exactly when its offset does. */
  lemma RowRunMember(w: Window, p: Point, bw: int, q: Point)
    requires w.Ok() && w.Contains(p) && w.Contains(q) && bw >= 1 && p.x + bw - 1 <= w.xe
    ensures InRect(q, Rect(p.x, p.y, bw, 1)) <==> w.Offset(p) <= w.Offset(q) < w.Offset(p) + bw
  {
    var c := w.Cols();
    if q.y > p.y {
      MulAtLeast(q.y - p.y, c);
      assert w.Offset(q) - w.Offset(p) == (q.y - p.y) * c + (q.x - p.x);
    } else if q.y < p.y {
      MulAtLeast(p.y - q.y, c);
      assert w.Offset(p) - w.Offset(q) == (p.y - q.y) * c + (p.x - q.x);
    }
  }

  lemma RowRunFits(w: Window, p: Point, bw: int)
    requires w.Ok() && w.Contains(p) && bw >= 1 && p.x + bw - 1 <= w.xe
    ensures w.Offset(p) + bw <= w.Area()
  {
    var c := w.Cols();
    assert w.Offset(p) + bw <= (p.y - w.ys + 1) * c;
    MulAtLeast(w.ye - p.y + 1, c);
    assert (w.ye - p.y + 1) * c == w.Area() - (p.y - w.ys) * c;
  }

  lemma FullRowsFit(w: Window, p: Point, bh: int)
    requires w.Ok() && w.Contains(p) && bh >= 1 && p.x == w.xs && p.y + bh - 1 <= w.ye
    ensures w.Offset(p) + w.Cols() * bh == (p.y - w.ys + bh) * w.Cols() <= w.Area()
  {
    var c := w.Cols();
    assert (w.ye + 1 - (p.y + bh)) * c == w.Area() - (p.y - w.ys + bh) * c;
    if w.ye + 1 - (p.y + bh) > 0 {
      MulAtLeast(w.ye + 1 - (p.y + bh), c);
    }
  }

  /** The cells of a writeBlock block are the window offsets op .. op + n - 1, with no wrap. */
  lemma BlockOffsets(w: Window, p: Point, bw: int, bh: int)
    requires w.Ok() && w.Contains(p) && bw >= 1 && bh >= 1
    requires (bh == 1 && p.x + bw - 1 <= w.xe) || (p.x == w.xs && bw == w.Cols() && p.y + bh - 1 <= w.ye)
    ensures w.Offset(p) + bw * bh <= w.Area()
    ensures forall q :: w.Contains(q) ==>
              (InRect(q, Rect(p.x, p.y, bw, bh)) <==> w.Offset(p) <= w.Offset(q) < w.Offset(p) + bw * bh)
  {
    if bh == 1 {
      RowRunFits(w, p, bw);
      forall q | w.Contains(q)
        ensures InRect(q, Rect(p.x, p.y, bw, bh)) <==> w.Offset(p) <= w.Offset(q) < w.Offset(p) + bw * bh
      {
        RowRunMember(w, p, bw, q);
      }
    } else {
      FullRowsFit(w, p, bh);
      forall q | w.Contains(q)
        ensures InRect(q, Rect(p.x, p.y, bw, bh)) <==> w.Offset(p) <= w.Offset(q) < w.Offset(p) + bw * bh
      {
        OffsetRows(w, q, p.y - w.ys, p.y - w.ys + bh);
      }
    }
  }

  /**
   * One block of writeBlock: at cursor p = Advance(s, done) it fills either
   * part of the current row or whole rows starting at the left edge, never
   * past the bottom. The covered set grows by exactly that block.
   */
  lemma BlockCover(w: Window, s: Point, done: int, bw: int, bh: int)
    requires w.Ok() && w.Contains(s) && done >= 0 && bw >= 1 && bh >= 1
    requires var p := w.Advance(s, done);
      (bh == 1 && p.x + bw - 1 <= w.xe) || (p.x == w.xs && bw == w.Cols() && p.y + bh - 1 <= w.ye)
    ensures var p := w.Advance(s, done);
      forall q :: w.Contains(q) ==>
        (w.Covered(s, done + bw * bh, q) <==> w.Covered(s, done, q) || InRect(q, Rect(p.x, p.y, bw, bh)))
  {
    var p := w.Advance(s, done);
    BlockOffsets(w, p, bw, bh);
    forall q | w.Contains(q)
      ensures w.Covered(s, done + bw * bh, q) <==> w.Covered(s, done, q) || InRect(q, Rect(p.x, p.y, bw, bh))
    {
      CoverExtend(w.Area(), w.Offset(s), done, bw * bh, w.Offset(p), w.Offset(q));
    }
  }

  /** The cell at the start of the row after row y, or the top-left cell after the last row. */
  lemma CursorAfterRows(w: Window, y: int)
    requires w.Ok() && w.ys <= y <= w.ye + 1
    ensures (y - w.ys) * w.Cols() <= w.Area()
    ensures w.CellAt((y - w.ys) * w.Cols() % w.Area()) == Point(w.xs, if w.ye < y then w.ys else y)
  {
    var c, a, e := w.Cols(), w.Area(), (y - w.ys) * w.Cols();
    assert (w.ye + 1 - y) * c == a - e;
    if y <= w.ye {
      MulAtLeast(w.ye + 1 - y, c);
      var q := Point(w.xs, y);
      assert w.Offset(q) == e;
      ModSmall(e, a);
      CellOfOffset(w, q);
    } else {
      DivModOf(e, a, 1, 0);
      var q := Point(w.xs, w.ys);
      assert w.Offset(q) == 0;
      CellOfOffset(w, q);
    }
  }

  lemma RowEndCursor(w: Window, p: Point, bw: int)
    requires w.Ok() && w.Contains(p) && bw >= 1 && p.x + bw == w.xe + 1
    ensures w.Advance(p, bw) == Point(w.xs, if w.ye < p.y + 1 then w.ys else p.y + 1)
  {
    var c := w.Cols();
    assert w.Offset(p) + bw == (p.y - w.ys) * c + c;
    assert (p.y - w.ys) * c + c == (p.y + 1 - w.ys) * c;
    CursorAfterRows(w, p.y + 1);
  }

  lemma FullRowsCursor(w: Window, p: Point, bh: int)
    requires w.Ok() && w.Contains(p) && bh >= 1 && p.x == w.xs && p.y + bh - 1 <= w.ye
    ensures w.Advance(p, w.Cols() * bh) == Point(w.xs, if w.ye < p.y + bh then w.ys else p.y + bh)
  {
    FullRowsFit(w, p, bh);
    CursorAfterRows(w, p.y + bh);
  }

  /** After a writeBlock block the cursor is the cell that follows it, wrapping to the top row. */
  lemma BlockCursor(w: Window, s: Point, done: int, bw: int, bh: int)
    requires w.Ok() && w.Contains(s) && done >= 0 && bw >= 1 && bh >= 1
    requires var p := w.Advance(s, done);
      (bh == 1 && p.x + bw - 1 <= w.xe) || (p.x == w.xs && bw == w.Cols() && p.y + bh - 1 <= w.ye)
    ensures var p := w.Advance(s, done);
      w.Advance(s, done + bw * bh)
        == if p.x + bw <= w.xe then Point(p.x + bw, p.y)
           else Point(w.xs, if w.ye < p.y + bh then w.ys else p.y + bh)
  {
    var p := w.Advance(s, done);
    AdvanceAdd(w, s, done, bw * bh);
    if p.x + bw <= w.xe {
      AdvanceInRow(w, p, bw * bh);
    } else if bh == 1 {
      RowEndCursor(w, p, bw);
    } else {
      FullRowsCursor(w, p, bh);
    }
  }

  /** Fewer than Area() steps apart, the cursor is never on the same cell twice. */
  lemma AdvanceDistinct(w: Window, s: Point, k: int, k2: int)
    requires w.Ok() && w.Contains(s) && 0 <= k < k2 < k + w.Area()
    ensures w.Advance(s, k) != w.Advance(s, k2)
  {
    var x := w.Offset(s) + k;
    ModDistinct(x, k2 - k, w.Area());
    assert w.Offset(s) + k2 == x + (k2 - k);
  }
}
